=== FILE: README.md ===
# Storefront core in Dafny

A model of the client-side and request-handling core of a Next.js phone and accessories
storefront, and proofs about it:

- the **cart store** (`useCartStore`): adding, removing and re-quantifying lines, the
  derived totals, and the `migrate` that turns any previously persisted blob (including
  entries of an older book shop) back into cart lines;
- the **favorites store** (`useFavoritesStore`): toggling, removing, membership, and its
  own `migrate`;
- the **persistence** of both stores through `localStorage` (or the do-nothing storage used
  when there is no window), as explicit save and load steps;
- the **product card**'s normalisation of a raw catalog row (`toCartProductCompat`), its
  discount arithmetic (`computeFinalPrice`) and price label (`formatPrice`);
- the parts of the **admin routes** that do not touch the database: product creation
  (slug default, `toSlug`, `validateProductData`, `toId`, the insert payload), product
  editing (`clamp`, `isHex`, `normalizeHex`, `validateRequired`, the id check, the update
  patch) and brand creation (`validate`, trimming);
- the **orders page**'s reading of an order's `items` column (`normalizeItems`), its item
  count and `renderStatus`;
- the **pager** (`Pagination`), as the sequence of controls it renders.

JavaScript values are the datatype `Js.Json`; an absent property reads as `None`
(`undefined`). JSON cannot carry NaN or Infinity, so every stored or posted JSON number is
finite, and `Number(v)` is `Js.JsNumber` (`Fin(x)` or `NaN`); text that JavaScript reads
as Infinity is outside the model (see "Left out"). A product id is an
`Identity.Id`: the value found in the `id` field together with its text `String(id)`,
which is what both stores compare ids by. Numbers are unbounded reals; `Math.floor`,
`Math.round`, `Math.min`/`Math.max` are written out.

Where the code and its documentation part ways, the model follows the code: `migrate`
keeps a stored quantity of 1.5 as 1.5 (it is `Math.max(1, q)`, not floored), so a cart
quantity is a positive real rather than a positive whole number
(`CartStore.FractionalLineCanDropBelowOne`).

Loading is simplified. The program calls `migrate` only for a blob stored under an older
version (cart version 4, favorites version 2), so a blob the store wrote itself reloads as
it was saved. The model always migrates. Its save-then-load round trips
(`CartMigrate.MigrateRoundTrip`, `FavoritesMigrate.MigrateRoundTrip`) are therefore stated
for storable state: lines and favorites whose products carry only the properties `migrate`
copies, and favorites that carry a `created_at`. These round trips also say what
`migrate` does to a blob of the current shape when it does run.

Modules: `Wrappers`, `Text`, `Js` (JavaScript values and coercions), `Identity`, `Keyed`
(lookups by id), `Validation` (ordered error lists), `Catalog` (the stored product),
`Legacy` (the fallback chains shared by both migrations), `CartStore`, `CartMigrate`,
`FavoritesStore`, `FavoritesMigrate`, `Persistence`, `ProductCard`, `Slug`, `ProductAdd`,
`ProductEdit`, `BrandAdd`, `Orders`, `Pagination`.

## Model

| member | source | states |
|---|---|---|
| Identity.IdOf | src/store/cart.ts:172 | the id read from a stored `id` field: text stays text, a whole number becomes a numeric id, and in every case the id's comparison text is `String` of the field (`"undefined"` when absent) |
| Identity.IdOfRoundTrip | src/store/cart.ts:172 | reading an `id` field and writing the id back gives the same field value, and every id read is canonical |
| Identity.IdRoundTrip | src/store/favorites.ts:105 | a canonical id written into an entry and read back is the same id |
| Identity.SameNumIff | src/store/cart.ts:53 | two numeric ids are the same product exactly when the numbers are equal |
| Identity.SameIdEquivalence | src/store/cart.ts:53 | `sameId` is reflexive, symmetric and transitive, so it splits ids into products |
| Identity.SameNumStr | src/store/favorites.ts:43 | a numeric id and a text id are the same product exactly when the text is the number's decimal form |
| Identity.SevenIsSeven | src/store/favorites.ts:43 | `sameId` equates 7 and "7" but not 7 and "07" |
| Keyed.Without | src/store/cart.ts:106 | `filter(!sameId)` keeps exactly the entries of other products, never gets longer, is shorter iff the product was present, changes nothing when it was absent, and keeps entries distinct |
| Keyed.WithoutConcat | src/store/favorites.ts:76 | filtering a product out of two runs of entries is filtering each run: the kept entries keep their order |
| Keyed.HasWithoutOther | src/store/favorites.ts:79 | filtering one product out does not change whether any other product is present |
| CartStore.AddToCart | src/store/cart.ts:76-103 | an existing product keeps its lines and positions, and each of its lines (there may be several in a migrated cart) rises by `max(1, floor(qty))` while other lines keep their quantities; a new product is appended with that quantity and the name, brand and image fallbacks; afterwards the product is in the cart; one line per product, positive quantities and displayable lines are preserved |
| CartStore.AddToCartEffect | src/store/cart.ts:76-103 | on any cart, adding raises the product's quantity by `max(1, floor(qty))` once per line holding it (a new product gets exactly that quantity), leaves every other product's lines as they were, and moves the total count by the product's change; with one line per product both rise by exactly `max(1, floor(qty))` |
| CartStore.AddToCartPrice | src/store/cart.ts:76-103 | adding raises the total price by `max(1, floor(qty))` times the product's unit price: the summed unit prices of its lines when present, the product's price when new |
| CartStore.AddTwiceOneLine | src/store/cart.ts:78-88 | adding the same product twice (even as 7 and then "7") gives one line holding both quantities |
| CartStore.RemoveFromCart | src/store/cart.ts:105-107 | the lines left are exactly those of other products, the product is gone, an absent product changes nothing, and the cart invariant is kept |
| CartStore.RemoveFromCartEffect | src/store/cart.ts:105-107 | removing lowers the total count by exactly the product's quantity and the total price by exactly what its lines contributed, and leaves none of it |
| CartStore.SetQuantity | src/store/cart.ts:109-120 | a quantity that floors to zero or below removes the product; otherwise only the product's lines change, to the floored quantity; the cart invariant is kept |
| CartStore.SetQuantityEffect | src/store/cart.ts:109-120 | on any cart, after a positive `setQuantity` every line of the product holds the floored value (a removal leaves none), every other product's lines are unchanged, and the total count moves by the product's change; with one line per product the product's quantity is the floored value |
| CartStore.Increment | src/store/cart.ts:122-128 | products and order are untouched, every line of the product rises by one and every other line keeps its quantity, an absent product changes nothing, and the cart invariant is kept |
| CartStore.IncrementEffect | src/store/cart.ts:122-128 | on any cart, the product's quantity and the total count both rise by the number of its lines, and other products are unchanged; with one line per product both rise by one |
| CartStore.IncrementPrice | src/store/cart.ts:122-128 | incrementing raises the total price by the product's unit price (summed over its lines) |
| CartStore.Decrement | src/store/cart.ts:130-138 | the lines left are exactly the lines with the product's quantities lowered by one that stay positive; every other product's lines are unchanged; no line is left with a zero or negative quantity, the cart never grows, and the cart invariant is kept |
| CartStore.DecrementLineByLine | src/store/cart.ts:130-138 | on every cart, decrementing a concatenation decrements each run, and one line becomes its lowered copy or nothing when that is not positive; so the result keeps order and repeated lines, whatever the quantities |
| CartStore.DecrementMixedLines | src/store/cart.ts:130-138 | a product held on two lines at 1 and 3 units keeps only the second line, at 2 |
| CartStore.KeepPositiveConcat | src/store/cart.ts:137 | `filter(quantity > 0)` of a concatenation is the concatenation of the filtered runs |
| CartStore.RequantifyConcat | src/store/cart.ts:132-136 | the quantity `map` of a concatenation is the concatenation of the mapped runs |
| CartStore.DecrementAtOneRemoves | src/store/cart.ts:130-138 | decrementing a product all of whose lines hold at most one (with one line per product: whose quantity is at most one) is the same as removing it |
| CartStore.DecrementAtOneFilters | src/store/cart.ts:130-138 | when every line of the product holds at most one, the decremented and filtered cart is the cart without the product |
| CartStore.DecrementAboveOneKeeps | src/store/cart.ts:130-138 | when every line of the product holds more than one, decrementing lowers each by one, keeps them all, and lowers the product's quantity by the number of its lines; with one line per product, a quantity above one drops by exactly one and the line stays |
| CartStore.DecrementSingleAbove | src/store/cart.ts:130-138 | a one-line cart holding more than one unit of the product decrements to the same line one unit lower |
| CartStore.DecrementSingleLast | src/store/cart.ts:130-138 | a one-line cart holding at most one unit of the product decrements to the empty cart |
| CartStore.FractionalLineCanDropBelowOne | src/store/cart.ts:193 | a migrated quantity of 1.5 decrements to 0.5 and stays in the cart: only positivity, not a minimum of one, is an invariant |
| CartStore.ClearCart | src/store/cart.ts:140-141 | the cleared cart is empty, satisfies the invariant and has zero count and zero price |
| CartStore.TotalCount | src/store/cart.ts:147-148 | with positive quantities the count is positive exactly when the cart has a line |
| CartStore.TotalPrice | src/store/cart.ts:144-145 | with non-negative prices and quantities the total price is non-negative |
| CartStore.TotalPriceSplit | src/store/cart.ts:144-145 | the total price is what the product's lines contribute plus the total price of the other products' lines |
| CartStore.LineCountContains | src/store/cart.ts:78-88 | a product has a line exactly when it is in the cart, and exactly one line when the cart holds each product once |
| CartStore.TotalCountSplit | src/store/cart.ts:147-148 | the total count is the product's quantity plus the count of the other products' lines |
| CartStore.RequantifyEffect | src/store/cart.ts:115-127 | on any cart, changing one product's quantity leaves the other products' lines unchanged, adds the change once per line or sets every line, and moves the total count by exactly the product's change; with one line per product the product's quantity is the changed one |
| CartStore.AddByPriceEffect | src/store/cart.ts:115-127 | adding k units to each of a product's lines raises the total price by k times its unit price |
| CartStore.TotalsExample | src/store/cart.ts:144-148 | two lines of price 10 × 2 and 5 × 1 total 25 in price and 3 in count |
| CartStore.Scenario | src/store/cart.ts:76-138 | adding a product of price 100 and incrementing it gives count 2 and price 200, and two decrements empty the cart |
| CartMigrate.MigrateQuantity | src/store/cart.ts:193 | a migrated quantity is at least one: a stored number of at least one is kept as it is (not floored), anything else becomes one |
| CartMigrate.MigrateBrand | src/store/cart.ts:183 | the migrated brand is always truthy: a truthy stored brand is kept, anything else becomes the placeholder |
| CartMigrate.MigrateAttrs | src/store/cart.ts:179-191 | every listed property found in the entry is copied with its stored value, no unlisted property appears, and `brand_name` is always truthy: the stored brand when truthy, else the placeholder |
| CartMigrate.MigrateLine | src/store/cart.ts:160-194 | every migrated line is displayable (name, image and brand set), has quantity at least one and a canonical id |
| CartMigrate.Migrate | src/store/cart.ts:155-198 | no stored state or no `items` array gives the empty cart; a null entry makes `migrate` throw; otherwise every entry becomes one line, in order |
| CartMigrate.LineJson | src/store/cart.ts:199 | a written line holds the product's id, name and brand and the line's quantity under their property names |
| CartMigrate.Snapshot | src/store/cart.ts:199 | `partialize` writes an object with only `items`, one written line per cart line, in cart order |
| CartMigrate.MigrateLineRoundTrip | src/store/cart.ts:160-199 | a line as the store writes it migrates back to itself |
| CartMigrate.MigrateRoundTrip | src/store/cart.ts:155-199 | a whole cart as `partialize` writes it migrates back to the same cart |
| CartMigrate.MigrateLineIdempotent | src/store/cart.ts:160-194 | migrating an entry a second time changes nothing |
| CartMigrate.MigrateKeepsDuplicates | src/store/cart.ts:159-160 | two stored entries with ids 7 and "7" both survive migration, so a migrated cart can hold one product twice |
| FavoritesStore.RemoveFavorite | src/store/favorites.ts:75-77 | exactly the other products are kept, the product is no longer a favorite, an absent product changes nothing, distinctness is kept |
| FavoritesStore.ToggleFavorite | src/store/favorites.ts:65-73 | a present product is removed, an absent one appended; toggling flips the product's membership and keeps the list free of duplicates |
| FavoritesStore.ToggleFlipsMembership | src/store/favorites.ts:65-79 | after a toggle, `isFavorite` of any id naming the product is the opposite of before |
| FavoritesStore.ToggleKeepsOthers | src/store/favorites.ts:65-79 | a toggle does not change `isFavorite` of any other product |
| FavoritesStore.ToggleTwiceAbsent | src/store/favorites.ts:65-73 | toggling an absent product twice restores the list |
| FavoritesStore.ToggleTwicePresent | src/store/favorites.ts:65-73 | toggling a present product twice moves it to the end |
| FavoritesStore.RemoveFavoriteSplits | src/store/favorites.ts:75-77 | removal works run by run: removing from a concatenation removes from each part |
| FavoritesStore.RemoveFavoriteIdempotent | src/store/favorites.ts:75-77 | removing twice is removing once |
| FavoritesStore.Clear | src/store/favorites.ts:81 | after `clear` no product is a favorite |
| FavoritesStore.IsFavoriteBySameId | src/store/favorites.ts:79 | `isFavorite` gives the same answer for every id naming the same product |
| FavoritesStore.IsFavoriteAppend | src/store/favorites.ts:71-79 | after appending a product, `isFavorite` holds for exactly that product and the ones saved before |
| FavoritesStore.ToggleScenario | src/store/favorites.ts:65-79 | toggling product 7 makes `isFavorite("7")` true and toggling it again empties the list |
| FavoritesMigrate.ArrayOrNone | src/store/favorites.ts:122 | `tags` is kept exactly when it is an array, else it is undefined |
| FavoritesMigrate.TextOrNull | src/store/favorites.ts:123 | `created_at` is kept when it is text and becomes null otherwise |
| FavoritesMigrate.MigrateAttrs | src/store/favorites.ts:113-124 | the copied properties are exactly those stored, `tags` only as an array, `created_at` always present as text or null, `thumbnail_url` only as text |
| FavoritesMigrate.MigrateEntry | src/store/favorites.ts:92-125 | every migrated favorite has a name, an image, a canonical id and well-shaped extras |
| FavoritesMigrate.Migrate | src/store/favorites.ts:88-129 | no `favorites` array gives no favorites; a null entry makes `migrate` throw; otherwise every entry becomes one favorite, in order |
| FavoritesMigrate.EntryJson | src/store/favorites.ts:130 | a written favorite holds its id, name, image and `created_at` under their property names |
| FavoritesMigrate.Snapshot | src/store/favorites.ts:130 | `partialize` writes an object with only `favorites`, one written entry per favorite, in order |
| FavoritesMigrate.MigrateEntryRoundTrip | src/store/favorites.ts:92-130 | a favorite as the store writes it migrates back to itself |
| FavoritesMigrate.MigrateRoundTrip | src/store/favorites.ts:88-130 | the whole list as `partialize` writes it migrates back to the same list |
| FavoritesMigrate.MigrateEntryIdempotent | src/store/favorites.ts:92-125 | migrating an entry a second time changes nothing |
| FavoritesMigrate.BookEntryExample | src/store/favorites.ts:94-124 | a book-shop entry with a title and a cover becomes a product named by the title, showing the cover, priced 0, with a null `created_at` and no tags |
| Legacy.ReadName | src/store/cart.ts:161-164 | the name is the first non-empty text among `name` and `title`, else the placeholder |
| Legacy.ReadImage | src/store/favorites.ts:98-102 | the image is the first non-empty text among `image`, `thumbnail_url` and `cover_url`, else the placeholder, so never empty |
| Legacy.ReadProduct | src/store/favorites.ts:104-110 | a read entry has a canonical id and an image; price defaults to 0 unless a number is stored; slug and rating are kept exactly when they have the right type |
| Legacy.ReadProductRoundTrip | src/store/cart.ts:171-177 | the typed fields of a product as written are read back unchanged |
| Persistence.SetItem | src/store/cart.ts:56-68 | writing a key makes it read back the written value, except in the do-nothing storage; no other key changes |
| Persistence.Envelope | src/store/cart.ts:150-153 | the stored envelope holds the written state under `state` and the store's version under `version` |
| Persistence.SaveCart | src/store/cart.ts:150-199 | saving the cart stores its envelope under `cart-storage` (nothing in the do-nothing storage) and changes no other key |
| Persistence.SaveFavorites | src/store/favorites.ts:84-130 | saving favorites stores their envelope under `favorites-storage` (nothing in the do-nothing storage) and changes no other key |
| Persistence.LoadCart | src/store/cart.ts:150-198 | a loaded cart is displayable with quantities at least one; nothing stored loads the empty cart |
| Persistence.LoadFavorites | src/store/favorites.ts:84-129 | loaded favorites have names, images and well-shaped extras; nothing stored loads no favorites |
| Persistence.CartSaveLoad | src/store/cart.ts:150-199 | a saved cart of storable lines (no product properties beyond those `migrate` copies) loads back as it was |
| Persistence.FavoritesSaveLoad | src/store/favorites.ts:84-130 | saved storable favorites (no properties beyond those `migrate` copies, and a `created_at`) load back as they were |
| Persistence.NoOpForgets | src/store/cart.ts:60-67 | without a window nothing is kept: both stores load empty after any save |
| Persistence.StoresIndependent | src/store/favorites.ts:84 | the stores use different keys, so saving one never changes what the other loads |
| Persistence.NoItemsLoadsEmpty | src/store/cart.ts:158-159 | a stored cart state without an `items` array loads as the empty cart |
| ProductCard.CardImage | src/components/ProductCard.tsx:64-67 | the thumbnail when it is an http(s) URL, else the image when it is one, else `/vercel.svg`: the card never shows a non-http image other than the fallback |
| ProductCard.IsHttpText | src/components/ProductCard.tsx:39 | `isHttp` is false for a falsy value and, on text, holds exactly when the text starts with `http://` or `https://` in any case |
| ProductCard.CardName | src/components/ProductCard.tsx:72 | the trimmed name when it is not blank, else "بدون اسم"; never empty and always trimmed |
| ProductCard.CardDescription | src/components/ProductCard.tsx:76 | the trimmed description, or undefined exactly when it is missing or blank |
| ProductCard.CardRating | src/components/ProductCard.tsx:74 | undefined exactly for a null or missing rating, otherwise clamped into 0..5 (NaN stays NaN) |
| ProductCard.CardPriceAsWritten | src/components/ProductCard.tsx:73 | a numeric price is kept, a non-null non-number becomes 0, and a null or missing price is passed on as it is |
| ProductCard.CardPrice | src/components/ProductCard.tsx:73 | the price is the stored number, and 0 for anything else |
| ProductCard.CardPriceAgrees | src/components/ProductCard.tsx:73 | the as-written and the corrected price agree on every numeric result, and the as-written one is nullish exactly when the stored price is |
| ProductCard.PriceNullPassesThrough | src/components/ProductCard.tsx:73 | as written, a missing or null price stays undefined or null, where the corrected price is 0 |
| ProductCard.CardDiscount | src/components/ProductCard.tsx:81 | a falsy discount is 0 and a numeric one is kept |
| ProductCard.CardStock | src/components/ProductCard.tsx:82 | a numeric stock is kept, anything else is 0 |
| ProductCard.ToCompat | src/components/ProductCard.tsx:41-84 | normalising throws exactly for a null product or a name or description that is neither text nor null; otherwise every field is its normalisation of the raw property: the id, the corrected price (`CardPrice`), the rating, the name, the description, the image (`CardImage` of `thumbnail_url` before `image`), the slug (kept when truthy, else undefined), the discount, the stock, `categories` and `tags` as arrays or empty, and the two flags; the name is non-empty and trimmed, the image is http(s) or the fallback, the rating lies in 0..5, a slug is truthy |
| ProductCard.ComputeFinalPrice | src/components/ProductCard.tsx:87-92 | a discount applies exactly when the price is non-zero and the discount positive; then the final price is the non-negative whole number nearest to `price × (100 − d) / 100`; otherwise it is the price |
| ProductCard.DiscountNeverRaises | src/components/ProductCard.tsx:87-92 | for a positive price the final price is never more than half a unit above the price |
| ProductCard.FullDiscountIsFree | src/components/ProductCard.tsx:90 | a discount of 100% or more makes the product free |
| ProductCard.DiscountExamples | src/components/ProductCard.tsx:87-92 | 200 at 15% is 170, 99 at 10% rounds to 89, and a NaN discount applies none |
| ProductCard.FormatPrice | src/components/ProductCard.tsx:94-95 | the label is "مجاني" exactly for prices of zero or less, else the number followed by the currency |
| ProductCard.LabelForPrice | src/components/ProductCard.tsx:94-95 | the text shown is the free label iff the price is not positive |
| ProductCard.OutOfStockIff | src/components/ProductCard.tsx:147 | a card is out of stock exactly when the product's `stock` is not a positive number |
| Slug.ToSlug | src/app/api/products/add/route.ts:38-45 | the result is a slug: lower-case letters, digits and single dashes, no dash at either end, no whitespace |
| Slug.ToSlugKeepsAlnum | src/app/api/products/add/route.ts:38-45 | the letters and digits of the slug are those of the input, lower-cased, in order |
| Slug.ToSlugEmptyIff | src/app/api/products/add/route.ts:38-45 | the slug is empty iff the input has no letter or digit |
| Slug.ToSlugIdempotent | src/app/api/products/add/route.ts:38-45 | a slug is its own slug |
| Slug.ShapeIsSlug | src/app/api/products/add/route.ts:40-44 | the four replacements turn any lower-cased text into a slug |
| Text.Trim | src/app/api/products/add/route.ts:51 | `trim()` never lengthens and leaves nothing exactly when the text is all whitespace |
| Text.TrimIdempotent | src/app/api/products/add/route.ts:140-143 | trimming twice is trimming once |
| Text.TrimKeepsHttp | src/app/api/products/add/route.ts:57-143 | an image URL that passes the http(s) check still passes it once trimmed for the payload |
| Text.IntTextInjective | src/store/cart.ts:53 | different integers have different `String` texts |
| ProductAdd.Validate | src/app/api/products/add/route.ts:48-86 | `validateProductData` reports exactly the checks that fail, in the order it checks them; it throws exactly when a present title or image URL is not text |
| ProductAdd.SlugOrDefault | src/app/api/products/add/route.ts:121 | a truthy slug is kept; otherwise the slug is `toSlug` of the title, or empty with no title; it throws for a truthy title that is not text |
| ProductAdd.DefaultSlug | src/app/api/products/add/route.ts:121-142 | an accepted product posted without a slug is stored with `toSlug` of its title, which is a slug |
| ProductAdd.ToId | src/app/api/products/add/route.ts:129-133 | null for a missing or empty-text reference, the number when `Number` of it is finite, and its text otherwise |
| ProductAdd.ToIdOfIntText | src/app/api/products/add/route.ts:129-133 | a reference posted as "12" is stored as the number 12, like one posted as 12 |
| ProductAdd.BlankCategoryIsZero | src/app/api/products/add/route.ts:66-68 | a category of blanks passes the required check and is stored as 0 |
| ProductAdd.OptionalText | src/app/api/products/add/route.ts:160-162 | an optional text is stored trimmed when not blank, null when missing or blank; a present non-text value throws |
| ProductAdd.DiscountPercent | src/app/api/products/add/route.ts:150-153 | a missing discount stores 0; a stored discount is a whole number in 0..90, the floor of the posted one when it is in range; NaN only from a non-numeric value |
| ProductAdd.Stock | src/app/api/products/add/route.ts:154-157 | a missing stock stores 0; a stored stock is a non-negative whole number, the floor of a non-negative posted one |
| ProductAdd.BuildPayload | src/app/api/products/add/route.ts:139-163 | each payload column is the normalised body field, and building fails exactly when a `trim` meets a value that is not text |
| ProductAdd.Prepare | src/app/api/products/add/route.ts:119-163 | a body is rejected with exactly the failed checks, accepted only when every check passes, and malformed when reading it throws |
| ProductAdd.AcceptedIsSound | src/app/api/products/add/route.ts:48-163 | an accepted payload has a non-blank trimmed title, an http(s) image, a trimmed slug, a finite non-negative price, a rating in 0..5, a category, a discount in 0..90, a non-negative stock and a device id of at most 64 characters |
| ProductAdd.EmptyBodyReportsAll | src/app/api/products/add/route.ts:48-86 | an empty body is rejected with exactly the title, price, image and category problems, in that order |
| ProductEdit.Clamp | src/app/api/products/edit/route.ts:33-35 | for `lo <= hi` the result lies in `lo..hi` and equals `n` when `n` does; otherwise it is `hi` |
| ProductEdit.IsHexText | src/app/api/products/edit/route.ts:37-40 | `isHex` is false for a falsy value and, on text, holds exactly when the text is six hex digits, optionally after a '#' |
| ProductEdit.ClampIdempotent | src/app/api/products/edit/route.ts:33-35 | clamping twice is clamping once |
| ProductEdit.HexTextNormal | src/app/api/products/edit/route.ts:37-46 | every colour that passes `isHex` normalises to '#' and six lower-case hex digits, the same digits lower-cased |
| ProductEdit.NormalizeHex | src/app/api/products/edit/route.ts:42-46 | null for a falsy value, the lower-cased colour with a leading '#' for text, a throw for any other value |
| ProductEdit.NormalizeHexIdempotent | src/app/api/products/edit/route.ts:42-46 | a normalised colour normalises to itself |
| ProductEdit.TextOrNull | src/app/api/products/edit/route.ts:158 | null stays null; any other value becomes `String(v).trim()`, or null exactly when that is empty; the column is null or a non-empty trimmed text |
| ProductEdit.NumberOrRaw | src/app/api/products/edit/route.ts:145-146 | a reference whose `Number` is finite is stored as that number, any other as posted |
| ProductEdit.SimilarColors | src/app/api/products/edit/route.ts:168-174 | a non-array gives null; for an array, the cleaned list of its names, or null exactly when that list is empty; the result is null or a non-empty list of non-empty trimmed names |
| ProductEdit.KeptColors | src/app/api/products/edit/route.ts:170-172 | every kept name is clean (non-empty, trimmed), and there are never more names than elements |
| ProductEdit.KeptColorsMembers | src/app/api/products/edit/route.ts:170-172 | the kept names are exactly the non-empty `String(v).trim()` of the elements |
| ProductEdit.KeptColorsElementwise | src/app/api/products/edit/route.ts:170-172 | cleaning a concatenation cleans each run, and one element becomes its trimmed text or nothing when that is empty; so the kept names follow input order, each as often as it occurs |
| ProductEdit.SimilarColorsIdempotent | src/app/api/products/edit/route.ts:168-174 | cleaning an already cleaned list changes nothing |
| ProductEdit.Validate | src/app/api/products/edit/route.ts:48-70 | the corrected `validateRequired`: exactly the failing checks in check order, a rating that is not a number rejected too; it throws exactly when a present title or image is not text |
| ProductEdit.ValidateAsWritten | src/app/api/products/edit/route.ts:48-70 | `validateRequired` as written: exactly the failing checks in check order, where a NaN rating fails no check |
| ProductEdit.RatingChecksDiffer | src/app/api/products/edit/route.ts:60-61 | the corrected rating check rejects exactly what the written one rejects plus a non-null rating whose `Number` is NaN |
| ProductEdit.NaNRatingPassesAsWritten | src/app/api/products/edit/route.ts:60-61 | as written, a body whose only defect is a non-numeric rating passes validation |
| ProductEdit.NaNRatingStoredAsNull | src/app/api/products/edit/route.ts:60-61 | as written, such a body is accepted and its rating column is overwritten with null (`NaN` serialised) |
| ProductEdit.NaNRatingRejected | src/app/api/products/edit/route.ts:60-61 | with the corrected check, such a body is rejected with the rating problem alone |
| ProductEdit.Discount | src/app/api/products/edit/route.ts:161 | the stored discount always lies in 0..90 and is the posted number when that is in range |
| ProductEdit.Stock | src/app/api/products/edit/route.ts:162 | the stored stock is never negative and is the posted number when that is non-negative |
| ProductEdit.BuildPatch | src/app/api/products/edit/route.ts:133-174 | building the patch throws exactly for a truthy colour that is not text |
| ProductEdit.PatchAt | src/app/api/products/edit/route.ts:133-174 | a column is in the patch exactly when the body gives it a value, and holds that value |
| ProductEdit.PatchFollowsBody | src/app/api/products/edit/route.ts:133-174 | the patch names `image_url` iff `image_url ?? cover_url` is defined and every other column iff the body has its key |
| ProductEdit.Apply | src/app/api/products/edit/route.ts:177-180 | the updated row takes every patched column from the patch and keeps every other column |
| ProductEdit.UntouchedColumnsKept | src/app/api/products/edit/route.ts:133-180 | an accepted edit leaves every column the body does not mention as it was |
| ProductEdit.Conclude | src/app/api/products/edit/route.ts:110-130 | failed checks reject with their messages; an id whose `Number` is not finite is refused after the checks pass; acceptance requires passed checks, a found product and a finite id, and carries the built patch |
| ProductEdit.Prepare | src/app/api/products/edit/route.ts:109-174 | a null body throws; any other body is decided by its fields |
| ProductEdit.ConcludeMeaning | src/app/api/products/edit/route.ts:110-130 | given checks that report exactly the failing problems, the edit is rejected exactly when some check fails and then with exactly those problems; an accepted edit failed no check, was found and has a finite id; a refused id was not found |
| ProductEdit.Decide | src/app/api/products/edit/route.ts:109-174 | with the corrected checks: a throwing body throws; the edit is rejected exactly when some check fails, with exactly the failing problems; an accepted edit passed every check, names a found product and has a finite numeric id |
| ProductEdit.DecideAsWritten | src/app/api/products/edit/route.ts:109-174 | the same outcome statement for the checks as written, where a NaN rating fails no check |
| ProductEdit.AcceptedPassed | src/app/api/products/edit/route.ts:110-174 | an accepted edit passed every check and carries the patch built from its body |
| ProductEdit.PatchTitle | src/app/api/products/edit/route.ts:135 | a body that passes the title check writes a non-blank trimmed title |
| ProductEdit.PatchPrice | src/app/api/products/edit/route.ts:136 | a body that passes the price check writes a non-negative numeric price |
| ProductEdit.PatchImage | src/app/api/products/edit/route.ts:139-140 | a body that passes the image check writes a trimmed http(s) URL |
| ProductEdit.PatchCategory | src/app/api/products/edit/route.ts:144-147 | a body that passes the category check always writes the category |
| ProductEdit.PatchRating | src/app/api/products/edit/route.ts:142 | a body that passes the corrected rating check writes no rating, a null one posted as null, or a number in 0..5 |
| ProductEdit.PatchNumbers | src/app/api/products/edit/route.ts:161-162 | a written discount lies in 0..90 and a written stock is non-negative |
| ProductEdit.PatchColor | src/app/api/products/edit/route.ts:167 | a body that passes the colour check writes null or a normalised colour |
| ProductEdit.PatchSimilarColors | src/app/api/products/edit/route.ts:168-174 | written similar colours are null or a non-empty list of clean names |
| BrandAdd.Validate | src/app/api/brands/add/route.ts:10-22 | the name problem iff the name is blank, the slug problem iff the slug is blank, the kebab-case problem iff a truthy slug trims to something outside `[a-z0-9-]+`, each at most once and in that order; it throws exactly when a present name or slug is not text |
| BrandAdd.Decide | src/app/api/brands/add/route.ts:61-68 | a rejection carries exactly the problems found; an accepted brand has a non-empty trimmed name and a kebab-case slug, both the trimmed posted texts |
| BrandAdd.Prepare | src/app/api/brands/add/route.ts:61-68 | a null body throws; a non-object body is rejected with the name and slug problems; an accepted brand came from an object whose `name` is text, and is the trimmed name with a kebab-case slug |
| BrandAdd.PassesWhen | src/app/api/brands/add/route.ts:10-22 | a non-blank name and a slug that trims to kebab case pass with no problem |
| BrandAdd.AcceptedIff | src/app/api/brands/add/route.ts:10-68 | a brand is accepted exactly when the name is non-blank text and the slug is text that trims to kebab case |
| BrandAdd.BlankSlugTwoProblems | src/app/api/brands/add/route.ts:13-19 | a slug of one space is reported both as missing and as not kebab case |
| BrandAdd.AsciiSlugIsKebab | src/app/api/brands/add/route.ts:17 | a non-empty product slug made of ASCII characters also passes the brand route's kebab-case check |
| Orders.NormalizeItems | src/app/orders/page.tsx:29-42 | an array is the list itself, an object's `items` array wins, and anything that is neither array nor object has no items |
| Orders.NormalizeItemsShapes | src/app/orders/page.tsx:36-41 | an object without an `items` array is flattened when all its values are objects or arrays and has no items otherwise |
| Orders.GroupedOrderCount | src/app/orders/page.tsx:36-38 | an object of item groups is read as all its groups' items, in property order, and its count is the sum of the groups' counts |
| Orders.Quantity | src/app/orders/page.tsx:184 | an item whose `quantity` is a number counts as that number; any other item counts as one |
| Orders.CountItems | src/app/orders/page.tsx:183-184 | the `reduce` loop computes the running sum of the item quantities |
| Orders.ItemCountConcat | src/app/orders/page.tsx:183-184 | the count of two runs of items is the sum of their counts |
| Orders.DefaultQuantityCountsItems | src/app/orders/page.tsx:184 | when no item states a quantity, the count shown is the number of items |
| Orders.ItemCountBounds | src/app/orders/page.tsx:183-184 | with non-negative quantities the count is non-negative, and with quantities of at least one it is at least the number of items |
| Orders.RenderStatus | src/app/orders/page.tsx:44-55 | the three known statuses gain their emoji; the label is never empty |
| Orders.StatusShown | src/app/orders/page.tsx:44-55 | every non-empty status ends the label; an unknown one is shown as it is; a missing or empty one shows a dash |
| Pagination.Start | src/components/Pagination.tsx:12 | the window starts three pages before the current page, but never before page 1 |
| Pagination.End | src/components/Pagination.tsx:13 | the window ends three pages after the current page, and with a known count never after the last page |
| Pagination.Range | src/components/Pagination.tsx:42 | the listed pages are consecutive from the start to the end, and none when the end is before the start |
| Pagination.Window | src/components/Pagination.tsx:42-52 | one button per page of the window, in order |
| Pagination.Render | src/components/Pagination.tsx:15-80 | the pager opens with the previous button, disabled on page 1 or before, and closes with the next button, disabled without a next page |
| Pagination.WindowBounds | src/components/Pagination.tsx:11-13 | the window lists at most seven pages, none below 1, with a known count none above it, and includes the current page when that is a real page |
| Pagination.HeadShown | src/components/Pagination.tsx:29-41 | the first-page button appears iff the window starts after page 1, and the ellipsis iff it starts after page 2 |
| Pagination.TailShown | src/components/Pagination.tsx:53-65 | the last-page button appears iff the window ends before the last page, and the ellipsis iff it ends before the page before it |
| Pagination.KnownNumbers | src/components/Pagination.tsx:27-66 | with a known count the page numbers offered are page 1 when the window starts later, the window, and the last page when the window ends earlier |
| Pagination.NumbersIncreasing | src/components/Pagination.tsx:27-66 | the page numbers offered strictly increase, so no page is offered twice |
| Pagination.NumbersInRange | src/components/Pagination.tsx:27-66 | every page number offered is a real page, and the current page is offered when it is one |
| Pagination.UnknownTotalOnlyLabel | src/components/Pagination.tsx:67-69 | without a known count the pager is the previous button, the "page N" label and the next button, with no page numbers |
| Pagination.CurrentHighlighted | src/components/Pagination.tsx:33-60 | a page button is highlighted exactly when it is the current page |

## Left out

- Authentication, the admin-role lookup, and every database call are not modelled: the product, brand and order tables, the slug and device-id uniqueness queries, the insert and the update. The edit route's "not found" answer is the `found` parameter of `ProductEdit.Conclude`.
- `created_at: new Date().toISOString()` on insert is not modelled, because it reads the clock.
- The zustand middleware itself is modelled only through its effect on the stored blob: `persist` envelopes, hydration and `migrate` as `Persistence.LoadCart`/`LoadFavorites`. Subscriptions, re-renders, `removeItem` and the version comparison are not modelled; loading always migrates.
- Rendering is not modelled: JSX, CSS classes, images, `onPageChange` callbacks, toasts, the Next.js router, the orders page's loading and auth states, order totals (`toFixed(2)`), thumbnail slices and date formatting (`toLocaleString`).
- Js.ToNumber: `Number(text)` is modelled for plain decimal numerals (optional sign, digits, optional fraction, surrounding whitespace). Hex, exponent, "Infinity" and other numeric literals give NaN in the model, where JavaScript gives a number or Infinity.
- ProductAdd.AcceptedIsSound: the finite price and stock it states hold only for the model's `Number`. In the route, a posted "Infinity" or an overflowing numeral such as "1e400" reads as Infinity, passes the price and stock checks (add/route.ts:52, 77-79) and is stored; the model reads such text as NaN and rejects it.
- CartMigrate.MigrateRoundTrip: stated for storable lines only, because the model always migrates; the program migrates only an older version. Migrating a line built from a product card drops its categories, tags, description, `is_new`, `is_trending`, `discount_percent` and `stock`, but the program does not migrate a blob of the current version, so such a cart reloads with them.
- FavoritesMigrate.MigrateRoundTrip: stated for storable favorites only, because the model always migrates. Migrating a favorite without `created_at` would give it `created_at: null`; the program reloads a current-version blob as saved.
- Persistence.CartSaveLoad: requires storable lines, because the model always migrates on load (see `CartMigrate.MigrateRoundTrip`); in the program every saved cart of the current version reloads as saved.
- Persistence.FavoritesSaveLoad: requires storable favorites, because the model always migrates on load; in the program every saved list of the current version reloads as saved.
- CartStore.AddToCart: `qty` is a finite number in the model, as every caller passes 1 (ProductCard.tsx:295, 311). A NaN or Infinity `qty` would store a NaN or Infinity quantity (`Math.max(1, Math.floor(NaN))` is NaN); that is not modelled.
- CartStore.SetQuantity: `qty` is a finite number in the model. `setQuantity(id, NaN)` passes the `<= 0` test and stores a NaN quantity, which would break `Positive`; that is not modelled.
- Pagination.Render: `page` and `totalPages` are whole numbers in the model; a fractional or NaN page or page count is not modelled.
- Text.IntText: `String(n)` is modelled for integers only; exponent notation for very large magnitudes and the text of fractional numbers are not.
- Slug.ToSlug: `\p{L}` and `\p{N}` are approximated by ASCII, Latin-1 and Arabic letters and digits, and `toLowerCase` maps ASCII letters only.
- ProductAdd.Validate: the 64-character limit on `device_id` counts characters of the model's strings, not UTF-16 code units.
- Js.JsString: `String(v)` of an object is "[object Object]"; objects with their own `toString` do not occur in JSON.
- Identity.IdOf: ids are compared by their `String` text, not by `===` on the stored value.
- Js.Lookup: a property of an object with a repeated key is the FIRST member carrying that key, whereas `JSON.parse` keeps the LAST; so a body such as `{"title": 5, "title": "Phone"}` is refused by the model's checks although the route would accept it, and the same holds for repeated keys in a stored blob.
- Orders.NormalizeItems: `Object.values` is taken to list an object's values in member order; JavaScript lists integer-like keys first, in ascending order, which the model does not reproduce.
- Orders.CountItems: the trailing `|| 0` that turns a NaN sum into 0 is not modelled, because a sum of finite JSON numbers is not NaN without floating-point overflow, and floating point is not modelled.
- ProductCard.ComputeFinalPrice: prices are exact reals, so floating-point rounding of `price × (100 − d) / 100` is not modelled.

## Findings

| source | as written | input that shows it | evidently intended | confidence | as-written member | corrected member |
|---|---|---|---|---|---|---|
| src/components/ProductCard.tsx:73 | `Number.isFinite(asCart.price ?? 0) ? asCart.price : 0` tests the defaulted price but returns the raw one | a product whose `price` is null or missing: the test sees 0, and the card's price is null or undefined | a missing price becomes 0, like any other non-number | high (not executed) | ProductCard.CardPriceAsWritten | ProductCard.CardPrice |
| src/app/api/products/edit/route.ts:60-61 | the rating check is `Number(r) < 0 \|\| Number(r) > 5`, which is false for NaN | `{"rating": "abc"}` with every other field valid: the edit is accepted and the rating column becomes null | reject a rating that is not a number, as the product-creation route does (add/route.ts:61-64) | high (not executed) | ProductEdit.NaNRatingStoredAsNull | ProductEdit.NaNRatingRejected |

The rest of the model uses the corrected definitions: `ProductCard.ToCompat` uses
`CardPrice`, and `ProductEdit.Prepare` decides with the corrected `Validate`
(`ProductEdit.RatingChecksDiffer` states exactly how the two rating checks differ).

=== FILE: brand_add.dfy ===
/** The request handling of the brand-creation route that does not touch the database
    (src/app/api/brands/add/route.ts:10-21, 61-68): `validate` and the trimming of the name
    and slug that are inserted. */
module BrandAdd {
  import opened Wrappers
  import opened Text
  import opened Js
  import opened Slug
  import opened Validation

  datatype Problem = NameRequired | SlugRequired | SlugNotKebab

  /** The order `validate` checks in. */
  function Rank(p: Problem): nat {
    match p
    case NameRequired => 0
    case SlugRequired => 1
    case SlugNotKebab => 2
  }

  function Message(p: Problem): string {
    match p
    case NameRequired => "اسم العلامة التجارية مطلوب"
    case SlugRequired => "الـ slug مطلوب"
    case SlugNotKebab => "الـ slug يجب أن يكون بصيغة kebab-case (أحرف إنجليزية وأرقام وشرطات فقط)"
  }

  /** A character of `[a-z0-9-]`. */
  predicate IsKebabChar(c: char) {
    'a' <= c <= 'z' || IsDigit(c) || c == '-'
  }

  /** `/^[a-z0-9-]+$/.test(s)` */
  predicate IsKebab(s: string) {
    |s| > 0 && forall i :: 0 <= i < |s| ==> IsKebabChar(s[i])
  }

  /** `if (slug) { ... if (!/^[a-z0-9-]+$/.test(slug.trim())) ... }` for a slug that does
      not throw. */
  predicate SlugMalformed(v: Option<Json>) {
    Present(v) && v.value.JStr? && !IsKebab(Trim(v.value.s))
  }

  /** `validate({ name, slug })`. None is the TypeError of trimming a name or slug that is
      neither nullish nor text. */
  function Validate(name: Option<Json>, slug: Option<Json>): (r: Option<seq<Problem>>)
    ensures r.None? <==> TrimmedText(name).None? || TrimmedText(slug).None?
    ensures r.Some? ==> (NameRequired in r.value <==> BlankText(name))
    ensures r.Some? ==> (SlugRequired in r.value <==> BlankText(slug))
    ensures r.Some? ==> (SlugNotKebab in r.value <==> SlugMalformed(slug))
    ensures r.Some? ==> Ranked(r.value, Rank)
  {
    if TrimmedText(name).None? || TrimmedText(slug).None? then None
    else
      Some((if BlankText(name) then [NameRequired] else [])
           + (if BlankText(slug) then [SlugRequired] else [])
           + (if SlugMalformed(slug) then [SlugNotKebab] else []))
  }

  datatype Outcome =
    | Threw                                 // a TypeError: 400 "خطأ في صيغة الطلب"
    | Rejected(problems: seq<Problem>)      // 400 with the joined messages
    | Accepted(name: string, slug: string)  // goes on to the uniqueness check and the insert

  /** `validate({ name, slug })` and, when it finds nothing, the trimmed name and slug. */
  function Decide(name: Option<Json>, slug: Option<Json>): (r: Outcome)
    ensures r.Threw? <==> Validate(name, slug).None?
    ensures r.Rejected? ==> r.problems != [] && Validate(name, slug) == Some(r.problems)
    ensures r.Accepted? ==> r.name != "" && Trim(r.name) == r.name && IsKebab(r.slug)
    ensures r.Accepted? ==> name.Some? && name.value.JStr? && r.name == Trim(name.value.s)
    ensures r.Accepted? ==> slug.Some? && slug.value.JStr? && r.slug == Trim(slug.value.s)
  {
    match Validate(name, slug)
    case None => Threw
    case Some(errs) =>
      if errs != [] then Rejected(errs)
      else
        assert !BlankText(name) && !BlankText(slug) && !SlugMalformed(slug);
        TrimIdempotent(name.value.s);
        Accepted(Trim(name.value.s), Trim(slug.value.s))
  }

  /** Lines 61-68 of `POST`. Destructuring a null body throws; any other body reads its
      properties (none, unless it is an object). */
  function Prepare(body: Json): (r: Outcome)
    ensures body.JNull? ==> r.Threw?
    ensures r.Accepted? ==> r.name != "" && IsKebab(r.slug)
    ensures r.Accepted? ==> body.JObj? && Field(body, "name").Some? && Field(body, "name").value.JStr?
    ensures r.Accepted? ==> r.name == Trim(Field(body, "name").value.s)
    ensures !body.JObj? && !body.JNull? ==> r == Rejected([NameRequired, SlugRequired])
  {
    if body.JNull? then Threw else Decide(Field(body, "name"), Field(body, "slug"))
  }

  // ---------------------------------------------------------------- properties

  /** A text name that is not blank and a text slug that trims to kebab-case pass. */
  lemma PassesWhen(name: Option<Json>, slug: Option<Json>)
    requires name.Some? && name.value.JStr? && Trim(name.value.s) != ""
    requires slug.Some? && slug.value.JStr? && IsKebab(Trim(slug.value.s))
    ensures Validate(name, slug) == Some([])
  {
    assert |Trim(slug.value.s)| > 0;
    assert !BlankText(name) && !BlankText(slug) && !SlugMalformed(slug);
    var errs := Validate(name, slug).value;
    assert errs == [];
  }

  /** The route accepts exactly the bodies whose trimmed name is not empty and whose
      trimmed slug is kebab-case. */
  lemma AcceptedIff(name: Option<Json>, slug: Option<Json>)
    ensures Decide(name, slug).Accepted? <==>
      && name.Some? && name.value.JStr? && Trim(name.value.s) != ""
      && slug.Some? && slug.value.JStr? && IsKebab(Trim(slug.value.s))
  {
    if && name.Some? && name.value.JStr? && Trim(name.value.s) != ""
       && slug.Some? && slug.value.JStr? && IsKebab(Trim(slug.value.s)) {
      PassesWhen(name, slug);
    }
  }

  /** A blank slug is reported twice over: as missing and as not kebab-case. */
  lemma BlankSlugTwoProblems()
    ensures var errs := Validate(Some(JStr("Apple")), Some(JStr(" "))).value;
      SlugRequired in errs && SlugNotKebab in errs && NameRequired !in errs
  {
    assert AllSpace(" ");
    assert !AllSpace("Apple") by { assert !IsSpace("Apple"[0]); }
    assert !BlankText(Some(JStr("Apple")));
    assert BlankText(Some(JStr(" "))) && SlugMalformed(Some(JStr(" ")));
  }

  /** A slug made by `toSlug` from text without letters outside ASCII is kebab-case, so it
      passes this route's check. */
  lemma AsciiSlugIsKebab(s: string)
    requires IsSlug(s) && s != ""
    requires forall i :: 0 <= i < |s| ==> s[i] as int < 128
    ensures IsKebab(s)
  {
    forall i | 0 <= i < |s| ensures IsKebabChar(s[i]) {
      assert IsSlugChar(s[i]) && IsLowered(s[i]);
    }
  }
}

=== FILE: cart.dfy ===
/** The cart store of src/store/cart.ts as pure state transitions over the list of
    lines: every action of `useCartStore` maps the current `items` to the next ones. */
module CartStore {
  import opened Wrappers
  import opened Js
  import opened Identity
  import opened Keyed
  import opened Catalog

  const PlaceholderName := "منتج غير متوفر"
  const PlaceholderBrand := "غير محدد"
  const PlaceholderImage := "/fallback-product.png"

  /** `CartItem`: a product and how many of it are in the cart. */
  datatype Line = Line(product: Product, quantity: real)

  function LineId(l: Line): Id {
    l.product.id
  }

  // ---------------------------------------------------------------- invariants

  predicate Contains(items: seq<Line>, id: Id) {
    Has(items, LineId, id)
  }

  /** At most one line per product. */
  predicate Distinct(items: seq<Line>) {
    DistinctIds(items, LineId)
  }

  /** No line with a zero or negative quantity. */
  predicate Positive(items: seq<Line>) {
    forall i :: 0 <= i < |items| ==> items[i].quantity > 0.0
  }

  /** Every quantity is a whole number of at least one. */
  predicate Whole(items: seq<Line>) {
    forall i :: 0 <= i < |items| ==> items[i].quantity >= 1.0 && IsWhole(items[i].quantity)
  }

  /** Every line of product `id` holds at most `q`. */
  predicate AllAtMost(items: seq<Line>, id: Id, q: real) {
    forall i :: 0 <= i < |items| && SameId(LineId(items[i]), id) ==> items[i].quantity <= q
  }

  /** Every line of product `id` holds more than `q`. */
  predicate AllAbove(items: seq<Line>, id: Id, q: real) {
    forall i :: 0 <= i < |items| && SameId(LineId(items[i]), id) ==> items[i].quantity > q
  }

  /** A line can be shown: it has a name, an image and a brand label. */
  predicate Displayable(l: Line) {
    l.product.name != "" && l.product.image != "" && Present(Attr(l.product, BrandNameKey))
  }

  predicate AllDisplayable(items: seq<Line>) {
    forall i :: 0 <= i < |items| ==> Displayable(items[i])
  }

  /** What every action keeps true of the cart. */
  predicate Invariant(items: seq<Line>) {
    Distinct(items) && Positive(items) && AllDisplayable(items)
  }

  // ---------------------------------------------------------------- helpers

  /** `Math.max(1, Math.floor(qty))` */
  function AddQuantity(qty: real): (n: int)
    ensures n >= 1
    ensures qty >= 1.0 ==> n as real <= qty < n as real + 1.0
    ensures qty < 1.0 ==> n == 1
  {
    if qty.Floor < 1 then 1 else qty.Floor
  }

  /** The line created for a product not yet in the cart, with its fallbacks applied. */
  function NewLine(p: Product, n: int): (l: Line)
    requires n >= 1
    ensures Displayable(l) && l.quantity == n as real && LineId(l) == p.id
    ensures p.name != "" ==> l.product.name == p.name
    ensures p.image != "" ==> l.product.image == p.image
    ensures Present(Attr(p, BrandNameKey)) ==> l.product.attrs == p.attrs
    ensures l.product.price == p.price && l.product.slug == p.slug && l.product.rating == p.rating
  {
    var brand := if Present(Attr(p, BrandNameKey)) then p.attrs[BrandNameKey] else JStr(PlaceholderBrand);
    Line(p.(name := if p.name != "" then p.name else PlaceholderName,
            image := if p.image != "" then p.image else PlaceholderImage,
            attrs := p.attrs[BrandNameKey := brand]),
         n as real)
  }

  /** How a matching line's quantity changes. */
  datatype Change = AddBy(delta: real) | SetTo(q: real)

  function Apply(c: Change, q: real): real {
    match c
    case AddBy(d) => q + d
    case SetTo(v) => v
  }

  /** `items.map(it => sameId(it.id, id) ? { ...it, quantity: ... } : it)` */
  function Requantify(items: seq<Line>, id: Id, c: Change): (r: seq<Line>)
    ensures |r| == |items|
    ensures forall i :: 0 <= i < |items| ==> r[i].product == items[i].product
    ensures forall i :: 0 <= i < |items| ==>
      r[i].quantity == if SameId(LineId(items[i]), id) then Apply(c, items[i].quantity) else items[i].quantity
  {
    if |items| == 0 then []
    else
      var l := items[0];
      [if SameId(LineId(l), id) then l.(quantity := Apply(c, l.quantity)) else l] + Requantify(items[1..], id, c)
  }

  /** `items.filter(it => it.quantity > 0)` */
  function KeepPositive(items: seq<Line>): (r: seq<Line>)
    ensures Positive(r)
    ensures forall l :: l in r <==> l in items && l.quantity > 0.0
    ensures Positive(items) ==> r == items
  {
    if |items| == 0 then []
    else if items[0].quantity > 0.0 then [items[0]] + KeepPositive(items[1..])
    else KeepPositive(items[1..])
  }

  // ---------------------------------------------------------------- actions

  /** `addToCart(product, qty)` */
  function AddToCart(items: seq<Line>, p: Product, qty: real): (r: seq<Line>)
    ensures Contains(items, p.id) ==>
      |r| == |items| && forall i :: 0 <= i < |items| ==>
        r[i].product == items[i].product &&
        r[i].quantity == if SameId(LineId(items[i]), p.id) then items[i].quantity + AddQuantity(qty) as real
                         else items[i].quantity
    ensures Contains(items, p.id) ==> r == Requantify(items, p.id, AddBy(AddQuantity(qty) as real))
    ensures !Contains(items, p.id) ==> r == items + [NewLine(p, AddQuantity(qty))]
    ensures Contains(r, p.id)
    ensures Invariant(items) ==> Invariant(r)
    ensures Whole(items) ==> Whole(r)
  {
    var n := AddQuantity(qty);
    if Contains(items, p.id) then
      var r := Requantify(items, p.id, AddBy(n as real));
      RequantifyInvariant(items, p.id, AddBy(n as real));
      var i :| 0 <= i < |items| && SameId(LineId(items[i]), p.id);
      assert SameId(LineId(r[i]), p.id);
      r
    else
      AppendNewInvariant(items, p, n);
      var r := items + [NewLine(p, n)];
      assert SameId(LineId(r[|items|]), p.id);
      r
  }

  /** `removeFromCart(id)` */
  function RemoveFromCart(items: seq<Line>, id: Id): (r: seq<Line>)
    ensures forall l :: l in r <==> l in items && !SameId(LineId(l), id)
    ensures !Contains(r, id)
    ensures !Contains(items, id) ==> r == items
    ensures Invariant(items) ==> Invariant(r)
    ensures Whole(items) ==> Whole(r)
  {
    var r := Without(items, LineId, id);
    assert forall j :: 0 <= j < |r| ==> r[j] in items;
    r
  }

  /** `setQuantity(id, qty)`: a quantity below one removes the line, otherwise it is set. */
  function SetQuantity(items: seq<Line>, id: Id, qty: real): (r: seq<Line>)
    ensures qty.Floor <= 0 ==> r == RemoveFromCart(items, id)
    ensures qty.Floor > 0 ==> |r| == |items| && forall i :: 0 <= i < |items| ==>
      r[i].product == items[i].product &&
      r[i].quantity == if SameId(LineId(items[i]), id) then qty.Floor as real else items[i].quantity
    ensures !Contains(items, id) ==> r == items
    ensures Invariant(items) ==> Invariant(r)
    ensures Whole(items) ==> Whole(r)
  {
    var q := qty.Floor;
    if q <= 0 then RemoveFromCart(items, id)
    else
      RequantifyAbsent(items, id, SetTo(q as real));
      RequantifyInvariant(items, id, SetTo(q as real));
      Requantify(items, id, SetTo(q as real))
  }

  /** `increment(id)` */
  function Increment(items: seq<Line>, id: Id): (r: seq<Line>)
    ensures |r| == |items|
    ensures forall i :: 0 <= i < |items| ==> r[i].product == items[i].product
    ensures forall i :: 0 <= i < |items| ==>
      r[i].quantity == if SameId(LineId(items[i]), id) then items[i].quantity + 1.0 else items[i].quantity
    ensures !Contains(items, id) ==> r == items
    ensures Invariant(items) ==> Invariant(r)
    ensures Whole(items) ==> Whole(r)
  {
    RequantifyAbsent(items, id, AddBy(1.0));
    RequantifyInvariant(items, id, AddBy(1.0));
    Requantify(items, id, AddBy(1.0))
  }

  /** One line after `decrement(id)`, before the zeros are dropped. */
  function LessOne(l: Line, id: Id): Line {
    if SameId(LineId(l), id) then l.(quantity := l.quantity - 1.0) else l
  }

  /** `decrement(id)`: every line of the product loses one, and lines that reach zero are
      dropped. */
  function Decrement(items: seq<Line>, id: Id): (r: seq<Line>)
    ensures forall l :: l in r <==> (l.quantity > 0.0 && exists i :: 0 <= i < |items| && l == LessOne(items[i], id))
    ensures Positive(items) ==> Without(r, LineId, id) == Without(items, LineId, id)
    ensures Positive(r)
    ensures |r| <= |items|
    ensures Positive(items) && !Contains(items, id) ==> r == items
    ensures Invariant(items) ==> Invariant(r)
    ensures Whole(items) ==> Whole(r)
  {
    var m := Requantify(items, id, AddBy(-1.0));
    RequantifyAbsent(items, id, AddBy(-1.0));
    RequantifyInvariant(items, id, AddBy(-1.0));
    KeepPositiveInvariant(m);
    DecrementWhole(items, id);
    DecrementMembers(items, id);
    DecrementKeepsOthers(items, id);
    KeepPositive(m)
  }

  /** `clearCart()` and its alias `clear()` */
  function ClearCart(items: seq<Line>): (r: seq<Line>)
    ensures r == []
    ensures Invariant(r) && Whole(r)
    ensures TotalCount(r) == 0.0 && TotalPrice(r) == 0.0
  {
    []
  }

  // ---------------------------------------------------------------- derived values

  /** `totalCount()`: the sum of the quantities. */
  function TotalCount(items: seq<Line>): (c: real)
    ensures Positive(items) ==> (c > 0.0 <==> |items| > 0)
  {
    if |items| == 0 then 0.0 else items[0].quantity + TotalCount(items[1..])
  }

  /** What one line costs. */
  function LineTotal(l: Line): real {
    l.product.price * l.quantity
  }

  /** `totalPrice()`: the sum of price times quantity. */
  function TotalPrice(items: seq<Line>): (t: real)
    ensures (forall i :: 0 <= i < |items| ==> items[i].product.price >= 0.0 && items[i].quantity >= 0.0) ==>
            t >= 0.0
  {
    if |items| == 0 then 0.0 else LineTotal(items[0]) + TotalPrice(items[1..])
  }

  /** How many of one product the cart holds (the sum over its lines). */
  function QuantityOf(items: seq<Line>, id: Id): real {
    if |items| == 0 then 0.0
    else (if SameId(LineId(items[0]), id) then items[0].quantity else 0.0) + QuantityOf(items[1..], id)
  }

  /** How many lines hold a product: at most one in a cart these actions build, more in one
      restored from a blob that held both 7 and "7". */
  function LineCount(items: seq<Line>, id: Id): nat {
    if |items| == 0 then 0
    else (if SameId(LineId(items[0]), id) then 1 else 0) + LineCount(items[1..], id)
  }

  /** `k` copies of `x` added up: `k * x`, kept free of nonlinear arithmetic. */
  function Times(k: nat, x: real): real {
    if k == 0 then 0.0 else x + Times(k - 1, x)
  }

  /** The unit prices of a product's lines, summed. */
  function UnitPrice(items: seq<Line>, id: Id): real {
    if |items| == 0 then 0.0
    else (if SameId(LineId(items[0]), id) then items[0].product.price else 0.0) + UnitPrice(items[1..], id)
  }

  /** What a product's lines contribute to the total price. */
  function PriceOf(items: seq<Line>, id: Id): real {
    if |items| == 0 then 0.0
    else (if SameId(LineId(items[0]), id) then LineTotal(items[0]) else 0.0) + PriceOf(items[1..], id)
  }

  // ---------------------------------------------------------------- helper lemmas

  /** What a quantity change keeps: ids and products are untouched. */
  lemma RequantifyInvariant(items: seq<Line>, id: Id, c: Change)
    ensures Distinct(items) ==> Distinct(Requantify(items, id, c))
    ensures AllDisplayable(items) ==> AllDisplayable(Requantify(items, id, c))
    ensures Positive(items) && ((c.AddBy? && c.delta >= 0.0) || (c.SetTo? && c.q > 0.0)) ==>
            Positive(Requantify(items, id, c))
    ensures Whole(items) && ((c.AddBy? && c.delta >= 0.0 && IsWhole(c.delta)) || (c.SetTo? && c.q >= 1.0 && IsWhole(c.q))) ==>
            Whole(Requantify(items, id, c))
  {
    RequantifyProducts(items, id, c);
    if Positive(items) && ((c.AddBy? && c.delta >= 0.0) || (c.SetTo? && c.q > 0.0)) {
      RequantifyPositive(items, id, c);
    }
    if Whole(items) && ((c.AddBy? && c.delta >= 0.0 && IsWhole(c.delta)) || (c.SetTo? && c.q >= 1.0 && IsWhole(c.q))) {
      RequantifyWhole(items, id, c);
    }
  }

  lemma RequantifyProducts(items: seq<Line>, id: Id, c: Change)
    ensures Distinct(items) ==> Distinct(Requantify(items, id, c))
    ensures AllDisplayable(items) ==> AllDisplayable(Requantify(items, id, c))
  {
    var r := Requantify(items, id, c);
    assert forall i :: 0 <= i < |r| ==> LineId(r[i]) == LineId(items[i]);
  }

  lemma RequantifyPositive(items: seq<Line>, id: Id, c: Change)
    requires Positive(items) && ((c.AddBy? && c.delta >= 0.0) || (c.SetTo? && c.q > 0.0))
    ensures Positive(Requantify(items, id, c))
  {
  }

  lemma RequantifyWhole(items: seq<Line>, id: Id, c: Change)
    requires Whole(items)
    requires (c.AddBy? && c.delta >= 0.0 && IsWhole(c.delta)) || (c.SetTo? && c.q >= 1.0 && IsWhole(c.q))
    ensures Whole(Requantify(items, id, c))
  {
    var r := Requantify(items, id, c);
    forall i | 0 <= i < |r| ensures r[i].quantity >= 1.0 && IsWhole(r[i].quantity) {
      if SameId(LineId(items[i]), id) {
        WholeApply(items[i].quantity, c);
      }
    }
  }

  lemma WholeApply(q: real, c: Change)
    requires q >= 1.0 && IsWhole(q)
    requires (c.AddBy? && c.delta >= 0.0 && IsWhole(c.delta)) || (c.SetTo? && c.q >= 1.0 && IsWhole(c.q))
    ensures Apply(c, q) >= 1.0 && IsWhole(Apply(c, q))
  {
    if c.AddBy? {
      WholeSum(q, c.delta);
    }
  }

  lemma WholeSum(a: real, b: real)
    requires IsWhole(a) && IsWhole(b)
    ensures IsWhole(a + b)
  {
    var n := a.Floor + b.Floor;
    assert a + b == n as real;
  }

  lemma AppendNewInvariant(items: seq<Line>, p: Product, n: int)
    requires n >= 1 && !Contains(items, p.id)
    ensures Invariant(items) ==> Invariant(items + [NewLine(p, n)])
    ensures Whole(items) ==> Whole(items + [NewLine(p, n)])
  {
    var r := items + [NewLine(p, n)];
    assert LineId(r[|items|]) == p.id;
    if Distinct(items) {
      forall i, j | 0 <= i < j < |r| ensures !SameId(LineId(r[i]), LineId(r[j])) {
        if j == |items| {
          assert !SameId(LineId(items[i]), p.id);
        }
      }
    }
  }

  lemma KeepPositiveInvariant(m: seq<Line>)
    ensures Distinct(m) ==> Distinct(KeepPositive(m))
    ensures AllDisplayable(m) ==> AllDisplayable(KeepPositive(m))
    ensures Whole(m) ==> Whole(KeepPositive(m))
    ensures |KeepPositive(m)| <= |m|
  {
    var r := KeepPositive(m);
    KeepPositiveShorter(m);
    if Distinct(m) {
      KeepPositiveDistinct(m);
    }
    forall i | 0 <= i < |r| ensures exists k :: 0 <= k < |m| && m[k] == r[i] {
      assert r[i] in m;
    }
  }

  /** Taking one off a whole quantity of at least one leaves a whole number; the zero is dropped. */
  lemma DecrementWhole(items: seq<Line>, id: Id)
    ensures Whole(items) ==> Whole(KeepPositive(Requantify(items, id, AddBy(-1.0))))
  {
    if Whole(items) {
      MinusOneWhole(items, id);
      KeepPositiveWhole(Requantify(items, id, AddBy(-1.0)));
    }
  }

  /** Every quantity is a whole number (possibly zero or negative). */
  predicate AllWhole(items: seq<Line>) {
    forall i :: 0 <= i < |items| ==> IsWhole(items[i].quantity)
  }

  lemma MinusOneWhole(items: seq<Line>, id: Id)
    requires Whole(items)
    ensures AllWhole(Requantify(items, id, AddBy(-1.0)))
  {
    var m := Requantify(items, id, AddBy(-1.0));
    forall k | 0 <= k < |m| ensures IsWhole(m[k].quantity) {
      WholeMinusOne(items[k].quantity);
    }
  }

  lemma {:induction false} KeepPositiveWhole(m: seq<Line>)
    requires AllWhole(m)
    ensures Whole(KeepPositive(m))
  {
    if |m| > 0 {
      assert AllWhole(m[1..]) by {
        forall k | 0 <= k < |m[1..]| ensures IsWhole(m[1..][k].quantity) {
          assert m[1..][k] == m[k + 1];
        }
      }
      KeepPositiveWhole(m[1..]);
      if m[0].quantity > 0.0 {
        WholePositive(m[0].quantity);
        var r := [m[0]] + KeepPositive(m[1..]);
        assert forall i :: 1 <= i < |r| ==> r[i] == KeepPositive(m[1..])[i - 1];
      }
    }
  }

  lemma WholeMinusOne(q: real)
    requires IsWhole(q)
    ensures IsWhole(q - 1.0)
  {
    assert (q - 1.0).Floor == q.Floor - 1;
  }

  lemma WholePositive(q: real)
    requires IsWhole(q) && q > 0.0
    ensures q >= 1.0
  {
  }

  /** In a cart without duplicates, at most one line matches an id. */
  lemma DistinctUnique(items: seq<Line>, id: Id, i: nat, k: nat)
    requires Distinct(items)
    requires i < |items| && k < |items|
    requires SameId(LineId(items[i]), id) && SameId(LineId(items[k]), id)
    ensures i == k
  {
  }

  lemma {:induction false} KeepPositiveShorter(items: seq<Line>)
    ensures |KeepPositive(items)| <= |items|
  {
    if |items| > 0 {
      KeepPositiveShorter(items[1..]);
    }
  }

  lemma {:induction false} KeepPositiveDistinct(items: seq<Line>)
    requires Distinct(items)
    ensures Distinct(KeepPositive(items))
  {
    if |items| > 0 {
      assert Distinct(items[1..]);
      KeepPositiveDistinct(items[1..]);
      var rest := KeepPositive(items[1..]);
      if items[0].quantity > 0.0 {
        forall k | 0 <= k < |rest| ensures !SameId(LineId(items[0]), LineId(rest[k])) {
          assert rest[k] in items[1..];
          var m :| 0 <= m < |items[1..]| && items[1..][m] == rest[k];
          assert items[m + 1] == rest[k];
        }
        ConsDistinct(items[0], rest, LineId);
      }
    }
  }

  lemma {:induction false} RequantifyAbsent(items: seq<Line>, id: Id, c: Change)
    ensures !Contains(items, id) ==> Requantify(items, id, c) == items
  {
    if !Contains(items, id) {
      var r := Requantify(items, id, c);
      forall i | 0 <= i < |items| ensures r[i] == items[i] {
        assert !SameId(LineId(items[i]), id);
      }
    }
  }

  lemma {:induction false} QuantityOfAbsent(items: seq<Line>, id: Id)
    requires !Contains(items, id)
    ensures QuantityOf(items, id) == 0.0
  {
    if |items| > 0 {
      assert !SameId(LineId(items[0]), id);
      assert !Contains(items[1..], id) by {
        forall i | 0 <= i < |items[1..]| ensures !SameId(LineId(items[1..][i]), id) {
          assert items[1..][i] == items[i + 1];
        }
      }
      QuantityOfAbsent(items[1..], id);
    }
  }

  /** In a cart without duplicates, the quantity of a product is that of its one line. */
  lemma {:induction false} QuantityOfLine(items: seq<Line>, id: Id, i: nat)
    requires Distinct(items)
    requires i < |items| && SameId(LineId(items[i]), id)
    ensures QuantityOf(items, id) == items[i].quantity
  {
    assert Distinct(items[1..]);
    if i == 0 {
      assert !Contains(items[1..], id) by {
        forall k | 0 <= k < |items[1..]| ensures !SameId(LineId(items[1..][k]), id) {
          assert items[1..][k] == items[k + 1];
          assert !SameId(LineId(items[0]), LineId(items[k + 1]));
        }
      }
      QuantityOfAbsent(items[1..], id);
    } else {
      assert !SameId(LineId(items[0]), LineId(items[i]));
      assert items[1..][i - 1] == items[i];
      QuantityOfLine(items[1..], id, i - 1);
    }
  }

  /** A product has lines exactly when it is in the cart, and one line in a cart without
      duplicates. */
  lemma {:induction false} LineCountContains(items: seq<Line>, id: Id)
    ensures LineCount(items, id) > 0 <==> Contains(items, id)
    ensures Distinct(items) && Contains(items, id) ==> LineCount(items, id) == 1
  {
    if |items| > 0 {
      LineCountContains(items[1..], id);
      if Contains(items, id) && !SameId(LineId(items[0]), id) {
        var i :| 0 <= i < |items| && SameId(LineId(items[i]), id);
        assert items[1..][i - 1] == items[i];
      }
      if Contains(items[1..], id) {
        var i :| 0 <= i < |items[1..]| && SameId(LineId(items[1..][i]), id);
        assert items[1..][i] == items[i + 1];
      }
      if Distinct(items) && SameId(LineId(items[0]), id) {
        assert !Contains(items[1..], id) by {
          forall k | 0 <= k < |items[1..]| ensures !SameId(LineId(items[1..][k]), id) {
            assert items[1..][k] == items[k + 1];
            assert !SameId(LineId(items[0]), LineId(items[k + 1]));
          }
        }
      }
      assert Distinct(items) ==> Distinct(items[1..]);
    }
  }

  /** Adding to a product acts on every line of it: its quantity moves once per line. */
  lemma {:induction false} AddByLines(items: seq<Line>, id: Id, d: real)
    ensures QuantityOf(Requantify(items, id, AddBy(d)), id) == QuantityOf(items, id) + Times(LineCount(items, id), d)
  {
    if |items| > 0 {
      var r := Requantify(items, id, AddBy(d));
      assert r[1..] == Requantify(items[1..], id, AddBy(d));
      AddByLines(items[1..], id, d);
      if SameId(LineId(items[0]), id) {
        assert r[0].quantity == items[0].quantity + d;
        assert LineCount(items, id) == 1 + LineCount(items[1..], id);
      } else {
        assert r[0] == items[0];
      }
    }
  }

  /** Setting a product's quantity sets every line of it. */
  lemma {:induction false} SetToLines(items: seq<Line>, id: Id, v: real)
    ensures QuantityOf(Requantify(items, id, SetTo(v)), id) == Times(LineCount(items, id), v)
  {
    if |items| > 0 {
      var r := Requantify(items, id, SetTo(v));
      assert r[1..] == Requantify(items[1..], id, SetTo(v));
      SetToLines(items[1..], id, v);
      if SameId(LineId(items[0]), id) {
        assert r[0].quantity == v;
        assert LineCount(items, id) == 1 + LineCount(items[1..], id);
      } else {
        assert r[0] == items[0];
      }
    }
  }

  /** One added `k` times is `k`, and so is minus one, negated. */
  lemma {:induction false} TimesOne(k: nat)
    ensures Times(k, 1.0) == k as real && Times(k, -1.0) == -(k as real)
  {
    if k > 0 {
      TimesOne(k - 1);
    }
  }

  /** `Times` is multiplication. */
  lemma {:induction false} TimesProduct(k: nat, x: real)
    ensures Times(k, x) == k as real * x
  {
    if k > 0 {
      TimesProduct(k - 1, x);
      assert (k - 1) as real * x + x == k as real * x;
    }
  }

  /** `Times` distributes over a sum. */
  lemma {:induction false} TimesAdd(k: nat, x: real, y: real)
    ensures Times(k, x + y) == Times(k, x) + Times(k, y)
  {
    if k > 0 {
      TimesAdd(k - 1, x, y);
    }
  }

  /** `k` more of a line cost `k` times its unit price more. */
  lemma LineTotalAdd(l: Line, k: nat)
    ensures LineTotal(l.(quantity := l.quantity + k as real)) == LineTotal(l) + Times(k, l.product.price)
  {
    TimesProduct(k, l.product.price);
    var pr := l.product.price;
    assert pr * (l.quantity + k as real) == pr * l.quantity + k as real * pr;
  }

  /** Adding `k` to a product moves its share of the price by `k` times the unit price of
      each of its lines. */
  lemma {:induction false} AddByPrices(items: seq<Line>, id: Id, k: nat)
    ensures PriceOf(Requantify(items, id, AddBy(k as real)), id) == PriceOf(items, id) + Times(k, UnitPrice(items, id))
  {
    if |items| > 0 {
      var r := Requantify(items, id, AddBy(k as real));
      assert r[1..] == Requantify(items[1..], id, AddBy(k as real));
      AddByPrices(items[1..], id, k);
      var l := items[0];
      if SameId(LineId(l), id) {
        assert r[0] == l.(quantity := l.quantity + k as real);
        LineTotalAdd(l, k);
        TimesAdd(k, l.product.price, UnitPrice(items[1..], id));
      } else {
        assert r[0] == l;
      }
    } else {
      TimesProduct(k, 0.0);
    }
  }

  /** A new line of `n` costs `n` times the product's price. */
  lemma NewLineTotal(p: Product, n: int)
    requires n >= 1
    ensures LineTotal(NewLine(p, n)) == Times(n, p.price)
  {
    TimesProduct(n, p.price);
  }

  /** A line appended to the cart adds its quantity to its product's. */
  lemma {:induction false} QuantityOfAppend(items: seq<Line>, l: Line, id: Id)
    ensures QuantityOf(items + [l], id) == QuantityOf(items, id) + if SameId(LineId(l), id) then l.quantity else 0.0
  {
    if |items| > 0 {
      assert (items + [l])[1..] == items[1..] + [l];
      QuantityOfAppend(items[1..], l, id);
    } else {
      assert (items + [l])[1..] == [];
    }
  }

  /** A line appended to the cart adds its price times quantity to the total. */
  lemma {:induction false} TotalPriceAppend(items: seq<Line>, l: Line)
    ensures TotalPrice(items + [l]) == TotalPrice(items) + LineTotal(l)
  {
    if |items| > 0 {
      assert (items + [l])[1..] == items[1..] + [l];
      TotalPriceAppend(items[1..], l);
    } else {
      assert (items + [l])[1..] == [];
    }
  }

  /** Dropping the non-positive lines and dropping one product's lines commute. */
  lemma {:induction false} KeepPositiveWithout(m: seq<Line>, id: Id)
    ensures Without(KeepPositive(m), LineId, id) == KeepPositive(Without(m, LineId, id))
  {
    if |m| > 0 {
      var x := m[0];
      var rest := KeepPositive(m[1..]);
      var w := Without(m[1..], LineId, id);
      KeepPositiveWithout(m[1..], id);
      assert Without(rest, LineId, id) == KeepPositive(w);
      WithoutFirst(m, LineId, id);
      var kept := if x.quantity > 0.0 then [x] + rest else rest;
      assert KeepPositive(m) == kept;
      if x.quantity > 0.0 {
        WithoutFirst(kept, LineId, id);
        assert kept[0] == x && kept[1..] == rest;
      }
      if SameId(LineId(x), id) {
        assert Without(m, LineId, id) == w;
      } else {
        var xw := [x] + w;
        assert Without(m, LineId, id) == xw;
        assert xw[0] == x && xw[1..] == w;
        assert KeepPositive(xw) == (if x.quantity > 0.0 then [x] else []) + KeepPositive(w);
      }
    }
  }

  /** The lines `decrement` leaves: each line lowered by one if it is the product's, kept
      if still positive. */
  lemma DecrementMembers(items: seq<Line>, id: Id)
    ensures forall l :: l in KeepPositive(Requantify(items, id, AddBy(-1.0))) <==>
      (l.quantity > 0.0 && exists i :: 0 <= i < |items| && l == LessOne(items[i], id))
  {
    var m := Requantify(items, id, AddBy(-1.0));
    forall l: Line ensures l in m <==> exists i :: 0 <= i < |items| && l == LessOne(items[i], id) {
      if l in m {
        var i :| 0 <= i < |m| && m[i] == l;
        assert l == LessOne(items[i], id);
      }
      if exists i :: 0 <= i < |items| && l == LessOne(items[i], id) {
        var i :| 0 <= i < |items| && l == LessOne(items[i], id);
        assert m[i] == l;
      }
    }
  }

  /** In a cart of positive lines, `decrement` leaves every other product's lines as they were. */
  lemma DecrementKeepsOthers(items: seq<Line>, id: Id)
    ensures Positive(items) ==>
            Without(KeepPositive(Requantify(items, id, AddBy(-1.0))), LineId, id) == Without(items, LineId, id)
  {
    if !Positive(items) {
      return;
    }
    var m := Requantify(items, id, AddBy(-1.0));
    KeepPositiveWithout(m, id);
    RequantifyKeepsOthers(items, id, AddBy(-1.0));
    var w := Without(items, LineId, id);
    assert Positive(w) by {
      forall k | 0 <= k < |w| ensures w[k].quantity > 0.0 {
        assert w[k] in items;
      }
    }
  }

  // ---------------------------------------------------------------- properties

  /** The cart splits into one product's lines and the rest, so the total count is that
      product's quantity plus the count of every other line. */
  lemma {:induction false} TotalCountSplit(items: seq<Line>, id: Id)
    ensures TotalCount(items) == QuantityOf(items, id) + TotalCount(Without(items, LineId, id))
  {
    if |items| > 0 {
      TotalCountSplit(items[1..], id);
      WithoutFirst(items, LineId, id);
      var rest := Without(items[1..], LineId, id);
      if !SameId(LineId(items[0]), id) {
        var kept := [items[0]] + rest;
        assert kept[0] == items[0] && kept[1..] == rest;
        assert TotalCount(kept) == items[0].quantity + TotalCount(rest);
      } else {
        assert Without(items, LineId, id) == rest;
      }
    } else {
      FilterMembers(items, LineId, id);
    }
  }

  /** A quantity change touches the chosen product only: the rest of the cart is unchanged. */
  lemma {:induction false} RequantifyKeepsOthers(items: seq<Line>, id: Id, c: Change)
    ensures Without(Requantify(items, id, c), LineId, id) == Without(items, LineId, id)
  {
    if |items| > 0 {
      var r := Requantify(items, id, c);
      assert r[1..] == Requantify(items[1..], id, c);
      assert LineId(r[0]) == LineId(items[0]);
      RequantifyKeepsOthers(items[1..], id, c);
    }
  }

  /** In a cart without duplicates the chosen product's quantity changes as requested. */
  lemma RequantifyQuantity(items: seq<Line>, id: Id, c: Change)
    requires Distinct(items) && Contains(items, id)
    ensures QuantityOf(Requantify(items, id, c), id) == Apply(c, QuantityOf(items, id))
  {
    var r := Requantify(items, id, c);
    var i :| 0 <= i < |items| && SameId(LineId(items[i]), id);
    QuantityOfLine(items, id, i);
    RequantifyInvariant(items, id, c);
    assert LineId(r[i]) == LineId(items[i]) && r[i].quantity == Apply(c, items[i].quantity);
    QuantityOfLine(r, id, i);
  }

  /** The cart splits into one product's lines and the rest, so the total price is that
      product's share plus the price of every other line. */
  lemma {:induction false} TotalPriceSplit(items: seq<Line>, id: Id)
    ensures TotalPrice(items) == PriceOf(items, id) + TotalPrice(Without(items, LineId, id))
  {
    if |items| > 0 {
      TotalPriceSplit(items[1..], id);
      WithoutFirst(items, LineId, id);
      var rest := Without(items[1..], LineId, id);
      if !SameId(LineId(items[0]), id) {
        var kept := [items[0]] + rest;
        assert kept[0] == items[0] && kept[1..] == rest;
        assert TotalPrice(kept) == LineTotal(items[0]) + TotalPrice(rest);
      } else {
        assert Without(items, LineId, id) == rest;
      }
    }
  }

  /** The effect of one quantity change on the whole cart, duplicates included: the other
      products are untouched and the chosen one moves once per line. */
  lemma RequantifyEffect(items: seq<Line>, id: Id, c: Change)
    ensures Without(Requantify(items, id, c), LineId, id) == Without(items, LineId, id)
    ensures c.AddBy? ==> QuantityOf(Requantify(items, id, c), id) ==
                         QuantityOf(items, id) + Times(LineCount(items, id), c.delta)
    ensures c.SetTo? ==> QuantityOf(Requantify(items, id, c), id) == Times(LineCount(items, id), c.q)
    ensures TotalCount(Requantify(items, id, c)) ==
            TotalCount(items) - QuantityOf(items, id) + QuantityOf(Requantify(items, id, c), id)
    ensures Distinct(items) && Contains(items, id) ==>
            QuantityOf(Requantify(items, id, c), id) == Apply(c, QuantityOf(items, id))
  {
    var r := Requantify(items, id, c);
    RequantifyKeepsOthers(items, id, c);
    match c {
      case AddBy(d) => AddByLines(items, id, d);
      case SetTo(v) => SetToLines(items, id, v);
    }
    TotalCountSplit(items, id);
    TotalCountSplit(r, id);
    if Distinct(items) && Contains(items, id) {
      RequantifyQuantity(items, id, c);
    }
  }

  /** What adding `k` to a product does to the total price: its lines cost `k` times their
      unit prices more, the rest stays. */
  lemma AddByPriceEffect(items: seq<Line>, id: Id, k: nat)
    ensures TotalPrice(Requantify(items, id, AddBy(k as real))) == TotalPrice(items) + Times(k, UnitPrice(items, id))
  {
    var r := Requantify(items, id, AddBy(k as real));
    RequantifyKeepsOthers(items, id, AddBy(k as real));
    AddByPrices(items, id, k);
    TotalPriceSplit(items, id);
    TotalPriceSplit(r, id);
  }

  /** Adding a product raises each of its lines by `max(1, floor(qty))` (ids compared as
      strings), or appends one line of that many; every other line stays as it was. */
  lemma AddToCartEffect(items: seq<Line>, p: Product, qty: real)
    ensures Without(AddToCart(items, p, qty), LineId, p.id) == Without(items, LineId, p.id)
    ensures TotalCount(AddToCart(items, p, qty)) ==
            TotalCount(items) - QuantityOf(items, p.id) + QuantityOf(AddToCart(items, p, qty), p.id)
    ensures Contains(items, p.id) ==>
            QuantityOf(AddToCart(items, p, qty), p.id) ==
            QuantityOf(items, p.id) + Times(LineCount(items, p.id), AddQuantity(qty) as real)
    ensures !Contains(items, p.id) ==> QuantityOf(AddToCart(items, p, qty), p.id) == AddQuantity(qty) as real
    ensures Distinct(items) ==>
            && QuantityOf(AddToCart(items, p, qty), p.id) == QuantityOf(items, p.id) + AddQuantity(qty) as real
            && TotalCount(AddToCart(items, p, qty)) == TotalCount(items) + AddQuantity(qty) as real
  {
    var n := AddQuantity(qty);
    var r := AddToCart(items, p, qty);
    if Contains(items, p.id) {
      assert r == Requantify(items, p.id, AddBy(n as real));
      RequantifyEffect(items, p.id, AddBy(n as real));
      LineCountContains(items, p.id);
    } else {
      var l := NewLine(p, n);
      assert r == items + [l];
      QuantityOfAbsent(items, p.id);
      WithoutConcat(items, [l], LineId, p.id);
      assert Without([l], LineId, p.id) == [];
      assert Without(items, LineId, p.id) == items;
      TotalCountSplit(r, p.id);
      QuantityOfAppend(items, l, p.id);
    }
  }

  /** Adding n of a product raises the total price by n times its lines' unit prices, or by
      n times its own price when it was not in the cart. */
  lemma AddToCartPrice(items: seq<Line>, p: Product, qty: real)
    ensures Contains(items, p.id) ==>
            TotalPrice(AddToCart(items, p, qty)) == TotalPrice(items) + Times(AddQuantity(qty), UnitPrice(items, p.id))
    ensures !Contains(items, p.id) ==>
            TotalPrice(AddToCart(items, p, qty)) == TotalPrice(items) + Times(AddQuantity(qty), p.price)
  {
    var n := AddQuantity(qty);
    if Contains(items, p.id) {
      AddByPriceEffect(items, p.id, n);
    } else {
      TotalPriceAppend(items, NewLine(p, n));
      NewLineTotal(p, n);
    }
  }

  /** Adding the same product twice, even as 7 then "7", gives one line holding both amounts. */
  lemma AddTwiceOneLine(p: Product, p': Product, a: real, b: real)
    requires SameId(p.id, p'.id)
    ensures var r := AddToCart(AddToCart([], p, a), p', b);
      && |r| == 1
      && r[0].product == NewLine(p, AddQuantity(a)).product
      && r[0].quantity == (AddQuantity(a) + AddQuantity(b)) as real
  {
    var r1 := AddToCart([], p, a);
    assert SameId(LineId(r1[0]), p'.id);
  }

  /** Removing a product takes its whole quantity out of the total count and its whole
      share out of the total price. */
  lemma RemoveFromCartEffect(items: seq<Line>, id: Id)
    ensures TotalCount(RemoveFromCart(items, id)) == TotalCount(items) - QuantityOf(items, id)
    ensures TotalPrice(RemoveFromCart(items, id)) == TotalPrice(items) - PriceOf(items, id)
    ensures QuantityOf(RemoveFromCart(items, id), id) == 0.0
  {
    TotalCountSplit(items, id);
    TotalPriceSplit(items, id);
    QuantityOfAbsent(RemoveFromCart(items, id), id);
  }

  /** Setting a quantity of at least one sets every line of the product to floor(qty); a
      smaller one removes them; nothing else changes. */
  lemma SetQuantityEffect(items: seq<Line>, id: Id, qty: real)
    ensures Without(SetQuantity(items, id, qty), LineId, id) == Without(items, LineId, id)
    ensures qty.Floor > 0 ==>
            QuantityOf(SetQuantity(items, id, qty), id) == Times(LineCount(items, id), qty.Floor as real)
    ensures qty.Floor <= 0 ==> QuantityOf(SetQuantity(items, id, qty), id) == 0.0
    ensures TotalCount(SetQuantity(items, id, qty)) ==
            TotalCount(items) - QuantityOf(items, id) + QuantityOf(SetQuantity(items, id, qty), id)
    ensures Distinct(items) && Contains(items, id) && qty.Floor > 0 ==>
            QuantityOf(SetQuantity(items, id, qty), id) == qty.Floor as real
  {
    if qty.Floor > 0 {
      var c := SetTo(qty.Floor as real);
      assert SetQuantity(items, id, qty) == Requantify(items, id, c);
      RequantifyEffect(items, id, c);
    } else {
      var r := RemoveFromCart(items, id);
      RemoveFromCartEffect(items, id);
      assert Without(r, LineId, id) == r;
    }
  }

  /** Incrementing adds one to each line of the product, nothing else: one to its quantity
      and one unit price to the total in a cart without duplicates. */
  lemma IncrementEffect(items: seq<Line>, id: Id)
    ensures QuantityOf(Increment(items, id), id) == QuantityOf(items, id) + LineCount(items, id) as real
    ensures Without(Increment(items, id), LineId, id) == Without(items, LineId, id)
    ensures TotalCount(Increment(items, id)) == TotalCount(items) + LineCount(items, id) as real
    ensures Distinct(items) && Contains(items, id) ==>
            QuantityOf(Increment(items, id), id) == QuantityOf(items, id) + 1.0 &&
            TotalCount(Increment(items, id)) == TotalCount(items) + 1.0
  {
    RequantifyEffect(items, id, AddBy(1.0));
    LineCountContains(items, id);
    TimesOne(LineCount(items, id));
  }

  /** Incrementing adds one unit price per line of the product to the total price. */
  lemma IncrementPrice(items: seq<Line>, id: Id)
    ensures TotalPrice(Increment(items, id)) == TotalPrice(items) + UnitPrice(items, id)
  {
    assert Increment(items, id) == Requantify(items, id, AddBy(1 as real));
    AddByPriceEffect(items, id, 1);
  }

  /** Decrementing a product none of whose lines holds more than one removes them all,
      exactly as removeFromCart; without duplicates, that is a product held at most once. */
  lemma DecrementAtOneRemoves(items: seq<Line>, id: Id)
    requires Positive(items)
    ensures AllAtMost(items, id, 1.0) ==> Decrement(items, id) == RemoveFromCart(items, id)
    ensures Distinct(items) && QuantityOf(items, id) <= 1.0 ==> Decrement(items, id) == RemoveFromCart(items, id)
  {
    if Distinct(items) && QuantityOf(items, id) <= 1.0 {
      forall i | 0 <= i < |items| && SameId(LineId(items[i]), id) ensures items[i].quantity <= 1.0 {
        QuantityOfLine(items, id, i);
      }
    }
    if AllAtMost(items, id, 1.0) {
      DecrementAtOneFilters(items, id);
    }
  }

  /** The lines left by decrementing a product none of whose lines holds more than one are
      the other products'. */
  lemma {:induction false} DecrementAtOneFilters(items: seq<Line>, id: Id)
    requires Positive(items) && AllAtMost(items, id, 1.0)
    ensures KeepPositive(Requantify(items, id, AddBy(-1.0))) == Filter(items, LineId, id)
  {
    if |items| > 0 {
      var m := Requantify(items, id, AddBy(-1.0));
      assert m[1..] == Requantify(items[1..], id, AddBy(-1.0));
      assert m == [m[0]] + m[1..];
      assert Positive(items[1..]) && AllAtMost(items[1..], id, 1.0) by {
        forall k | 0 <= k < |items[1..]| ensures items[1..][k] == items[k + 1] {
        }
      }
      FilterFirst(items, LineId, id);
      DecrementAtOneFilters(items[1..], id);
      if SameId(LineId(items[0]), id) {
        assert m[0].quantity <= 0.0;
        assert KeepPositive(m) == KeepPositive(m[1..]);
      } else {
        assert m[0] == items[0];
        assert KeepPositive(m) == [m[0]] + KeepPositive(m[1..]);
      }
    }
  }

  /** Decrementing a product every line of which holds more than one lowers each by one and
      keeps every line; without duplicates, that is a product held more than once. */
  lemma DecrementAboveOneKeeps(items: seq<Line>, id: Id)
    requires Positive(items)
    ensures AllAbove(items, id, 1.0) ==> Decrement(items, id) == Requantify(items, id, AddBy(-1.0))
    ensures AllAbove(items, id, 1.0) ==>
            QuantityOf(Decrement(items, id), id) == QuantityOf(items, id) - LineCount(items, id) as real
    ensures AllAbove(items, id, 1.0) ==> (Contains(Decrement(items, id), id) <==> Contains(items, id))
    ensures Distinct(items) && QuantityOf(items, id) > 1.0 ==>
            && Decrement(items, id) == Requantify(items, id, AddBy(-1.0))
            && Contains(Decrement(items, id), id)
            && QuantityOf(Decrement(items, id), id) == QuantityOf(items, id) - 1.0
  {
    if Distinct(items) && QuantityOf(items, id) > 1.0 {
      DistinctAboveOne(items, id);
    }
    if AllAbove(items, id, 1.0) {
      DecrementAllAbove(items, id);
    }
  }

  /** Without duplicates, a product held more than once has one line, holding more than one. */
  lemma DistinctAboveOne(items: seq<Line>, id: Id)
    requires Distinct(items) && QuantityOf(items, id) > 1.0
    ensures AllAbove(items, id, 1.0) && Contains(items, id) && LineCount(items, id) == 1
  {
    assert Contains(items, id) by {
      if !Contains(items, id) {
        QuantityOfAbsent(items, id);
      }
    }
    var i :| 0 <= i < |items| && SameId(LineId(items[i]), id);
    QuantityOfLine(items, id, i);
    forall k | 0 <= k < |items| && SameId(LineId(items[k]), id) ensures items[k].quantity > 1.0 {
      DistinctUnique(items, id, i, k);
    }
    LineCountContains(items, id);
  }

  lemma DecrementAllAbove(items: seq<Line>, id: Id)
    requires Positive(items) && AllAbove(items, id, 1.0)
    ensures Decrement(items, id) == Requantify(items, id, AddBy(-1.0))
    ensures QuantityOf(Decrement(items, id), id) == QuantityOf(items, id) - LineCount(items, id) as real
    ensures Contains(Decrement(items, id), id) <==> Contains(items, id)
  {
    var m := Requantify(items, id, AddBy(-1.0));
    assert Positive(m);
    assert Decrement(items, id) == KeepPositive(m);
    AddByLines(items, id, -1.0);
    TimesOne(LineCount(items, id));
    RequantifyContains(items, id, AddBy(-1.0));
  }

  /** A quantity change keeps every product in the cart. */
  lemma RequantifyContains(items: seq<Line>, id: Id, c: Change)
    ensures Contains(Requantify(items, id, c), id) <==> Contains(items, id)
  {
    var m := Requantify(items, id, c);
    if Contains(items, id) {
      var k :| 0 <= k < |items| && SameId(LineId(items[k]), id);
      assert SameId(LineId(m[k]), id);
    }
    if Contains(m, id) {
      var k :| 0 <= k < |m| && SameId(LineId(m[k]), id);
      assert SameId(LineId(items[k]), id);
    }
  }

  /** A quantity restored from an old blob may be fractional; decrementing it can then leave
      a line below one unit, so only `Positive` (not "at least one") holds of every cart. */
  lemma FractionalLineCanDropBelowOne(p: Product)
    ensures var items := [Line(p, 1.5)];
      && Positive(items) && Distinct(items)
      && var r := Decrement(items, p.id);
      && |r| == 1 && r[0].quantity == 0.5
  {
    var items := [Line(p, 1.5)];
    assert SameId(LineId(items[0]), p.id);
    var m := Requantify(items, p.id, AddBy(-1.0));
    assert m[0].quantity == 0.5;
    assert KeepPositive(m) == [m[0]] + KeepPositive(m[1..]);
  }

  // ---------------------------------------------------------------- scenarios

  /** Two lines at 10 x 2 and 5 x 1 total 25 in price and 3 in count. */
  lemma TotalsExample(a: Product, b: Product)
    requires a.price == 10.0 && b.price == 5.0
    ensures TotalPrice([Line(a, 2.0), Line(b, 1.0)]) == 25.0
    ensures TotalCount([Line(a, 2.0), Line(b, 1.0)]) == 3.0
  {
    var items := [Line(a, 2.0), Line(b, 1.0)];
    assert items[1..] == [Line(b, 1.0)];
    assert items[1..][1..] == [];
    assert TotalPrice(items[1..]) == 5.0;
    assert TotalCount(items[1..]) == 1.0;
  }

  /** `filter` works run by run. */
  lemma {:induction false} KeepPositiveConcat(a: seq<Line>, b: seq<Line>)
    ensures KeepPositive(a + b) == KeepPositive(a) + KeepPositive(b)
  {
    if |a| == 0 {
      assert a + b == b;
    } else {
      assert (a + b)[1..] == a[1..] + b;
      KeepPositiveConcat(a[1..], b);
    }
  }

  /** `map` works run by run. */
  lemma RequantifyConcat(a: seq<Line>, b: seq<Line>, id: Id, c: Change)
    ensures Requantify(a + b, id, c) == Requantify(a, id, c) + Requantify(b, id, c)
  {
    var r := Requantify(a + b, id, c);
    var s := Requantify(a, id, c) + Requantify(b, id, c);
    forall i | 0 <= i < |r|
      ensures r[i] == s[i]
    {
      if i >= |a| {
        assert (a + b)[i] == b[i - |a|];
      }
    }
  }

  /** `decrement` works line by line: on a concatenation it decrements each run, and a
      single line becomes its lowered copy, or nothing when that is not positive. Together
      these fix the result on every cart, order and repeated lines included. */
  lemma DecrementLineByLine(a: seq<Line>, b: seq<Line>, l: Line, id: Id)
    ensures Decrement(a + b, id) == Decrement(a, id) + Decrement(b, id)
    ensures Decrement([l], id) == if LessOne(l, id).quantity > 0.0 then [LessOne(l, id)] else []
  {
    RequantifyConcat(a, b, id, AddBy(-1.0));
    KeepPositiveConcat(Requantify(a, id, AddBy(-1.0)), Requantify(b, id, AddBy(-1.0)));
    var m := Requantify([l], id, AddBy(-1.0));
    assert m == [LessOne(l, id)];
    assert KeepPositive(m) == (if m[0].quantity > 0.0 then [m[0]] else []) + KeepPositive(m[1..]);
    assert m[1..] == [];
  }

  /** A cart holding one product on two lines, at one unit and at three, keeps only the
      second line, at two units. */
  lemma DecrementMixedLines(p: Product, p': Product)
    requires SameId(p.id, p'.id)
    ensures Decrement([Line(p, 1.0), Line(p', 3.0)], p.id) == [Line(p', 2.0)]
  {
    var m := Requantify([Line(p, 1.0), Line(p', 3.0)], p.id, AddBy(-1.0));
    assert m == [Line(p, 0.0), Line(p', 2.0)];
    assert m[1..] == [Line(p', 2.0)] && m[1..][1..] == [];
    assert KeepPositive(m) == KeepPositive(m[1..]) == [Line(p', 2.0)];
  }

  /** A one-line cart above one unit decrements to one unit less. */
  lemma DecrementSingleAbove(l: Line, id: Id)
    requires SameId(LineId(l), id) && l.quantity > 1.0
    ensures Decrement([l], id) == [l.(quantity := l.quantity - 1.0)]
  {
    assert AllAbove([l], id, 1.0);
    DecrementAllAbove([l], id);
  }

  /** A one-line cart at its last unit (or less) decrements to the empty cart. */
  lemma DecrementSingleLast(l: Line, id: Id)
    requires SameId(LineId(l), id) && 0.0 < l.quantity <= 1.0
    ensures Decrement([l], id) == []
  {
    assert AllAtMost([l], id, 1.0);
    DecrementAtOneRemoves([l], id);
  }

  /** Empty cart, add "a" at 100, increment: count 2, price 200; decrement twice: empty. */
  lemma Scenario(p: Product)
    requires p.id == StrId("a") && p.name == "X" && p.price == 100.0 && p.image == "/x.png"
    ensures var c1 := Increment(AddToCart([], p, 1.0), StrId("a"));
      && TotalCount(c1) == 2.0 && TotalPrice(c1) == 200.0
      && Decrement(Decrement(c1, StrId("a")), StrId("a")) == []
  {
    var c0 := AddToCart([], p, 1.0);
    var l := NewLine(p, 1);
    assert c0 == [l];
    assert SameId(LineId(l), StrId("a"));
    var l2 := l.(quantity := 2.0);
    var c1 := Increment(c0, StrId("a"));
    assert c1 == [l2];
    assert TotalCount(c1) == 2.0 && TotalPrice(c1) == 200.0 by {
      assert c1[1..] == [];
    }
    DecrementSingleAbove(l2, StrId("a"));
    DecrementSingleLast(l2.(quantity := 1.0), StrId("a"));
  }
}

=== FILE: cart_migrate.dfy ===
/** The cart's persisted form: how `partialize` writes the lines (src/store/cart.ts:199)
    and how `migrate` turns any stored blob back into lines (src/store/cart.ts:155-198). */
module CartMigrate {
  import opened Wrappers
  import opened Text
  import opened Js
  import opened Identity
  import opened Catalog
  import opened Legacy
  import opened CartStore

  /** The optional `CartProduct` properties `migrate` copies as found. */
  const CopiedKeys: seq<string> :=
    ["category_id", "category", "brand_id", "identity", "base_color", "near_color",
     "note", "thumbnail_url", "created_at"]

  /** The untyped properties a line keeps through `migrate`: the copied ones and the brand. */
  const AttrKeys: seq<string> := CopiedKeys + [BrandNameKey]

  /** Every line holds at least one unit (not necessarily a whole number of them). */
  predicate AtLeastOne(items: seq<Line>) {
    forall i :: 0 <= i < |items| ==> items[i].quantity >= 1.0
  }

  // ---------------------------------------------------------------- reading

  /** `Math.max(1, Number.isFinite(q) ? Number(q) : 1)`: only a JSON number is finite. */
  function MigrateQuantity(v: Option<Json>): (q: real)
    ensures q >= 1.0
    ensures v.Some? && v.value.JNum? && v.value.x >= 1.0 ==> q == v.value.x
    ensures !(v.Some? && v.value.JNum? && v.value.x >= 1.0) ==> q == 1.0
  {
    if v.Some? && v.value.JNum? && v.value.x >= 1.0 then v.value.x else 1.0
  }

  /** `old.brand_name || "غير محدد"` */
  function MigrateBrand(v: Option<Json>): (b: Json)
    ensures Truthy(b)
    ensures Present(v) ==> b == v.value
  {
    if Present(v) then v.value else JStr(PlaceholderBrand)
  }

  /** The untyped properties: the copied ones as found, and a brand that is always set. */
  function MigrateAttrs(entry: Json): (attrs: map<string, Json>)
    ensures BrandNameKey in attrs && Truthy(attrs[BrandNameKey])
    ensures Present(Field(entry, BrandNameKey)) ==> attrs[BrandNameKey] == Field(entry, BrandNameKey).value
    ensures !Present(Field(entry, BrandNameKey)) ==> attrs[BrandNameKey] == JStr(PlaceholderBrand)
    ensures forall k :: k in attrs ==> k in AttrKeys
    ensures forall k :: k in CopiedKeys && Field(entry, k).Some? ==> k in attrs && attrs[k] == Field(entry, k).value
  {
    var copied := CopyPresent(entry, CopiedKeys);
    copied[BrandNameKey := MigrateBrand(Field(entry, BrandNameKey))]
  }

  /** One legacy entry turned into a current-shape line: always displayable, with at least
      one unit. */
  function MigrateLine(entry: Json): (l: Line)
    ensures Displayable(l) && l.quantity >= 1.0
    ensures Canonical(l.product.id)
    ensures forall k :: k in l.product.attrs ==> k in AttrKeys
  {
    Line(ReadProduct(entry, PlaceholderName, MigrateAttrs(entry)), MigrateQuantity(Field(entry, "quantity")))
  }

  /** The entries of `state.items` when it is an array; None when migrate starts from `[]`
      (a falsy state, or `items` missing or not an array). */
  function StoredItems(state: Option<Json>): Option<seq<Json>> {
    if !Present(state) then None
    else
      var items := Field(state.value, "items");
      if items.Some? && items.value.JArr? then Some(items.value.elems) else None
  }

  /** `migrate(persistedState)`. None is the TypeError thrown when an entry is null
      (`old.name` of null); any other entry reads its properties as undefined if it has none. */
  function Migrate(state: Option<Json>): (r: Option<seq<Line>>)
    ensures StoredItems(state).None? ==> r == Some([])
    ensures r.None? <==> StoredItems(state).Some? && JNull in StoredItems(state).value
    ensures r.Some? ==> AllDisplayable(r.value) && AtLeastOne(r.value) && Positive(r.value)
    ensures r.Some? && StoredItems(state).Some? ==>
            var src := StoredItems(state).value;
            |r.value| == |src| && forall i :: 0 <= i < |src| ==> r.value[i] == MigrateLine(src[i])
  {
    match StoredItems(state)
    case None => Some([])
    case Some(src) =>
      if JNull in src then None
      else Some(seq(|src|, i requires 0 <= i < |src| => MigrateLine(src[i])))
  }

  // ---------------------------------------------------------------- writing

  /** The one property a line adds to its product. */
  function QuantityTail(q: real): seq<Member> {
    [Member("quantity", JNum(q))]
  }

  /** A line as written to storage, restricted to the properties `migrate` reads back.
      `partialize` writes the whole line, but `migrate` copies no other property, so a line
      whose product carries others (a product card's categories, tags, description, flags,
      discount and stock) is not `Storable`: migrating it drops them. */
  function LineJson(l: Line): (j: Json)
    ensures Field(j, "id") == IdValue(l.product.id)
    ensures Field(j, "name") == Some(JStr(l.product.name))
    ensures Field(j, BrandNameKey) == Attr(l.product, BrandNameKey)
    ensures Field(j, "quantity") == Some(JNum(l.quantity))
  {
    var tail := QuantityTail(l.quantity);
    EntryField(l.product, AttrKeys, tail, "id");
    EntryField(l.product, AttrKeys, tail, "name");
    EntryField(l.product, AttrKeys, tail, BrandNameKey);
    EntryField(l.product, AttrKeys, tail, "quantity");
    JObj(EntryMembers(l.product, AttrKeys, tail))
  }

  /** `partialize`: only `items` is stored, one entry per line, in cart order. */
  function Snapshot(items: seq<Line>): (s: Json)
    ensures forall k :: k != "items" ==> Field(s, k).None?
    ensures Field(s, "items").Some? && Field(s, "items").value.JArr?
    ensures |Field(s, "items").value.elems| == |items|
    ensures forall i :: 0 <= i < |items| ==> Field(s, "items").value.elems[i] == LineJson(items[i])
  {
    var ms := [Member("items", JArr(seq(|items|, i requires 0 <= i < |items| => LineJson(items[i]))))];
    OnlyMember(ms[0]);
    JObj(ms)
  }

  /** A line `migrate` restores exactly: a canonical id, a name and an image, at least one
      unit, a truthy brand, and no property beyond the declared ones. */
  predicate Storable(l: Line) {
    && Writable(l.product, AttrKeys)
    && l.quantity >= 1.0
    && Present(Attr(l.product, BrandNameKey))
  }

  // ---------------------------------------------------------------- properties

  lemma LineLayout(q: real)
    ensures Layout(AttrKeys, QuantityTail(q))
  {
  }

  /** Migrating a written line restores it. */
  lemma MigrateLineRoundTrip(l: Line)
    requires Storable(l)
    ensures MigrateLine(LineJson(l)) == l
  {
    var tail := QuantityTail(l.quantity);
    LineLayout(l.quantity);
    MigrateAttrsRoundTrip(l);
    ReadProductRoundTrip(l.product, AttrKeys, tail, PlaceholderName);
    EntryField(l.product, AttrKeys, tail, "quantity");
  }

  lemma MigrateAttrsRoundTrip(l: Line)
    requires Storable(l)
    ensures MigrateAttrs(LineJson(l)) == l.product.attrs
  {
    var p := l.product;
    var tail := QuantityTail(l.quantity);
    LineLayout(l.quantity);
    ReadCopied(p, AttrKeys, CopiedKeys, tail);
    ReadBrand(l);
    RestoreBrand(p.attrs, CopyPresent(LineJson(l), CopiedKeys));
  }

  lemma ReadBrand(l: Line)
    ensures Field(LineJson(l), BrandNameKey) == Attr(l.product, BrandNameKey)
  {
    EntryField(l.product, AttrKeys, QuantityTail(l.quantity), BrandNameKey);
  }

  /** The copied properties plus the brand are all the declared ones. */
  lemma RestoreBrand(attrs: map<string, Json>, copied: map<string, Json>)
    requires copied == map k | k in attrs && k in CopiedKeys :: attrs[k]
    requires BrandNameKey in attrs && forall k :: k in attrs ==> k in AttrKeys
    ensures copied[BrandNameKey := attrs[BrandNameKey]] == attrs
  {
    var r := copied[BrandNameKey := attrs[BrandNameKey]];
    assert forall k :: k in attrs ==> k in CopiedKeys || k == BrandNameKey;
    assert r.Keys == attrs.Keys;
  }

  /** What `partialize` writes, `migrate` reads back unchanged. */
  lemma MigrateRoundTrip(items: seq<Line>)
    requires forall i :: 0 <= i < |items| ==> Storable(items[i])
    ensures Migrate(Some(Snapshot(items))) == Some(items)
  {
    var src := seq(|items|, i requires 0 <= i < |items| => LineJson(items[i]));
    assert Field(Snapshot(items), "items") == Some(JArr(src));
    assert StoredItems(Some(Snapshot(items))) == Some(src);
    assert JNull !in src;
    var r := Migrate(Some(Snapshot(items))).value;
    forall i | 0 <= i < |items| ensures r[i] == items[i] {
      MigrateLineRoundTrip(items[i]);
    }
    assert r == items;
  }

  /** Migrating a migrated entry again changes nothing. */
  lemma MigrateLineIdempotent(entry: Json)
    ensures MigrateLine(LineJson(MigrateLine(entry))) == MigrateLine(entry)
  {
    MigrateLineRoundTrip(MigrateLine(entry));
  }

  /** `migrate` does not merge entries: a blob holding 7 and "7" yields two lines for one
      product, so distinct ids hold of carts built by the actions, not of every loaded one. */
  lemma MigrateKeepsDuplicates()
    ensures var state := JObj([Member("items", JArr([JObj([Member("id", JNum(7.0))]),
                                                      JObj([Member("id", JStr("7"))])]))]);
      && Migrate(Some(state)).Some?
      && |Migrate(Some(state)).value| == 2
      && !Distinct(Migrate(Some(state)).value)
  {
    var e0 := JObj([Member("id", JNum(7.0))]);
    var e1 := JObj([Member("id", JStr("7"))]);
    var state := JObj([Member("items", JArr([e0, e1]))]);
    assert Field(e0, "id") == Some(JNum(7.0));
    assert Field(e1, "id") == Some(JStr("7"));
    assert IsWhole(7.0) && (7.0).Floor == 7;
    var r := Migrate(Some(state)).value;
    assert LineId(r[0]) == NumId(7) && LineId(r[1]) == StrId("7");
    assert IntText(7) == "7";
    assert SameId(LineId(r[0]), LineId(r[1]));
  }
}

=== FILE: catalog.dfy ===
/** The product record both stores keep (`CartProduct` in src/store/cart.ts:7-30,
    `FavoriteProduct` in src/store/favorites.ts:7-30). */
module Catalog {
  import opened Wrappers
  import opened Js
  import opened Identity

  /** The fields the stores' logic reads are typed; every other property (category and
      brand references, variant colours, note, tags, timestamps, ...) is kept by name in
      `attrs`, an absent key being `undefined`. */
  datatype Product = Product(
    id: Id,
    name: string,
    price: real,
    image: string,
    slug: Option<string>,
    rating: Option<real>,
    attrs: map<string, Json>)

  function ProductId(p: Product): Id {
    p.id
  }

  /** `p[k]` for an untyped property. */
  function Attr(p: Product, k: string): Option<Json> {
    Get(p.attrs, k)
  }

  const BrandNameKey := "brand_name"

  /** The image both migrations fall back to. */
  const LegacyPlaceholderImage := "/images/placeholders/phone-placeholder.jpg"
}

=== FILE: favorites.dfy ===
/** The favorites store of src/store/favorites.ts as pure state transitions over the list
    of saved products. */
module FavoritesStore {
  import opened Text
  import opened Identity
  import opened Keyed
  import opened Catalog

  /** `isFavorite(id)`: some saved product is the same product as `id`. */
  predicate IsFavorite(favs: seq<Product>, id: Id) {
    Has(favs, ProductId, id)
  }

  /** No product saved twice. */
  predicate Distinct(favs: seq<Product>) {
    DistinctIds(favs, ProductId)
  }

  /** `removeFavorite(id)` */
  function RemoveFavorite(favs: seq<Product>, id: Id): (r: seq<Product>)
    ensures forall p :: p in r <==> p in favs && !SameId(p.id, id)
    ensures !IsFavorite(r, id)
    ensures !IsFavorite(favs, id) ==> r == favs
    ensures IsFavorite(favs, id) ==> |r| < |favs|
    ensures Distinct(favs) ==> Distinct(r)
  {
    Without(favs, ProductId, id)
  }

  /** `toggleFavorite(product)`: a saved product is removed, an unsaved one appended. */
  function ToggleFavorite(favs: seq<Product>, p: Product): (r: seq<Product>)
    ensures IsFavorite(favs, p.id) ==> r == RemoveFavorite(favs, p.id)
    ensures !IsFavorite(favs, p.id) ==> r == favs + [p]
    ensures IsFavorite(r, p.id) <==> !IsFavorite(favs, p.id)
    ensures Distinct(favs) ==> Distinct(r)
  {
    if IsFavorite(favs, p.id) then RemoveFavorite(favs, p.id)
    else
      var r := favs + [p];
      assert ProductId(r[|favs|]) == p.id;
      assert Distinct(favs) ==> Distinct(r) by {
        if Distinct(favs) {
          forall i, j | 0 <= i < j < |r| ensures !SameId(r[i].id, r[j].id) {
            if j == |favs| {
              assert !SameId(favs[i].id, p.id);
            }
          }
        }
      }
      r
  }

  /** `clear()` */
  function Clear(favs: seq<Product>): (r: seq<Product>)
    ensures forall id :: !IsFavorite(r, id)
    ensures Distinct(r)
  {
    []
  }

  // ---------------------------------------------------------------- properties

  /** `isFavorite` gives one answer for every id naming the same product. */
  lemma IsFavoriteBySameId(favs: seq<Product>, a: Id, b: Id)
    requires SameId(a, b)
    ensures IsFavorite(favs, a) <==> IsFavorite(favs, b)
  {
    HasBySameId(favs, ProductId, a, b);
  }

  /** `isFavorite` after appending: the product appended, or one saved before. */
  lemma IsFavoriteAppend(favs: seq<Product>, p: Product, id: Id)
    ensures IsFavorite(favs + [p], id) <==> IsFavorite(favs, id) || SameId(p.id, id)
  {
    HasAppend(favs, p, ProductId, id);
  }

  /** Toggling answers `isFavorite` for every id that names the same product, 7 or "7". */
  lemma ToggleFlipsMembership(favs: seq<Product>, p: Product, id: Id)
    requires SameId(id, p.id)
    ensures IsFavorite(ToggleFavorite(favs, p), id) <==> !IsFavorite(favs, id)
  {
    HasBySameId(favs, ProductId, id, p.id);
    HasBySameId(ToggleFavorite(favs, p), ProductId, id, p.id);
  }

  /** Toggling leaves `isFavorite` of every other product as it was. */
  lemma ToggleKeepsOthers(favs: seq<Product>, p: Product, id: Id)
    requires !SameId(id, p.id)
    ensures IsFavorite(ToggleFavorite(favs, p), id) <==> IsFavorite(favs, id)
  {
    if IsFavorite(favs, p.id) {
      HasWithoutOther(favs, ProductId, p.id, id);
    } else {
      HasAppend(favs, p, ProductId, id);
    }
  }

  /** Toggling an unsaved product twice gives back exactly the list it started from. */
  lemma ToggleTwiceAbsent(favs: seq<Product>, p: Product)
    requires !IsFavorite(favs, p.id)
    ensures ToggleFavorite(ToggleFavorite(favs, p), p) == favs
  {
    var r := favs + [p];
    assert IsFavorite(r, p.id) by {
      assert SameId(ProductId(r[|favs|]), p.id);
    }
    WithoutConcat(favs, [p], ProductId, p.id);
    assert SameId(ProductId([p][0]), p.id);
    assert Without([p], ProductId, p.id) == [];
  }

  /** Toggling a saved product twice removes its entries and puts it back at the end. */
  lemma ToggleTwicePresent(favs: seq<Product>, p: Product)
    requires IsFavorite(favs, p.id)
    ensures ToggleFavorite(ToggleFavorite(favs, p), p) == RemoveFavorite(favs, p.id) + [p]
  {
  }

  /** Removing keeps the other entries in their order: removing from a list split in two
      removes from each part. */
  lemma RemoveFavoriteSplits(a: seq<Product>, b: seq<Product>, id: Id)
    ensures RemoveFavorite(a + b, id) == RemoveFavorite(a, id) + RemoveFavorite(b, id)
  {
    WithoutConcat(a, b, ProductId, id);
  }

  /** Removing twice is removing once. */
  lemma RemoveFavoriteIdempotent(favs: seq<Product>, id: Id)
    ensures RemoveFavorite(RemoveFavorite(favs, id), id) == RemoveFavorite(favs, id)
  {
  }

  /** A product saved, whatever the list held, is a favorite under any equal id. */
  lemma ToggleScenario(p: Product)
    requires p.id == NumId(7)
    ensures IsFavorite(ToggleFavorite([], p), StrId("7"))
    ensures ToggleFavorite(ToggleFavorite([], p), p) == []
  {
    assert IntText(7) == "7";
    ToggleFlipsMembership([], p, StrId("7"));
    ToggleTwiceAbsent([], p);
  }
}

=== FILE: favorites_migrate.dfy ===
/** The favorites' persisted form: how `partialize` writes the list
    (src/store/favorites.ts:130) and how `migrate` turns any stored blob back into saved
    products (src/store/favorites.ts:88-128). */
module FavoritesMigrate {
  import opened Wrappers
  import opened Js
  import opened Identity
  import opened Catalog
  import opened Legacy

  /** The name of an entry that had neither a name nor a title. */
  const PlaceholderName := "منتج"

  /** The optional `FavoriteProduct` properties `migrate` copies as found. */
  const CopiedKeys: seq<string> :=
    ["category_id", "category", "brand_id", BrandNameKey, "identity", "base_color", "near_color"]

  const TagsKey := "tags"
  const CreatedAtKey := "created_at"
  const ThumbnailKey := "thumbnail_url"

  /** The untyped properties a saved product keeps through `migrate`. */
  const AttrKeys: seq<string> := CopiedKeys + [TagsKey, CreatedAtKey, ThumbnailKey]

  /** The shape `migrate` gives the untyped properties: tags only as an array, a creation
      date that is text or null and always set, a thumbnail only as text. */
  predicate Shaped(attrs: map<string, Json>) {
    && (TagsKey in attrs ==> attrs[TagsKey].JArr?)
    && CreatedAtKey in attrs && (attrs[CreatedAtKey].JStr? || attrs[CreatedAtKey].JNull?)
    && (ThumbnailKey in attrs ==> attrs[ThumbnailKey].JStr?)
    && forall k :: k in attrs ==> k in AttrKeys
  }

  // ---------------------------------------------------------------- reading

  /** `Array.isArray(v) ? v : undefined` */
  function ArrayOrNone(v: Option<Json>): (r: Option<Json>)
    ensures r.Some? <==> v.Some? && v.value.JArr?
    ensures r.Some? ==> r == v
  {
    if v.Some? && v.value.JArr? then v else None
  }

  /** `typeof v === "string" ? v : null` */
  function TextOrNull(v: Option<Json>): (r: Json)
    ensures r.JStr? || r.JNull?
    ensures v.Some? && v.value.JStr? ==> r == v.value
    ensures !(v.Some? && v.value.JStr?) ==> r == JNull
  {
    if v.Some? && v.value.JStr? then v.value else JNull
  }

  /** Sets `k` when `v` is defined; an undefined property is not written. */
  function PutDefined(m: map<string, Json>, k: string, v: Option<Json>): (r: map<string, Json>)
    ensures Get(r, k) == if v.Some? then v else Get(m, k)
    ensures forall k' :: k' != k ==> Get(r, k') == Get(m, k')
    ensures r.Keys <= m.Keys + {k}
  {
    if v.Some? then m[k := v.value] else m
  }

  /** The untyped properties of one legacy entry. */
  function MigrateAttrs(entry: Json): (attrs: map<string, Json>)
    ensures Shaped(attrs)
    ensures forall k :: k in CopiedKeys ==> Get(attrs, k) == Field(entry, k)
    ensures Get(attrs, TagsKey) == ArrayOrNone(Field(entry, TagsKey))
    ensures Get(attrs, CreatedAtKey) == Some(TextOrNull(Field(entry, CreatedAtKey)))
    ensures Get(attrs, ThumbnailKey) == OptText(TextOrNone(Field(entry, ThumbnailKey)))
  {
    var copied := CopyPresent(entry, CopiedKeys);
    assert TagsKey !in CopiedKeys && CreatedAtKey !in CopiedKeys && ThumbnailKey !in CopiedKeys;
    assert TagsKey != CreatedAtKey && ThumbnailKey != CreatedAtKey && TagsKey != ThumbnailKey;
    var withTags := PutDefined(copied, TagsKey, ArrayOrNone(Field(entry, TagsKey)));
    var withDate := withTags[CreatedAtKey := TextOrNull(Field(entry, CreatedAtKey))];
    PutDefined(withDate, ThumbnailKey, OptText(TextOrNone(Field(entry, ThumbnailKey))))
  }

  /** One legacy entry turned into a saved product. */
  function MigrateEntry(entry: Json): (p: Product)
    ensures p.name != "" && p.image != "" && Canonical(p.id)
    ensures Shaped(p.attrs)
  {
    ReadProduct(entry, PlaceholderName, MigrateAttrs(entry))
  }

  /** `persisted?.favorites` when it is an array. */
  function StoredFavorites(state: Option<Json>): Option<seq<Json>> {
    if state.None? || state.value.JNull? then None
    else
      var favs := Field(state.value, "favorites");
      if favs.Some? && favs.value.JArr? then Some(favs.value.elems) else None
  }

  /** `migrate(persisted)`. None is the TypeError thrown when an entry is null. */
  function Migrate(state: Option<Json>): (r: Option<seq<Product>>)
    ensures StoredFavorites(state).None? ==> r == Some([])
    ensures r.None? <==> StoredFavorites(state).Some? && JNull in StoredFavorites(state).value
    ensures r.Some? ==> forall i :: 0 <= i < |r.value| ==>
              r.value[i].name != "" && r.value[i].image != "" && Shaped(r.value[i].attrs)
    ensures r.Some? && StoredFavorites(state).Some? ==>
            var src := StoredFavorites(state).value;
            |r.value| == |src| && forall i :: 0 <= i < |src| ==> r.value[i] == MigrateEntry(src[i])
  {
    match StoredFavorites(state)
    case None => Some([])
    case Some(src) =>
      if JNull in src then None
      else Some(seq(|src|, i requires 0 <= i < |src| => MigrateEntry(src[i])))
  }

  // ---------------------------------------------------------------- writing

  /** A saved product as written to storage, restricted to the properties `migrate` reads
      back. A product carrying any other property is not `Storable`: migrating it drops
      that property. */
  function EntryJson(p: Product): (j: Json)
    ensures Field(j, "id") == IdValue(p.id)
    ensures Field(j, "name") == Some(JStr(p.name))
    ensures Field(j, "image") == Some(JStr(p.image))
    ensures Field(j, CreatedAtKey) == Get(p.attrs, CreatedAtKey)
  {
    EntryField(p, AttrKeys, [], "id");
    EntryField(p, AttrKeys, [], "name");
    EntryField(p, AttrKeys, [], "image");
    EntryField(p, AttrKeys, [], CreatedAtKey);
    JObj(EntryMembers(p, AttrKeys, []))
  }

  /** `partialize`: only `favorites` is stored, one entry per product, in order. */
  function Snapshot(favs: seq<Product>): (s: Json)
    ensures forall k :: k != "favorites" ==> Field(s, k).None?
    ensures Field(s, "favorites").Some? && Field(s, "favorites").value.JArr?
    ensures |Field(s, "favorites").value.elems| == |favs|
    ensures forall i :: 0 <= i < |favs| ==> Field(s, "favorites").value.elems[i] == EntryJson(favs[i])
  {
    var ms := [Member("favorites", JArr(seq(|favs|, i requires 0 <= i < |favs| => EntryJson(favs[i]))))];
    OnlyMember(ms[0]);
    JObj(ms)
  }

  /** A saved product `migrate` restores exactly: no property beyond the copied ones, and
      well-shaped extras, `created_at` among them (one saved without it comes back with
      `created_at: null`). */
  predicate Storable(p: Product) {
    Writable(p, AttrKeys) && Shaped(p.attrs)
  }

  // ---------------------------------------------------------------- properties

  lemma EntryLayout()
    ensures Layout(AttrKeys, [])
  {
  }

  /** The extra properties read back as written. */
  lemma ReadExtras(p: Product)
    ensures Field(EntryJson(p), TagsKey) == Get(p.attrs, TagsKey)
    ensures Field(EntryJson(p), CreatedAtKey) == Get(p.attrs, CreatedAtKey)
    ensures Field(EntryJson(p), ThumbnailKey) == Get(p.attrs, ThumbnailKey)
  {
    EntryField(p, AttrKeys, [], TagsKey);
    EntryField(p, AttrKeys, [], CreatedAtKey);
    EntryField(p, AttrKeys, [], ThumbnailKey);
  }

  /** The copied properties plus the shaped extras are all the declared ones. */
  lemma RestoreExtras(attrs: map<string, Json>, copied: map<string, Json>)
    requires copied == map k | k in attrs && k in CopiedKeys :: attrs[k]
    requires Shaped(attrs)
    ensures var withTags := PutDefined(copied, TagsKey, ArrayOrNone(Get(attrs, TagsKey)));
      var withDate := withTags[CreatedAtKey := TextOrNull(Get(attrs, CreatedAtKey))];
      attrs == PutDefined(withDate, ThumbnailKey, OptText(TextOrNone(Get(attrs, ThumbnailKey))))
  {
    assert forall k :: k in attrs ==> k in CopiedKeys || k == TagsKey || k == CreatedAtKey || k == ThumbnailKey;
  }

  lemma MigrateAttrsRoundTrip(p: Product)
    requires Storable(p)
    ensures MigrateAttrs(EntryJson(p)) == p.attrs
  {
    EntryLayout();
    ReadCopied(p, AttrKeys, CopiedKeys, []);
    ReadExtras(p);
    RestoreExtras(p.attrs, CopyPresent(EntryJson(p), CopiedKeys));
  }

  /** Migrating a written entry restores it. */
  lemma MigrateEntryRoundTrip(p: Product)
    requires Storable(p)
    ensures MigrateEntry(EntryJson(p)) == p
  {
    EntryLayout();
    MigrateAttrsRoundTrip(p);
    ReadProductRoundTrip(p, AttrKeys, [], PlaceholderName);
  }

  /** What `partialize` writes, `migrate` reads back unchanged. */
  lemma MigrateRoundTrip(favs: seq<Product>)
    requires forall i :: 0 <= i < |favs| ==> Storable(favs[i])
    ensures Migrate(Some(Snapshot(favs))) == Some(favs)
  {
    var src := seq(|favs|, i requires 0 <= i < |favs| => EntryJson(favs[i]));
    assert Field(Snapshot(favs), "favorites") == Some(JArr(src));
    assert StoredFavorites(Some(Snapshot(favs))) == Some(src);
    assert JNull !in src;
    var r := Migrate(Some(Snapshot(favs))).value;
    forall i | 0 <= i < |favs| ensures r[i] == favs[i] {
      MigrateEntryRoundTrip(favs[i]);
    }
    assert r == favs;
  }

  /** Migrating a migrated entry again changes nothing. */
  lemma MigrateEntryIdempotent(entry: Json)
    ensures MigrateEntry(EntryJson(MigrateEntry(entry))) == MigrateEntry(entry)
  {
    MigrateEntryRoundTrip(MigrateEntry(entry));
  }

  /** An old book entry with a title, a cover and a numeric creation date migrates to a
      product with that title and cover, price 0 and a null creation date. */
  lemma BookEntryExample()
    ensures var p := MigrateEntry(JObj([Member("id", JNum(3.0)), Member("title", JStr("T")),
                                         Member("cover_url", JStr("/c.jpg")),
                                         Member(CreatedAtKey, JNum(5.0))]));
      && p.name == "T" && p.image == "/c.jpg" && p.price == 0.0 && p.id == NumId(3)
      && Attr(p, CreatedAtKey) == Some(JNull) && Attr(p, TagsKey).None?
  {
    var m0, m1, m2, m3 := Member("id", JNum(3.0)), Member("title", JStr("T")),
                          Member("cover_url", JStr("/c.jpg")), Member(CreatedAtKey, JNum(5.0));
    var ms := [m0, m1, m2, m3];
    var e := JObj(ms);
    LookupAt(ms, "id", 0);
    LookupAt(ms, "title", 1);
    LookupAt(ms, "cover_url", 2);
    LookupAt(ms, CreatedAtKey, 3);
    LookupAbsent(ms, "name");
    LookupAbsent(ms, "image");
    LookupAbsent(ms, ThumbnailKey);
    LookupAbsent(ms, "price");
    LookupAbsent(ms, TagsKey);
    assert IsWhole(3.0) && (3.0).Floor == 3;
  }
}

=== FILE: identity.dfy ===
/** Product identity in both stores: an id arrives as a number or as text, and two ids
    are the same product iff `String(a) === String(b)` (src/store/cart.ts:53,
    src/store/favorites.ts:43). */
module Identity {
  import opened Wrappers
  import opened Text
  import opened Js

  /** What an `id` field holds. `Other` is any other JavaScript value met in an `id` field
      of an old persisted blob (undefined, null, a boolean, an object, a fractional
      number), kept as found. */
  datatype IdRaw = Num(n: int) | Str(s: string) | Other(raw: Option<Json>)

  /** `String(raw)` */
  function KeyText(r: IdRaw): string {
    match r
    case Num(n) => IntText(n)
    case Str(s) => s
    case Other(raw) => if raw.None? then "undefined" else JsString(raw.value)
  }

  /** A catalog id together with `String(id)`, the text both stores compare ids by. Ids are
      made by `NumId`, `StrId` and `OtherId`, which compute that text once. */
  datatype Id = Id(raw: IdRaw, key: string)

  function NumId(n: int): (id: Id)
    ensures WellKeyed(id)
  {
    Id(Num(n), IntText(n))
  }

  function StrId(s: string): (id: Id)
    ensures WellKeyed(id)
  {
    Id(Str(s), s)
  }

  function OtherId(raw: Option<Json>): (id: Id)
    ensures WellKeyed(id)
  {
    Id(Other(raw), KeyText(Other(raw)))
  }

  /** The id's text is `String` of what it holds. */
  predicate WellKeyed(id: Id) {
    id.key == KeyText(id.raw)
  }

  /** `String(id)` */
  function Key(id: Id): string {
    id.key
  }

  /** `sameId(a, b)` */
  predicate SameId(a: Id, b: Id) {
    Key(a) == Key(b)
  }

  /** The id of a migrated entry: `id: old.id`, read back as a catalog id. */
  function IdOf(v: Option<Json>): (id: Id)
    ensures WellKeyed(id)
    ensures v.Some? && v.value.JStr? ==> id == StrId(v.value.s)
    ensures v.Some? && v.value.JNum? && IsWhole(v.value.x) ==> id == NumId(v.value.x.Floor)
    ensures v.None? ==> Key(id) == "undefined"
    ensures v.Some? ==> Key(id) == JsString(v.value)
  {
    match v
    case None => OtherId(None)
    case Some(j) =>
      if j.JStr? then StrId(j.s)
      else if j.JNum? && IsWhole(j.x) then NumId(j.x.Floor)
      else OtherId(v)
  }

  /** The value an id is written as: `id` is absent from the written entry when undefined. */
  function IdValue(id: Id): Option<Json> {
    match id.raw
    case Num(n) => Some(JNum(n as real))
    case Str(s) => Some(JStr(s))
    case Other(raw) => raw
  }

  /** An id as `IdOf` produces it: its text is right, and `Other` holds only values that are
      neither text nor whole. */
  predicate Canonical(id: Id) {
    && WellKeyed(id)
    && (id.raw.Other? ==>
          !(id.raw.raw.Some? && (id.raw.raw.value.JStr? || (id.raw.raw.value.JNum? && IsWhole(id.raw.raw.value.x)))))
  }

  /** Writing an id and reading it back gives the same id. */
  lemma IdRoundTrip(id: Id)
    requires Canonical(id)
    ensures IdOf(IdValue(id)) == id
  {
  }

  /** Reading an id and writing it back gives the same value, and what is read is canonical:
      `IdOf` is a one-to-one correspondence between field values and canonical ids. */
  lemma IdOfRoundTrip(v: Option<Json>)
    ensures IdValue(IdOf(v)) == v
    ensures Canonical(IdOf(v))
  {
    if v.Some? && v.value.JNum? && IsWhole(v.value.x) {
      assert v.value.x.Floor as real == v.value.x;
    }
  }

  /** Two numeric ids are the same product exactly when they are equal. */
  lemma SameNumIff(a: int, b: int)
    ensures SameId(NumId(a), NumId(b)) <==> a == b
  {
    if SameId(NumId(a), NumId(b)) {
      IntTextInjective(a, b);
    }
  }

  /** `sameId` is an equivalence: comparing the texts of the ids is reflexive, symmetric
      and transitive, so "the same product" partitions the ids. */
  lemma SameIdEquivalence(a: Id, b: Id, c: Id)
    ensures SameId(a, a)
    ensures SameId(a, b) ==> SameId(b, a)
    ensures SameId(a, b) && SameId(b, c) ==> SameId(a, c)
  {
  }

  /** A numeric id and a text id name the same product exactly when the text is the
      number's decimal form. */
  lemma SameNumStr(n: int, s: string)
    ensures SameId(NumId(n), StrId(s)) <==> s == IntText(n)
  {
  }

  /** 7 and "7" are the same product; "07" is not. */
  lemma SevenIsSeven()
    ensures SameId(NumId(7), StrId("7"))
    ensures !SameId(NumId(7), StrId("07"))
  {
    assert IntText(7) == "7";
  }
}

=== FILE: js.dfy ===
/** JSON values as the storefront's JavaScript receives them (persisted store blobs,
    request bodies, database rows), and the JavaScript coercions applied to them:
    truthiness, `String(v)` and `Number(v)`.

    JSON has no NaN or Infinity, so every `JNum` is finite: `Number.isFinite(v)` of a
    JSON value is exactly `v.JNum?`. A field that is absent reads as `None`
    (JavaScript's `undefined`). */
module Js {
  import opened Wrappers
  import opened Text

  datatype Json =
    | JNull
    | JBool(b: bool)
    | JNum(x: real)
    | JStr(s: string)
    | JArr(elems: seq<Json>)
    | JObj(members: seq<Member>)

  /** One property of an object, in the object's property order. */
  datatype Member = Member(key: string, value: Json)

  /** The value stored under `k`, or None when the object has no such property. */
  function Lookup(ms: seq<Member>, k: string): Option<Json> {
    if |ms| == 0 then None
    else if ms[0].key == k then Some(ms[0].value)
    else Lookup(ms[1..], k)
  }

  /** The first member with the key is the one found. */
  lemma {:induction false} LookupAt(ms: seq<Member>, k: string, i: nat)
    requires i < |ms| && ms[i].key == k
    requires forall j :: 0 <= j < i ==> ms[j].key != k
    ensures Lookup(ms, k) == Some(ms[i].value)
  {
    if i > 0 {
      LookupAt(ms[1..], k, i - 1);
    }
  }

  /** A key no member carries is not found. */
  lemma {:induction false} LookupAbsent(ms: seq<Member>, k: string)
    requires forall j :: 0 <= j < |ms| ==> ms[j].key != k
    ensures Lookup(ms, k).None?
  {
    if |ms| > 0 {
      LookupAbsent(ms[1..], k);
    }
  }

  /** An object with one member has no other property. */
  lemma OnlyMember(m: Member)
    ensures forall k :: k != m.key ==> Lookup([m], k).None?
  {
    forall k | k != m.key
      ensures Lookup([m], k).None?
    {
      LookupAbsent([m], k);
    }
  }

  /** A property of an object held as a map: None when it is undefined. */
  function Get(m: map<string, Json>, k: string): Option<Json> {
    if k in m then Some(m[k]) else None
  }

  /** `v.k` for a JSON value: only objects carry the properties this code reads. */
  function Field(v: Json, k: string): Option<Json> {
    if v.JObj? then Lookup(v.members, k) else None
  }

  /** JavaScript truthiness. */
  predicate Truthy(v: Json) {
    match v
    case JNull => false
    case JBool(b) => b
    case JNum(x) => x != 0.0
    case JStr(s) => s != ""
    case JArr(_) => true
    case JObj(_) => true
  }

  /** Truthiness of a possibly absent value (`undefined` is falsy). */
  predicate Present(v: Option<Json>) {
    v.Some? && Truthy(v.value)
  }

  /** `v == null`: undefined or null. */
  predicate Nullish(v: Option<Json>) {
    v.None? || v.value.JNull?
  }

  /** The string inside `v` when `typeof v === "string"` and it is non-empty:
      the test `typeof v === "string" && v` the migrations use. */
  predicate NonEmptyText(v: Option<Json>) {
    v.Some? && v.value.JStr? && v.value.s != ""
  }

  /** `v?.trim()`: None when `v` is some non-string other than null or undefined, whose
      missing `trim` method throws a TypeError; otherwise the trimmed text, or None inside
      for null and undefined. */
  function TrimmedText(v: Option<Json>): (r: Option<Option<string>>)
    ensures r.None? <==> !Nullish(v) && !v.value.JStr?
    ensures r == Some(None) <==> Nullish(v)
    ensures r.Some? && r.value.Some? ==> v.Some? && v.value.JStr? && r.value.value == Trim(v.value.s)
  {
    if Nullish(v) then Some(None)
    else if v.value.JStr? then Some(Some(Trim(v.value.s)))
    else None
  }

  /** `!v?.trim()` for a value that is nullish or text: missing, or only whitespace. */
  predicate BlankText(v: Option<Json>) {
    Nullish(v) || (v.value.JStr? && Trim(v.value.s) == "")
  }

  // ---------------------------------------------------------------- String(v)

  /** Digits after the decimal point of a fraction in [0, 1), at most `fuel` of them. */
  function FractionDigits(f: real, fuel: nat): string
    requires 0.0 <= f < 1.0
    decreases fuel
  {
    if fuel == 0 || f == 0.0 then ""
    else
      var t := f * 10.0;
      var d := t.Floor;
      [DigitChar(d)] + FractionDigits(t - d as real, fuel - 1)
  }

  predicate IsWhole(x: real) {
    x == x.Floor as real
  }

  /** `String(x)` for a JSON number: integers print as integers, other values as their
      decimal expansion (up to 20 fractional digits; exponent notation is not modelled). */
  function NumberText(x: real): string {
    if IsWhole(x) then IntText(x.Floor)
    else
      var m := if x < 0.0 then -x else x;
      var text := NatText(m.Floor) + "." + FractionDigits(m - m.Floor as real, 20);
      if x < 0.0 then "-" + text else text
  }

  /** `String(v)`. Arrays print as their elements joined by ",", with null elements empty. */
  function JsString(v: Json): string {
    match v
    case JNull => "null"
    case JBool(b) => if b then "true" else "false"
    case JNum(x) => NumberText(x)
    case JStr(s) => s
    case JArr(elems) => Join(",", seq(|elems|, i requires 0 <= i < |elems| =>
                                   if elems[i].JNull? then "" else JsString(elems[i])))
    case JObj(_) => "[object Object]"
  }

  /** `parts.join(sep)` */
  function Join(sep: string, parts: seq<string>): string {
    if |parts| == 0 then ""
    else if |parts| == 1 then parts[0]
    else parts[0] + sep + Join(sep, parts[1..])
  }

  // ---------------------------------------------------------------- Number(v)

  /** A JavaScript number met by the validators: finite, or NaN. */
  datatype JsNumber = Fin(x: real) | NaN

  function Negate(n: JsNumber): JsNumber {
    match n
    case Fin(x) => Fin(-x)
    case NaN => NaN
  }

  /** The length of the run of decimal digits that starts `t`. */
  function LeadingDigits(t: string): (k: nat)
    ensures k <= |t| && AllDigits(t[..k])
    ensures k < |t| ==> !IsDigit(t[k])
  {
    if |t| == 0 || !IsDigit(t[0]) then 0
    else
      var k := 1 + LeadingDigits(t[1..]);
      assert t[..k] == [t[0]] + t[1..][..k - 1];
      k
  }

  function Pow10(n: nat): (p: nat)
    ensures p >= 1
  {
    if n == 0 then 1 else 10 * Pow10(n - 1)
  }

  /** An unsigned decimal numeral: digits, optionally a point and more digits, with at
      least one digit in all ("5", "5.", ".5", "5.25"). */
  function ParseUnsigned(t: string): JsNumber {
    var k := LeadingDigits(t);
    if k == |t| then
      (if k > 0 then Fin(DigitsValue(t) as real) else NaN)
    else if t[k] != '.' then NaN
    else
      var frac := t[k + 1..];
      if AllDigits(frac) && (k > 0 || |frac| > 0) then
        Fin(DigitsValue(t[..k]) as real + DigitsValue(frac) as real / Pow10(|frac|) as real)
      else NaN
  }

  /** `Number(t)` for an already trimmed string: the empty string is 0, a signed decimal
      numeral is its value, anything else is NaN. */
  function ParseNumber(t: string): JsNumber {
    if t == "" then Fin(0.0)
    else if t[0] == '-' then Negate(ParseUnsigned(t[1..]))
    else if t[0] == '+' then ParseUnsigned(t[1..])
    else ParseUnsigned(t)
  }

  /** `Number(v)`: null is 0, booleans are 0/1, strings are parsed after trimming, an array
      goes through its string form, any other object is NaN. */
  function ToNumber(v: Json): JsNumber {
    match v
    case JNull => Fin(0.0)
    case JBool(b) => Fin(if b then 1.0 else 0.0)
    case JNum(x) => Fin(x)
    case JStr(s) => ParseNumber(Trim(s))
    case JArr(_) => ParseNumber(Trim(JsString(v)))
    case JObj(_) => NaN
  }

  /** `Number(v)` of a possibly absent value: undefined is NaN. */
  function NumberOf(v: Option<Json>): (n: JsNumber)
    ensures v.None? ==> n.NaN?
  {
    if v.None? then NaN else ToNumber(v.value)
  }

  /** `Number(v) || 0`: NaN and 0 both become 0. */
  function NumberOrZero(v: Json): real {
    match ToNumber(v)
    case Fin(x) => x
    case NaN => 0.0
  }

  /** How a number is written into a JSON payload: NaN serialises as null. */
  function NumberJson(n: JsNumber): Json {
    match n
    case Fin(x) => JNum(x)
    case NaN => JNull
  }

  /** The text of an integer reads back as that integer. */
  lemma IntTextNumber(n: int)
    ensures ToNumber(JStr(IntText(n))) == Fin(n as real)
  {
    var t := IntText(n);
    assert !IsSpace(t[0]);
    assert forall i :: 0 <= i < |t| ==> !IsSpace(t[i]);
    TrimKeepsPrefix(t, |t|);
    assert Trim(t) == t;
    var m: nat := if n < 0 then -n else n;
    NatTextRoundTrip(m);
    var d := NatText(m);
    assert LeadingDigits(d) == |d|;
    if n < 0 {
      assert t[1..] == d;
    }
  }
}

=== FILE: keyed.dfy ===
/** Sequences of entries looked up by product identity: the `find`, `some` and
    `filter(!sameId)` idioms both stores are built from. */
module Keyed {
  import opened Identity

  /** `s.some(x => sameId(idOf(x), id))` */
  predicate Has<T>(s: seq<T>, idOf: T -> Id, id: Id) {
    exists i :: 0 <= i < |s| && SameId(idOf(s[i]), id)
  }

  /** No two entries are the same product. */
  predicate DistinctIds<T>(s: seq<T>, idOf: T -> Id) {
    forall i, j :: 0 <= i < j < |s| ==> !SameId(idOf(s[i]), idOf(s[j]))
  }

  /** The entries that are not product `id`, in their order. */
  function Filter<T>(s: seq<T>, idOf: T -> Id, id: Id): seq<T> {
    if |s| == 0 then []
    else (if SameId(idOf(s[0]), id) then [] else [s[0]]) + Filter(s[1..], idOf, id)
  }

  /** `s.filter(x => !sameId(idOf(x), id))` */
  function Without<T(==,!new)>(s: seq<T>, idOf: T -> Id, id: Id): (r: seq<T>)
    ensures |r| <= |s|
    ensures forall x :: x in r <==> x in s && !SameId(idOf(x), id)
    ensures !Has(r, idOf, id)
    ensures !Has(s, idOf, id) ==> r == s
    ensures Has(s, idOf, id) ==> |r| < |s|
    ensures DistinctIds(s, idOf) ==> DistinctIds(r, idOf)
  {
    FilterMembers(s, idOf, id);
    FilterDistinct(s, idOf, id);
    Filter(s, idOf, id)
  }

  /** Filtering looks at the first entry, then filters the rest. */
  lemma WithoutFirst<T(!new)>(s: seq<T>, idOf: T -> Id, id: Id)
    requires |s| > 0
    ensures Without(s, idOf, id) == (if SameId(idOf(s[0]), id) then [] else [s[0]]) + Without(s[1..], idOf, id)
  {
    FilterFirst(s, idOf, id);
  }

  /** Filtering looks at the first entry, then filters the rest. */
  lemma FilterFirst<T>(s: seq<T>, idOf: T -> Id, id: Id)
    requires |s| > 0
    ensures Filter(s, idOf, id) == (if SameId(idOf(s[0]), id) then [] else [s[0]]) + Filter(s[1..], idOf, id)
  {
  }

  /** Filtering drops entries and nothing else: it keeps every other product's entries, and
      is shorter exactly when product `id` was present. */
  lemma {:induction false} FilterMembers<T(!new)>(s: seq<T>, idOf: T -> Id, id: Id)
    ensures var r := Filter(s, idOf, id);
      && |r| <= |s|
      && (forall x :: x in r <==> x in s && !SameId(idOf(x), id))
      && (Has(s, idOf, id) ==> |r| < |s|)
      && (!Has(s, idOf, id) ==> r == s)
  {
    if |s| > 0 {
      FilterMembers(s[1..], idOf, id);
      FilterFirst(s, idOf, id);
      assert s == [s[0]] + s[1..];
    }
  }

  /** Filtering keeps the entries distinct. */
  lemma {:induction false} FilterDistinct<T(!new)>(s: seq<T>, idOf: T -> Id, id: Id)
    ensures DistinctIds(s, idOf) ==> DistinctIds(Filter(s, idOf, id), idOf)
  {
    if |s| > 0 && DistinctIds(s, idOf) {
      var rest := Filter(s[1..], idOf, id);
      assert DistinctIds(s[1..], idOf);
      FilterDistinct(s[1..], idOf, id);
      FilterFirst(s, idOf, id);
      if !SameId(idOf(s[0]), id) {
        FilterMembers(s[1..], idOf, id);
        forall j | 0 <= j < |rest| ensures !SameId(idOf(s[0]), idOf(rest[j])) {
          assert rest[j] in s[1..];
          var k :| 0 <= k < |s[1..]| && s[1..][k] == rest[j];
          assert s[k + 1] == rest[j];
        }
        ConsDistinct(s[0], rest, idOf);
      }
    }
  }

  /** Filtering distributes over concatenation. */
  lemma {:induction false} FilterConcat<T>(a: seq<T>, b: seq<T>, idOf: T -> Id, id: Id)
    ensures Filter(a + b, idOf, id) == Filter(a, idOf, id) + Filter(b, idOf, id)
  {
    if |a| > 0 {
      assert (a + b)[0] == a[0] && (a + b)[1..] == a[1..] + b;
      FilterConcat(a[1..], b, idOf, id);
    } else {
      assert a + b == b;
    }
  }

  /** Putting an entry in front of distinct entries that are all other products keeps them
      distinct. */
  lemma ConsDistinct<T>(x: T, rest: seq<T>, idOf: T -> Id)
    requires DistinctIds(rest, idOf)
    requires forall k :: 0 <= k < |rest| ==> !SameId(idOf(x), idOf(rest[k]))
    ensures DistinctIds([x] + rest, idOf)
  {
    var r := [x] + rest;
    forall i, j | 0 <= i < j < |r| ensures !SameId(idOf(r[i]), idOf(r[j])) {
      assert r[j] == rest[j - 1];
      if i > 0 {
        assert r[i] == rest[i - 1];
      }
    }
  }

  /** Filtering distributes over concatenation: the kept entries stay in their order. */
  lemma WithoutConcat<T(!new)>(a: seq<T>, b: seq<T>, idOf: T -> Id, id: Id)
    ensures Without(a + b, idOf, id) == Without(a, idOf, id) + Without(b, idOf, id)
  {
    FilterConcat(a, b, idOf, id);
  }

  /** An entry can be found by any id that is the same product as its own. */
  lemma HasBySameId<T>(s: seq<T>, idOf: T -> Id, a: Id, b: Id)
    requires SameId(a, b)
    ensures Has(s, idOf, a) <==> Has(s, idOf, b)
  {
  }

  /** Filtering one product out does not change whether another one is present. */
  lemma HasWithoutOther<T(!new)>(s: seq<T>, idOf: T -> Id, id: Id, other: Id)
    requires !SameId(id, other)
    ensures Has(Without(s, idOf, id), idOf, other) <==> Has(s, idOf, other)
  {
    var r := Without(s, idOf, id);
    if Has(s, idOf, other) {
      var i :| 0 <= i < |s| && SameId(idOf(s[i]), other);
      assert s[i] in r;
      var k :| 0 <= k < |r| && r[k] == s[i];
      assert SameId(idOf(r[k]), other);
    }
    if Has(r, idOf, other) {
      var k :| 0 <= k < |r| && SameId(idOf(r[k]), other);
      assert r[k] in s;
      var i :| 0 <= i < |s| && s[i] == r[k];
      assert SameId(idOf(s[i]), other);
    }
  }

  /** Appending an entry makes its product present and leaves the others as they were. */
  lemma HasAppend<T>(s: seq<T>, x: T, idOf: T -> Id, id: Id)
    ensures Has(s + [x], idOf, id) <==> Has(s, idOf, id) || SameId(idOf(x), id)
  {
    var r := s + [x];
    assert r[|s|] == x;
    if Has(s, idOf, id) {
      var i :| 0 <= i < |s| && SameId(idOf(s[i]), id);
      assert r[i] == s[i];
    }
  }
}

=== FILE: legacy.dfy ===
/** Reading entries of old persisted blobs: the ordered fallbacks and the property
    copies shared by both stores' `migrate` (src/store/cart.ts:155-198,
    src/store/favorites.ts:88-128), and the writing of entries back into a blob. */
module Legacy {
  import opened Wrappers
  import opened Js
  import opened Identity
  import opened Catalog

  /** `(typeof v === "string" && v) || fallback`: one link of the migrations' fallback chains. */
  function TextOr(v: Option<Json>, fallback: string): (r: string)
    ensures NonEmptyText(v) ==> r == v.value.s
    ensures !NonEmptyText(v) ==> r == fallback
    ensures r != "" <==> NonEmptyText(v) || fallback != ""
  {
    if NonEmptyText(v) then v.value.s else fallback
  }

  /** `typeof v === "number" ? v : 0` */
  function NumberOr0(v: Option<Json>): (x: real)
    ensures v.Some? && v.value.JNum? ==> x == v.value.x
    ensures !(v.Some? && v.value.JNum?) ==> x == 0.0
  {
    if v.Some? && v.value.JNum? then v.value.x else 0.0
  }

  /** `typeof v === "string" ? v : undefined` */
  function TextOrNone(v: Option<Json>): (r: Option<string>)
    ensures r.Some? <==> v.Some? && v.value.JStr?
    ensures r.Some? ==> v.value == JStr(r.value)
  {
    if v.Some? && v.value.JStr? then Some(v.value.s) else None
  }

  /** `typeof v === "number" ? v : undefined` */
  function NumberOrNone(v: Option<Json>): (r: Option<real>)
    ensures r.Some? <==> v.Some? && v.value.JNum?
    ensures r.Some? ==> v.value == JNum(r.value)
  {
    if v.Some? && v.value.JNum? then Some(v.value.x) else None
  }

  /** The properties `{ k: old.k, ... }` for the given keys; an undefined one is not written. */
  function CopyPresent(entry: Json, keys: seq<string>): (r: map<string, Json>)
    ensures forall k :: k in r <==> k in keys && Field(entry, k).Some?
    ensures forall k :: k in r ==> r[k] == Field(entry, k).value
  {
    if |keys| == 0 then map[]
    else
      var rest := CopyPresent(entry, keys[1..]);
      match Field(entry, keys[0])
      case Some(v) => rest[keys[0] := v]
      case None => rest
  }

  /** `name`, falling back to `title`, then to the store's placeholder. */
  function ReadName(entry: Json, placeholder: string): (name: string)
    ensures placeholder != "" ==> name != ""
    ensures NonEmptyText(Field(entry, "name")) ==> name == Field(entry, "name").value.s
    ensures (!NonEmptyText(Field(entry, "name")) && NonEmptyText(Field(entry, "title"))) ==>
            name == Field(entry, "title").value.s
    ensures (!NonEmptyText(Field(entry, "name")) && !NonEmptyText(Field(entry, "title"))) ==>
            name == placeholder
  {
    TextOr(Field(entry, "name"), TextOr(Field(entry, "title"), placeholder))
  }

  /** `image`, falling back to `thumbnail_url`, then `cover_url`, then the placeholder. */
  function ReadImage(entry: Json): (image: string)
    ensures image != ""
    ensures NonEmptyText(Field(entry, "image")) ==> image == Field(entry, "image").value.s
    ensures (!NonEmptyText(Field(entry, "image")) && NonEmptyText(Field(entry, "thumbnail_url"))) ==>
            image == Field(entry, "thumbnail_url").value.s
    ensures (!NonEmptyText(Field(entry, "image")) && !NonEmptyText(Field(entry, "thumbnail_url")) &&
             NonEmptyText(Field(entry, "cover_url"))) ==> image == Field(entry, "cover_url").value.s
    ensures (!NonEmptyText(Field(entry, "image")) && !NonEmptyText(Field(entry, "thumbnail_url")) &&
             !NonEmptyText(Field(entry, "cover_url"))) ==> image == LegacyPlaceholderImage
  {
    TextOr(Field(entry, "image"),
      TextOr(Field(entry, "thumbnail_url"), TextOr(Field(entry, "cover_url"), LegacyPlaceholderImage)))
  }

  /** The product fields both migrations read alike: `id` as found, the name and image
      chains, a numeric price (else 0), a text slug and a numeric rating (else undefined). */
  function ReadProduct(entry: Json, namePlaceholder: string, attrs: map<string, Json>): (p: Product)
    ensures namePlaceholder != "" ==> p.name != ""
    ensures p.image != "" && p.attrs == attrs
    ensures Canonical(p.id)
    ensures !(Field(entry, "price").Some? && Field(entry, "price").value.JNum?) ==> p.price == 0.0
    ensures p.slug.Some? <==> Field(entry, "slug").Some? && Field(entry, "slug").value.JStr?
    ensures p.rating.Some? <==> Field(entry, "rating").Some? && Field(entry, "rating").value.JNum?
  {
    IdOfRoundTrip(Field(entry, "id"));
    Product(
      IdOf(Field(entry, "id")),
      ReadName(entry, namePlaceholder),
      NumberOr0(Field(entry, "price")),
      ReadImage(entry),
      TextOrNone(Field(entry, "slug")),
      NumberOrNone(Field(entry, "rating")),
      attrs)
  }

  // ---------------------------------------------------------------- writing

  /** The members for the given keys of `attrs`, in key order. */
  function AttrMembers(attrs: map<string, Json>, keys: seq<string>): (ms: seq<Member>)
    ensures forall k :: Lookup(ms, k) == if k in keys && k in attrs then Some(attrs[k]) else None
  {
    if |keys| == 0 then []
    else
      var rest := AttrMembers(attrs, keys[1..]);
      if keys[0] in attrs then
        var ms := [Member(keys[0], attrs[keys[0]])] + rest;
        assert forall k :: k != keys[0] ==> Lookup(ms, k) == Lookup(rest, k) by {
          assert ms[1..] == rest;
        }
        ms
      else rest
  }

  /** A property that is written only when defined. */
  function OptMember(k: string, v: Option<Json>): (ms: seq<Member>)
    ensures forall k' :: Lookup(ms, k') == if k' == k then v else None
  {
    match v
    case Some(j) => [Member(k, j)]
    case None => []
  }

  function OptText(v: Option<string>): Option<Json> {
    match v
    case Some(s) => Some(JStr(s))
    case None => None
  }

  function OptNumber(v: Option<real>): Option<Json> {
    match v
    case Some(x) => Some(JNum(x))
    case None => None
  }

  /** The typed properties of a product. */
  const TypedKeys: seq<string> := ["id", "name", "price", "image", "slug", "rating"]

  /** The typed properties of a product as JSON.stringify writes them (undefined ones are
      left out). */
  function Head(p: Product): seq<Member> {
    OptMember("id", IdValue(p.id))
    + OptMember("name", Some(JStr(p.name))) + OptMember("price", Some(JNum(p.price)))
    + OptMember("image", Some(JStr(p.image)))
    + OptMember("slug", OptText(p.slug)) + OptMember("rating", OptNumber(p.rating))
  }

  /** What a written product holds under each typed property name. */
  function HeadField(p: Product, k: string): Option<Json> {
    if k == "id" then IdValue(p.id)
    else if k == "name" then Some(JStr(p.name))
    else if k == "price" then Some(JNum(p.price))
    else if k == "image" then Some(JStr(p.image))
    else if k == "slug" then OptText(p.slug)
    else if k == "rating" then OptNumber(p.rating)
    else None
  }

  /** A stored entry: the typed properties, the untyped ones listed in `keys`, then `tail`
      (the store's own extra properties). */
  function EntryMembers(p: Product, keys: seq<string>, tail: seq<Member>): seq<Member> {
    Head(p) + AttrMembers(p.attrs, keys) + tail
  }

  /** The untyped keys and the tail do not reuse a typed property name, and the tail does
      not reuse an untyped one: every property is written once. */
  predicate Layout(keys: seq<string>, tail: seq<Member>) {
    && (forall k :: k in keys ==> k !in TypedKeys && Lookup(tail, k).None?)
    && (forall k :: k in TypedKeys ==> Lookup(tail, k).None?)
  }

  /** A product a migration restores exactly: a canonical id, a name, an image, and no
      untyped property beyond `keys`. */
  predicate Writable(p: Product, keys: seq<string>) {
    && Canonical(p.id) && p.name != "" && p.image != ""
    && forall k :: k in p.attrs ==> k in keys
  }

  /** Looking a key up in two member lists laid end to end. */
  lemma {:induction false} LookupConcat(a: seq<Member>, b: seq<Member>, k: string)
    ensures Lookup(a + b, k) == if Lookup(a, k).Some? then Lookup(a, k) else Lookup(b, k)
  {
    if |a| > 0 {
      assert (a + b)[1..] == a[1..] + b;
      LookupConcat(a[1..], b, k);
    } else {
      assert a + b == b;
    }
  }

  /** Copying back keys that were all written restores the attributes under those keys. */
  lemma CopyAttrMembers(attrs: map<string, Json>, keys: seq<string>, sub: seq<string>,
                        prefix: seq<Member>, suffix: seq<Member>)
    requires forall k :: k in keys ==> Lookup(prefix, k).None? && Lookup(suffix, k).None?
    requires forall k :: k in sub ==> k in keys
    ensures CopyPresent(JObj(prefix + AttrMembers(attrs, keys) + suffix), sub) ==
            map k | k in attrs && k in sub :: attrs[k]
  {
    var ms := prefix + AttrMembers(attrs, keys) + suffix;
    var r := CopyPresent(JObj(ms), sub);
    var m := map k | k in attrs && k in sub :: attrs[k];
    forall k | k in sub
      ensures Field(JObj(ms), k) == if k in attrs then Some(attrs[k]) else None
    {
      LookupAttrs(attrs, keys, prefix, suffix, k);
    }
    assert r.Keys == m.Keys;
    forall k | k in r ensures r[k] == m[k] {
    }
  }

  lemma LookupAttrs(attrs: map<string, Json>, keys: seq<string>, prefix: seq<Member>, suffix: seq<Member>, k: string)
    requires k in keys && Lookup(prefix, k).None? && Lookup(suffix, k).None?
    ensures Lookup(prefix + AttrMembers(attrs, keys) + suffix, k) == if k in attrs then Some(attrs[k]) else None
  {
    var mid := AttrMembers(attrs, keys);
    LookupConcat(prefix + mid, suffix, k);
    LookupConcat(prefix, mid, k);
  }

  lemma HeadLookup(p: Product, k: string)
    ensures Lookup(Head(p), k) == HeadField(p, k)
  {
    var a := OptMember("id", IdValue(p.id));
    var b := OptMember("name", Some(JStr(p.name)));
    var c := OptMember("price", Some(JNum(p.price)));
    var d := OptMember("image", Some(JStr(p.image)));
    var e := OptMember("slug", OptText(p.slug));
    var f := OptMember("rating", OptNumber(p.rating));
    LookupConcat(a + b + c + d + e, f, k);
    LookupConcat(a + b + c + d, e, k);
    LookupConcat(a + b + c, d, k);
    LookupConcat(a + b, c, k);
    LookupConcat(a, b, k);
  }

  /** Reading a property of a stored entry: typed properties first, then the listed
      untyped ones, then the tail. */
  lemma EntryField(p: Product, keys: seq<string>, tail: seq<Member>, k: string)
    ensures Lookup(EntryMembers(p, keys, tail), k) ==
            if HeadField(p, k).Some? then HeadField(p, k)
            else if k in keys && k in p.attrs then Some(p.attrs[k])
            else Lookup(tail, k)
  {
    var head := Head(p);
    var mid := AttrMembers(p.attrs, keys);
    HeadLookup(p, k);
    LookupConcat(head + mid, tail, k);
    LookupConcat(head, mid, k);
  }

  /** The typed properties of a stored entry read back as written. */
  lemma ReadTyped(p: Product, keys: seq<string>, tail: seq<Member>)
    requires Layout(keys, tail)
    ensures var j := JObj(EntryMembers(p, keys, tail));
      && Field(j, "id") == IdValue(p.id)
      && Field(j, "name") == Some(JStr(p.name))
      && Field(j, "price") == Some(JNum(p.price))
      && Field(j, "image") == Some(JStr(p.image))
      && Field(j, "slug") == OptText(p.slug)
      && Field(j, "rating") == OptNumber(p.rating)
  {
    EntryField(p, keys, tail, "id");
    EntryField(p, keys, tail, "name");
    EntryField(p, keys, tail, "price");
    EntryField(p, keys, tail, "image");
    EntryField(p, keys, tail, "slug");
    EntryField(p, keys, tail, "rating");
  }

  /** Reading a stored product back restores it. */
  lemma ReadProductRoundTrip(p: Product, keys: seq<string>, tail: seq<Member>, namePlaceholder: string)
    requires Layout(keys, tail) && Writable(p, keys)
    ensures ReadProduct(JObj(EntryMembers(p, keys, tail)), namePlaceholder, p.attrs) == p
  {
    var j := JObj(EntryMembers(p, keys, tail));
    ReadTyped(p, keys, tail);
    IdRoundTrip(p.id);
    assert ReadName(j, namePlaceholder) == p.name;
    assert ReadImage(j) == p.image;
  }

  /** Copying listed untyped properties back from a stored entry restores them. */
  lemma ReadCopied(p: Product, keys: seq<string>, sub: seq<string>, tail: seq<Member>)
    requires Layout(keys, tail)
    requires forall k :: k in sub ==> k in keys
    ensures CopyPresent(JObj(EntryMembers(p, keys, tail)), sub) ==
            map k | k in p.attrs && k in sub :: p.attrs[k]
  {
    forall k | k in keys
      ensures Lookup(Head(p), k).None? && Lookup(tail, k).None?
    {
      HeadLookup(p, k);
    }
    CopyAttrMembers(p.attrs, keys, sub, Head(p), tail);
  }
}

=== FILE: orders.dfy ===
/** The per-order summary of the orders page (src/app/orders/page.tsx): the normalisation of
    the stored `items` column, whatever shape it was saved in, the item count shown for an
    order, and the status label. */
module Orders {
  import opened Wrappers
  import opened Js

  // ---------------------------------------------------------------- normalizeItems

  /** `Array.prototype.flat()` with depth 1: array values are spread, others kept. */
  function Flat(vals: seq<Json>): seq<Json> {
    if |vals| == 0 then []
    else (if vals[0].JArr? then vals[0].elems else [vals[0]]) + Flat(vals[1..])
  }

  /** `v && typeof v === 'object'`: an array or an object (null is falsy). */
  predicate IsObjectLike(v: Json) {
    v.JArr? || v.JObj?
  }

  /** `Object.values(o)`, in the object's property order. */
  function Values(ms: seq<Member>): (vs: seq<Json>)
    ensures |vs| == |ms|
    ensures forall i :: 0 <= i < |ms| ==> vs[i] == ms[i].value
  {
    seq(|ms|, i requires 0 <= i < |ms| => ms[i].value)
  }

  /** The order's items column in any of its stored shapes, as a list of items. */
  function NormalizeItems(items: Json): (r: seq<Json>)
    ensures items.JArr? ==> r == items.elems
    ensures items.JObj? && Field(items, "items").Some? && Field(items, "items").value.JArr? ==>
              r == Field(items, "items").value.elems
    ensures !items.JArr? && !items.JObj? ==> r == []
  {
    match items
    case JArr(elems) => elems
    case JObj(ms) =>
      var inner := Field(items, "items");
      if inner.Some? && inner.value.JArr? then inner.value.elems
      else
        var vals := Values(ms);
        if forall i :: 0 <= i < |vals| ==> IsObjectLike(vals[i]) then Flat(vals) else []
    case _ => []
  }

  // ---------------------------------------------------------------- item count

  /** `typeof i?.quantity === 'number' ? i.quantity : 1` */
  function Quantity(item: Json): (q: real)
    ensures HasQuantity(item) ==> q == Field(item, "quantity").value.x
    ensures !HasQuantity(item) ==> q == 1.0
  {
    match Field(item, "quantity")
    case Some(JNum(x)) => x
    case _ => 1.0
  }

  /** Whether the item states its own quantity. */
  predicate HasQuantity(item: Json) {
    var f := Field(item, "quantity");
    f.Some? && f.value.JNum?
  }

  /** The running sum of `reduce`, over the items in order. */
  function ItemCount(items: seq<Json>): real {
    if |items| == 0 then 0.0 else ItemCount(items[..|items| - 1]) + Quantity(items[|items| - 1])
  }

  /** `items.reduce((sum, i) => sum + quantityOf(i), 0)`, the loop the page runs. */
  method CountItems(items: seq<Json>) returns (qty: real)
    ensures qty == ItemCount(items)
  {
    qty := 0.0;
    var k := 0;
    while k < |items|
      invariant 0 <= k <= |items|
      invariant qty == ItemCount(items[..k])
    {
      assert items[..k + 1][..k] == items[..k];
      qty := qty + Quantity(items[k]);
      k := k + 1;
    }
    assert items[..k] == items;
  }

  /** The count of a list is the count of its parts. */
  lemma {:induction false} ItemCountConcat(a: seq<Json>, b: seq<Json>)
    ensures ItemCount(a + b) == ItemCount(a) + ItemCount(b)
  {
    if |b| > 0 {
      var ab := a + b;
      assert ab[..|ab| - 1] == a + b[..|b| - 1];
      assert ab[|ab| - 1] == b[|b| - 1];
      ItemCountConcat(a, b[..|b| - 1]);
    } else {
      assert a + b == a;
    }
  }

  /** Items without a numeric quantity count one each: with none stated, the count is the
      number of items. */
  lemma {:induction false} DefaultQuantityCountsItems(items: seq<Json>)
    requires forall i :: 0 <= i < |items| ==> !HasQuantity(items[i])
    ensures ItemCount(items) == |items| as real
  {
    if |items| > 0 {
      DefaultQuantityCountsItems(items[..|items| - 1]);
    }
  }

  /** With no negative quantity the count is never negative, and it is at least the number
      of items when every stated quantity is at least one. */
  lemma {:induction false} ItemCountBounds(items: seq<Json>)
    ensures (forall i :: 0 <= i < |items| ==> Quantity(items[i]) >= 0.0) ==> ItemCount(items) >= 0.0
    ensures (forall i :: 0 <= i < |items| ==> Quantity(items[i]) >= 1.0) ==>
              ItemCount(items) >= |items| as real
  {
    if |items| > 0 {
      ItemCountBounds(items[..|items| - 1]);
    }
  }

  // ---------------------------------------------------------------- flattening

  /** An element of `flat()` is an element of an array value, or a value that is not an
      array itself; and every such element is kept. */
  lemma {:induction false} FlatMembers(vals: seq<Json>, x: Json)
    ensures x in Flat(vals) <==>
              exists i :: 0 <= i < |vals| && ((vals[i].JArr? && x in vals[i].elems) || (!vals[i].JArr? && x == vals[i]))
  {
    if |vals| > 0 {
      FlatMembers(vals[1..], x);
      var head := if vals[0].JArr? then vals[0].elems else [vals[0]];
      assert Flat(vals) == head + Flat(vals[1..]);
      if x in Flat(vals[1..]) {
        var i :| 0 <= i < |vals[1..]| && ((vals[1..][i].JArr? && x in vals[1..][i].elems) || (!vals[1..][i].JArr? && x == vals[1..][i]));
        assert vals[i + 1] == vals[1..][i];
      }
      if exists i :: 0 <= i < |vals| && ((vals[i].JArr? && x in vals[i].elems) || (!vals[i].JArr? && x == vals[i])) {
        var i :| 0 <= i < |vals| && ((vals[i].JArr? && x in vals[i].elems) || (!vals[i].JArr? && x == vals[i]));
        if i > 0 {
          assert vals[1..][i - 1] == vals[i];
        }
      }
    }
  }

  /** Flattening works value by value: the flattening of two runs of values is the
      flattening of the first followed by that of the second. */
  lemma {:induction false} FlatConcat(a: seq<Json>, b: seq<Json>)
    ensures Flat(a + b) == Flat(a) + Flat(b)
  {
    if |a| > 0 {
      assert (a + b)[0] == a[0];
      assert (a + b)[1..] == a[1..] + b;
      FlatConcat(a[1..], b);
    } else {
      assert a + b == b;
    }
  }

  /** The item count of a flattened object is the sum of its groups' counts. */
  lemma {:induction false} FlatItemCount(vals: seq<Json>)
    requires forall i :: 0 <= i < |vals| ==> vals[i].JArr?
    ensures ItemCount(Flat(vals)) == GroupsCount(vals)
  {
    if |vals| > 0 {
      FlatItemCount(vals[1..]);
      assert Flat(vals) == vals[0].elems + Flat(vals[1..]);
      ItemCountConcat(vals[0].elems, Flat(vals[1..]));
    }
  }

  /** The sum of the counts of groups of items. */
  function GroupsCount(groups: seq<Json>): real
    requires forall i :: 0 <= i < |groups| ==> groups[i].JArr?
  {
    if |groups| == 0 then 0.0 else ItemCount(groups[0].elems) + GroupsCount(groups[1..])
  }

  /** The shapes the page understands, told apart: an array is taken as it is, an object's
      `items` array wins over its other properties, an object of groups is flattened, and
      anything else has no items. */
  lemma NormalizeItemsShapes(items: Json)
    ensures items.JObj? && !(Field(items, "items").Some? && Field(items, "items").value.JArr?) ==>
              (forall i :: 0 <= i < |items.members| ==> IsObjectLike(items.members[i].value)) ==>
                NormalizeItems(items) == Flat(Values(items.members))
    ensures items.JObj? && !(Field(items, "items").Some? && Field(items, "items").value.JArr?) ==>
              (exists i :: 0 <= i < |items.members| && !IsObjectLike(items.members[i].value)) ==>
                NormalizeItems(items) == []
  {
  }

  /** An object keeping its groups under named keys is read as all of its groups' items, in
      property order, so the count shown is the sum of the groups' counts. */
  lemma GroupedOrderCount(groups: seq<Member>)
    requires forall i :: 0 <= i < |groups| ==> groups[i].value.JArr?
    requires forall i :: 0 <= i < |groups| ==> groups[i].key != "items"
    ensures NormalizeItems(JObj(groups)) == Flat(Values(groups))
    ensures ItemCount(NormalizeItems(JObj(groups))) == GroupsCount(Values(groups))
  {
    LookupAbsent(groups, "items");
    FlatItemCount(Values(groups));
  }

  // ---------------------------------------------------------------- renderStatus

  const Pending := "بانتظار المعالجة"
  const Preparing := "قيد التحضير"
  const Delivered := "تم التوصيل"

  /** `renderStatus(status)`; `None` is a null or missing status. */
  function RenderStatus(status: Option<string>): (shown: string)
    ensures shown != []
    ensures status == Some(Pending) ==> shown == "⏳ " + Pending
    ensures status == Some(Preparing) ==> shown == "🔄 " + Preparing
    ensures status == Some(Delivered) ==> shown == "🎉 " + Delivered
  {
    match status
    case Some(s) =>
      if s == Pending then "⏳ " + Pending
      else if s == Preparing then "🔄 " + Preparing
      else if s == Delivered then "🎉 " + Delivered
      else if s == "" then "—"
      else s
    case None => "—"
  }

  /** A label ends with the status it shows: a known status gains only an emoji prefix, any
      other non-empty status is shown as it is, and a missing or empty one shows a dash. */
  lemma StatusShown(status: Option<string>)
    ensures status.Some? && status.value != "" ==>
              var shown := RenderStatus(status);
              |shown| >= |status.value| && shown[|shown| - |status.value|..] == status.value
    ensures status.Some? && status.value !in {Pending, Preparing, Delivered} ==>
              RenderStatus(status) == if status.value == "" then "—" else status.value
    ensures status.None? ==> RenderStatus(status) == "—"
  {
  }
}

=== FILE: pagination.dfy ===
/** The pager of src/components/Pagination.tsx as the sequence of controls it renders:
    the previous button, the window of page numbers around the current page with the
    shortcuts to the first and last page, and the next button. */
module Pagination {
  import opened Wrappers

  /** How many page numbers are listed on each side of the current page. */
  const PagesToShow := 3

  /** One rendered control. `disabled` and `target` are the button's `disabled` state and
      the page its click asks for; `current` is the highlight of the current page. */
  datatype Control =
    | Previous(disabled: bool, target: int)
    | PageButton(number: int, current: bool)
    | Gap                                      // the "…" between a shortcut and the window
    | PageLabel(page: int)                     // "صفحة N" when the page count is unknown
    | Next(disabled: bool, target: int)

  /** `totalPages ? ... : ...`: the count is known when it is given and not zero. */
  predicate Known(totalPages: Option<int>) {
    totalPages.Some? && totalPages.value != 0
  }

  /** `Math.max(1, page - pagesToShow)` */
  function Start(page: int): (s: int)
    ensures s >= 1 && s >= page - PagesToShow
    ensures s == 1 || s == page - PagesToShow
  {
    if page - PagesToShow > 1 then page - PagesToShow else 1
  }

  /** `totalPages ? Math.min(totalPages, page + pagesToShow) : page + pagesToShow` */
  function End(page: int, totalPages: Option<int>): (e: int)
    ensures e <= page + PagesToShow
    ensures Known(totalPages) ==> e <= totalPages.value
    ensures Known(totalPages) ==> e == totalPages.value || e == page + PagesToShow
    ensures !Known(totalPages) ==> e == page + PagesToShow
  {
    if Known(totalPages) && totalPages.value < page + PagesToShow then totalPages.value
    else page + PagesToShow
  }

  /** `Array.from({ length: end - start + 1 }, (_, i) => start + i)`: a negative length
      gives the empty array. */
  function Range(start: int, end: int): (r: seq<int>)
    ensures |r| == if end < start then 0 else end - start + 1
    ensures forall i :: 0 <= i < |r| ==> r[i] == start + i
  {
    if end < start then [] else seq(end - start + 1, i => start + i)
  }

  /** The button for page `p`, highlighted when it is the current page. */
  function Button(page: int, p: int): Control {
    PageButton(p, page == p)
  }

  /** The shortcut to the first page and its gap (lines 29-41). */
  function Head(page: int): (cs: seq<Control>) {
    var start := Start(page);
    if start > 1 then [Button(page, 1)] + (if start > 2 then [Gap] else []) else []
  }

  /** The buttons of the window (lines 42-52). */
  function Window(page: int, totalPages: Option<int>): (cs: seq<Control>)
    ensures |cs| == |Range(Start(page), End(page, totalPages))|
    ensures forall i :: 0 <= i < |cs| ==> cs[i] == Button(page, Start(page) + i)
  {
    var r := Range(Start(page), End(page, totalPages));
    seq(|r|, i requires 0 <= i < |r| => Button(page, r[i]))
  }

  /** The gap and the shortcut to the last page (lines 53-65). */
  function Tail(page: int, total: int): (cs: seq<Control>) {
    var end := End(page, Some(total));
    if end < total then (if end < total - 1 then [Gap] else []) + [Button(page, total)] else []
  }

  /** Everything between the two arrows (lines 27-69). */
  function Middle(page: int, totalPages: Option<int>): seq<Control> {
    if Known(totalPages) then
      Head(page) + Window(page, totalPages) + Tail(page, totalPages.value)
    else [PageLabel(page)]
  }

  /** The whole pager. */
  function Render(page: int, hasNext: bool, totalPages: Option<int>): (cs: seq<Control>)
    ensures |cs| >= 2
    ensures cs[0] == Previous(page <= 1, page - 1)
    ensures cs[|cs| - 1] == Next(!hasNext, page + 1)
  {
    [Previous(page <= 1, page - 1)] + Middle(page, totalPages) + [Next(!hasNext, page + 1)]
  }

  /** The page numbers offered as buttons, in rendering order. */
  function Numbers(cs: seq<Control>): seq<int> {
    if |cs| == 0 then []
    else if cs[0].PageButton? then [cs[0].number] + Numbers(cs[1..])
    else Numbers(cs[1..])
  }

  predicate Increasing(ns: seq<int>) {
    forall i, j :: 0 <= i < j < |ns| ==> ns[i] < ns[j]
  }

  // ---------------------------------------------------------------- properties

  lemma {:induction false} NumbersConcat(a: seq<Control>, b: seq<Control>)
    ensures Numbers(a + b) == Numbers(a) + Numbers(b)
  {
    if |a| == 0 {
      assert a + b == b;
    } else {
      assert (a + b)[0] == a[0];
      assert (a + b)[1..] == a[1..] + b;
      NumbersConcat(a[1..], b);
      if a[0].PageButton? {
        assert Numbers(a + b) == [a[0].number] + (Numbers(a[1..]) + Numbers(b));
      } else {
        assert Numbers(a + b) == Numbers(a[1..]) + Numbers(b);
      }
    }
  }

  /** A run of page buttons offers exactly their numbers, in order. */
  lemma {:induction false} ButtonsNumbers(cs: seq<Control>)
    requires forall i :: 0 <= i < |cs| ==> cs[i].PageButton?
    ensures |Numbers(cs)| == |cs|
    ensures forall i :: 0 <= i < |cs| ==> Numbers(cs)[i] == cs[i].number
  {
    if |cs| > 0 {
      ButtonsNumbers(cs[1..]);
    }
  }

  /** The buttons of the window are exactly the pages from `start` to `end`. */
  lemma WindowNumbers(page: int, totalPages: Option<int>)
    ensures Numbers(Window(page, totalPages)) == Range(Start(page), End(page, totalPages))
  {
    ButtonsNumbers(Window(page, totalPages));
  }

  /** With the page count known, no page past the last one is listed; the window never
      lists more than 7 pages, and always lists the current page when it is in range. */
  lemma WindowBounds(page: int, totalPages: Option<int>)
    ensures var r := Range(Start(page), End(page, totalPages));
      && |r| <= 2 * PagesToShow + 1
      && (forall i :: 0 <= i < |r| ==> 1 <= r[i])
      && (Known(totalPages) ==> forall i :: 0 <= i < |r| ==> r[i] <= totalPages.value)
      && (Known(totalPages) && 1 <= page <= totalPages.value ==> page in r)
  {
    var r := Range(Start(page), End(page, totalPages));
    if Known(totalPages) && 1 <= page <= totalPages.value {
      assert r[page - Start(page)] == page;
    }
  }

  /** The first-page shortcut is shown exactly when the window starts after page 1, and its
      gap exactly when it starts after page 2. */
  lemma HeadShown(page: int)
    ensures |Head(page)| > 0 <==> Start(page) > 1
    ensures Gap in Head(page) <==> Start(page) > 2
    ensures Start(page) > 1 ==> Head(page)[0] == PageButton(1, page == 1)
  {
  }

  /** The last-page shortcut is shown exactly when the window ends before the last page, and
      its gap exactly when it ends before the page preceding it. */
  lemma TailShown(page: int, total: int)
    ensures |Tail(page, total)| > 0 <==> End(page, Some(total)) < total
    ensures Gap in Tail(page, total) <==> End(page, Some(total)) < total - 1
    ensures End(page, Some(total)) < total ==>
              Tail(page, total)[|Tail(page, total)| - 1] == PageButton(total, page == total)
  {
  }

  lemma NumbersOne(c: Control)
    ensures Numbers([c]) == if c.PageButton? then [c.number] else []
  {
    assert [c][1..] == [];
  }

  /** Without a page count only the label is shown between the arrows: no page numbers. */
  lemma UnknownTotalOnlyLabel(page: int, hasNext: bool, totalPages: Option<int>)
    requires !Known(totalPages)
    ensures Render(page, hasNext, totalPages) ==
              [Previous(page <= 1, page - 1), PageLabel(page), Next(!hasNext, page + 1)]
    ensures Numbers(Render(page, hasNext, totalPages)) == []
  {
    var p, l, n := Previous(page <= 1, page - 1), PageLabel(page), Next(!hasNext, page + 1);
    NumbersConcat([p] + [l], [n]);
    NumbersConcat([p], [l]);
    NumbersOne(p);
    NumbersOne(l);
    NumbersOne(n);
  }

  /** With a known count the pager offers the first page when the window starts after it,
      then the window, then the last page when the window ends before it. */
  lemma {:induction false} KnownNumbers(page: int, hasNext: bool, totalPages: Option<int>)
    requires Known(totalPages)
    ensures Numbers(Render(page, hasNext, totalPages)) ==
              (if Start(page) > 1 then [1] else [])
              + Range(Start(page), End(page, totalPages))
              + (if End(page, totalPages) < totalPages.value then [totalPages.value] else [])
  {
    var total := totalPages.value;
    var start := Start(page);
    var end := End(page, totalPages);
    var head := Head(page);
    var window := Window(page, totalPages);
    var tail := Tail(page, total);
    var first := Previous(page <= 1, page - 1);
    var last := Next(!hasNext, page + 1);
    assert Render(page, hasNext, totalPages) == [first] + (head + window + tail) + [last];
    NumbersConcat([first], head + window + tail);
    NumbersConcat([first] + (head + window + tail), [last]);
    NumbersConcat(head + window, tail);
    NumbersConcat(head, window);
    NumbersOne(first);
    NumbersOne(last);
    WindowNumbers(page, totalPages);
    if start > 1 {
      var gap := if start > 2 then [Gap] else [];
      NumbersConcat([Button(page, 1)], gap);
      NumbersOne(Button(page, 1));
      if start > 2 { NumbersOne(Gap); }
    }
    if end < total {
      var gap := if end < total - 1 then [Gap] else [];
      NumbersConcat(gap, [Button(page, total)]);
      NumbersOne(Button(page, total));
      if end < total - 1 { NumbersOne(Gap); }
    }
  }

  /** With a known count the offered pages run strictly upwards, so no page is offered
      twice. */
  lemma NumbersIncreasing(page: int, hasNext: bool, totalPages: Option<int>)
    requires Known(totalPages)
    ensures Increasing(Numbers(Render(page, hasNext, totalPages)))
  {
    var total := totalPages.value;
    var start := Start(page);
    var end := End(page, totalPages);
    KnownNumbers(page, hasNext, totalPages);
    var h := if start > 1 then [1] else [];
    var w := Range(start, end);
    var t := if end < total then [total] else [];
    var ns := h + w + t;
    forall i, j | 0 <= i < j < |ns| ensures ns[i] < ns[j] {
      if i < |h| {
        if j < |h| + |w| {
          assert ns[j] == w[j - |h|];
        }
      } else if i < |h| + |w| {
        assert ns[i] == w[i - |h|];
        if j < |h| + |w| {
          assert ns[j] == w[j - |h|];
        }
      }
    }
  }

  /** With a known count every page offered is a real page, and the current page is offered
      whenever it is one. */
  lemma NumbersInRange(page: int, hasNext: bool, total: int)
    requires total > 0
    ensures forall n :: n in Numbers(Render(page, hasNext, Some(total))) ==> 1 <= n <= total
    ensures 1 <= page <= total ==> page in Numbers(Render(page, hasNext, Some(total)))
  {
    KnownNumbers(page, hasNext, Some(total));
    WindowBounds(page, Some(total));
    var start, end := Start(page), End(page, Some(total));
    var h := if start > 1 then [1] else [];
    var w := Range(start, end);
    var t := if end < total then [total] else [];
    var ns := h + w + t;
    assert Numbers(Render(page, hasNext, Some(total))) == ns;
    forall n | n in ns ensures 1 <= n <= total {
      if n in w {
        var i :| 0 <= i < |w| && w[i] == n;
      }
    }
    if 1 <= page <= total {
      assert page in w;
    }
  }

  /** Every page button of `cs` is highlighted exactly when it is the current page's. */
  predicate HighlightsCurrent(page: int, cs: seq<Control>) {
    forall k :: 0 <= k < |cs| && cs[k].PageButton? ==> (cs[k].current <==> cs[k].number == page)
  }

  lemma HighlightsConcat(page: int, a: seq<Control>, b: seq<Control>)
    requires HighlightsCurrent(page, a) && HighlightsCurrent(page, b)
    ensures HighlightsCurrent(page, a + b)
  {
    forall k | 0 <= k < |a + b| && (a + b)[k].PageButton?
      ensures ((a + b)[k].current <==> (a + b)[k].number == page)
    {
      if k >= |a| {
        assert (a + b)[k] == b[k - |a|];
      }
    }
  }

  /** A page button is highlighted exactly when it is the current page's. */
  lemma CurrentHighlighted(page: int, hasNext: bool, totalPages: Option<int>)
    ensures HighlightsCurrent(page, Render(page, hasNext, totalPages))
  {
    var first := [Previous(page <= 1, page - 1)];
    var last := [Next(!hasNext, page + 1)];
    var middle := Middle(page, totalPages);
    if Known(totalPages) {
      var head, window, tail := Head(page), Window(page, totalPages), Tail(page, totalPages.value);
      HighlightsConcat(page, head, window);
      HighlightsConcat(page, head + window, tail);
    }
    HighlightsConcat(page, first, middle);
    HighlightsConcat(page, first + middle, last);
  }
}

=== FILE: persistence.dfy ===
/** Persistence of both stores as explicit load and save steps over a key-value storage:
    `localStorage` in the browser, or the do-nothing storage used when there is no window
    (src/store/cart.ts:56-68, 150-153, 199; src/store/favorites.ts:46-58, 84-86, 130).

    A stored value is the envelope `{ state, version }` holding the `partialize`d slice.
    The program calls `migrate` only for a blob stored under an older version, so what the
    store wrote itself reloads as saved. Here loading always passes the stored state through
    `migrate`, which gives back exactly what was saved for a cart of storable lines and a
    list of storable favorites (`CartMigrate.Storable`, `FavoritesMigrate.Storable`,
    `MigrateRoundTrip`). */
module Persistence {
  import opened Wrappers
  import opened Js
  import opened Catalog
  import opened CartStore
  import CartMigrate
  import FavoritesMigrate

  /** `localStorage`, or the fallback whose reads find nothing and whose writes are dropped. */
  datatype Storage = Local(entries: map<string, Json>) | NoOp

  const CartKey := "cart-storage"
  const CartVersion := 4
  const FavoritesKey := "favorites-storage"
  const FavoritesVersion := 2

  function GetItem(s: Storage, name: string): (r: Option<Json>)
    ensures s.NoOp? ==> r.None?
  {
    match s
    case Local(entries) => Get(entries, name)
    case NoOp => None
  }

  function SetItem(s: Storage, name: string, v: Json): (r: Storage)
    ensures GetItem(r, name) == if s.NoOp? then None else Some(v)
    ensures forall other :: other != name ==> GetItem(r, other) == GetItem(s, other)
  {
    match s
    case Local(entries) => Local(entries[name := v])
    case NoOp => NoOp
  }

  /** `{ state, version }` as the persist middleware writes it. */
  function Envelope(state: Json, version: int): (e: Json)
    ensures Field(e, "state") == Some(state)
    ensures Field(e, "version") == Some(JNum(version as real))
  {
    var ms := [Member("state", state), Member("version", JNum(version as real))];
    assert ms[0].key != "version" by {
      assert ms[0].key[0] != "version"[0];
    }
    assert ms[1..] == [ms[1]];
    assert Lookup(ms, "version") == Lookup(ms[1..], "version");
    JObj(ms)
  }

  // ---------------------------------------------------------------- cart

  /** Saving the cart after a change: only `items` is written. */
  function SaveCart(s: Storage, items: seq<Line>): (r: Storage)
    ensures GetItem(r, CartKey) == if s.NoOp? then None else Some(Envelope(CartMigrate.Snapshot(items), CartVersion))
    ensures forall other :: other != CartKey ==> GetItem(r, other) == GetItem(s, other)
  {
    SetItem(s, CartKey, Envelope(CartMigrate.Snapshot(items), CartVersion))
  }

  /** Loading the cart: nothing stored, or a `migrate` that throws, leaves the initial empty
      cart. */
  function LoadCart(s: Storage): (items: seq<Line>)
    ensures AllDisplayable(items) && CartMigrate.AtLeastOne(items) && Positive(items)
    ensures GetItem(s, CartKey).None? ==> items == []
  {
    match GetItem(s, CartKey)
    case None => []
    case Some(env) =>
      match CartMigrate.Migrate(Field(env, "state"))
      case None => []
      case Some(items) => items
  }

  // ---------------------------------------------------------------- favorites

  /** Saving the favorites after a change: only `favorites` is written. */
  function SaveFavorites(s: Storage, favs: seq<Product>): (r: Storage)
    ensures GetItem(r, FavoritesKey) ==
            if s.NoOp? then None else Some(Envelope(FavoritesMigrate.Snapshot(favs), FavoritesVersion))
    ensures forall other :: other != FavoritesKey ==> GetItem(r, other) == GetItem(s, other)
  {
    SetItem(s, FavoritesKey, Envelope(FavoritesMigrate.Snapshot(favs), FavoritesVersion))
  }

  function LoadFavorites(s: Storage): (favs: seq<Product>)
    ensures forall i :: 0 <= i < |favs| ==>
              favs[i].name != "" && favs[i].image != "" && FavoritesMigrate.Shaped(favs[i].attrs)
    ensures GetItem(s, FavoritesKey).None? ==> favs == []
  {
    match GetItem(s, FavoritesKey)
    case None => []
    case Some(env) =>
      match FavoritesMigrate.Migrate(Field(env, "state"))
      case None => []
      case Some(favs) => favs
  }

  // ---------------------------------------------------------------- properties

  lemma EnvelopeState(state: Json, version: int)
    ensures Field(Envelope(state, version), "state") == Some(state)
  {
  }

  /** A saved cart loads back as it was. */
  lemma CartSaveLoad(entries: map<string, Json>, items: seq<Line>)
    requires forall i :: 0 <= i < |items| ==> CartMigrate.Storable(items[i])
    ensures LoadCart(SaveCart(Local(entries), items)) == items
  {
    EnvelopeState(CartMigrate.Snapshot(items), CartVersion);
    CartMigrate.MigrateRoundTrip(items);
  }

  /** Saved favorites load back as they were. */
  lemma FavoritesSaveLoad(entries: map<string, Json>, favs: seq<Product>)
    requires forall i :: 0 <= i < |favs| ==> FavoritesMigrate.Storable(favs[i])
    ensures LoadFavorites(SaveFavorites(Local(entries), favs)) == favs
  {
    EnvelopeState(FavoritesMigrate.Snapshot(favs), FavoritesVersion);
    FavoritesMigrate.MigrateRoundTrip(favs);
  }

  /** Without a window nothing is kept: both stores always load empty. */
  lemma NoOpForgets(items: seq<Line>, favs: seq<Product>)
    ensures LoadCart(SaveCart(NoOp, items)) == []
    ensures LoadFavorites(SaveFavorites(NoOp, favs)) == []
  {
  }

  /** The two stores live under different keys: saving one never changes what the other
      loads. */
  lemma StoresIndependent(s: Storage, items: seq<Line>, favs: seq<Product>)
    ensures LoadCart(SaveFavorites(s, favs)) == LoadCart(s)
    ensures LoadFavorites(SaveCart(s, items)) == LoadFavorites(s)
  {
    assert CartKey != FavoritesKey;
  }

  /** A stored cart whose state has no `items` array loads as the empty cart. */
  lemma NoItemsLoadsEmpty(entries: map<string, Json>, state: Json)
    requires !(Field(state, "items").Some? && Field(state, "items").value.JArr?)
    ensures LoadCart(Local(entries[CartKey := Envelope(state, 3)])) == []
  {
    EnvelopeState(state, 3);
  }
}

=== FILE: product_add.dfy ===
/** The request handling of the product-creation route that does not touch the database
    (src/app/api/products/add/route.ts:47-163): the slug default, `validateProductData`,
    `toId` and the payload built for insertion. */
module ProductAdd {
  import opened Wrappers
  import opened Text
  import opened Js
  import opened Slug
  import opened Validation

  /** The problems `validateProductData` reports, in the order it checks for them. */
  datatype Problem =
    | TitleRequired | BadPrice | BadImage | BadRating | CategoryRequired
    | BadDiscount | BadStock | DeviceIdTooLong

  function Rank(p: Problem): nat {
    match p
    case TitleRequired => 0
    case BadPrice => 1
    case BadImage => 2
    case BadRating => 3
    case CategoryRequired => 4
    case BadDiscount => 5
    case BadStock => 6
    case DeviceIdTooLong => 7
  }

  function Message(p: Problem): string {
    match p
    case TitleRequired => "الاسم/العنوان مطلوب"
    case BadPrice => "السعر غير صالح"
    case BadImage => "رابط الصورة يجب أن يبدأ بـ http/https"
    case BadRating => "التقييم يجب أن يكون بين 0 و 5"
    case CategoryRequired => "التصنيف مطلوب"
    case BadDiscount => "نسبة الخصم يجب أن تكون بين 0 و 90"
    case BadStock => "المخزون لا يمكن أن يكون سالبًا"
    case DeviceIdTooLong => "هوية الجهاز device_id طويلة جدًا"
  }

  /** The 400 response's message: `errors.join(' | ')`. */
  function ErrorMessage(errs: seq<Problem>): string {
    Join(" | ", seq(|errs|, i requires 0 <= i < |errs| => Message(errs[i])))
  }

  const MaxDeviceIdLength := 64
  const MaxDiscount := 90.0

  /** Each problem at most once, in the order of the checks. */
  predicate InCheckOrder(errs: seq<Problem>) {
    Ranked(errs, Rank)
  }

  /** The properties of the request body the route reads (`Partial<AddProductBody>`). */
  datatype AddBody = AddBody(
    title: Option<Json>,
    price: Option<Json>,
    slug: Option<Json>,
    image: Option<Json>,
    rating: Option<Json>,
    category: Option<Json>,
    brand: Option<Json>,
    description: Option<Json>,
    isNew: Option<Json>,
    isTrending: Option<Json>,
    discount: Option<Json>,
    stock: Option<Json>,
    deviceId: Option<Json>,
    primaryColor: Option<Json>,
    similarColor: Option<Json>)

  function ReadBody(body: Json): AddBody {
    AddBody(
      Field(body, "title"), Field(body, "price"), Field(body, "slug"), Field(body, "image_url"),
      Field(body, "rating"), Field(body, "category_id"), Field(body, "brand_id"),
      Field(body, "description"), Field(body, "is_new"), Field(body, "is_trending"),
      Field(body, "discount_percent"), Field(body, "stock"), Field(body, "device_id"),
      Field(body, "primary_color"), Field(body, "similar_color"))
  }

  // ---------------------------------------------------------------- the checks

  /** `price == null || Number.isNaN(Number(price)) || Number(price) < 0` */
  predicate PriceInvalid(v: Option<Json>) {
    Nullish(v) || NumberOf(v).NaN? || NumberOf(v).x < 0.0
  }

  /** `!image_url?.trim() || !/^https?:\/\//i.test(String(image_url))`: the scheme is
      looked for in the untrimmed text. */
  predicate ImageInvalid(v: Option<Json>) {
    Nullish(v) || (v.value.JStr? && (Trim(v.value.s) == "" || !IsHttpUrl(v.value.s)))
  }

  /** `v != null` and `Number(v)` is NaN or outside `[lo, hi]`. */
  predicate OutOfRange(v: Option<Json>, lo: real, hi: real) {
    !Nullish(v) && (NumberOf(v).NaN? || NumberOf(v).x < lo || NumberOf(v).x > hi)
  }

  /** `v != null` and `Number(v)` is NaN or negative. */
  predicate NegativeOrNaN(v: Option<Json>) {
    !Nullish(v) && (NumberOf(v).NaN? || NumberOf(v).x < 0.0)
  }

  /** `category_id == null || category_id === ''` */
  predicate CategoryMissing(v: Option<Json>) {
    Nullish(v) || v.value == JStr("")
  }

  /** `device_id != null && String(device_id).length > 64` */
  predicate DeviceIdLong(v: Option<Json>) {
    !Nullish(v) && |JsString(v.value)| > MaxDeviceIdLength
  }

  /** `title?.trim()` and `image_url?.trim()` throw for a value that is neither nullish nor
      text. */
  predicate ValidationThrows(b: AddBody) {
    TrimmedText(b.title).None? || TrimmedText(b.image).None?
  }

  /** The checks in the order `validateProductData` makes them. */
  const Checks: seq<Problem> :=
    [TitleRequired, BadPrice, BadImage, BadRating, CategoryRequired, BadDiscount, BadStock, DeviceIdTooLong]

  /** The condition under which a check pushes its problem. */
  predicate Fails(b: AddBody, p: Problem) {
    match p
    case TitleRequired => BlankText(b.title)
    case BadPrice => PriceInvalid(b.price)
    case BadImage => ImageInvalid(b.image)
    case BadRating => OutOfRange(b.rating, 0.0, 5.0)
    case CategoryRequired => CategoryMissing(b.category)
    case BadDiscount => OutOfRange(b.discount, 0.0, MaxDiscount)
    case BadStock => NegativeOrNaN(b.stock)
    case DeviceIdTooLong => DeviceIdLong(b.deviceId)
  }

  /** Every check is made, once, in rank order. */
  lemma ChecksInOrder()
    ensures forall q :: q in Checks
    ensures Ranked(Checks, Rank)
  {
    forall q ensures q in Checks {
      assert Checks[Rank(q)] == q;
    }
  }

  /** `validateProductData(body)`. None is the TypeError of a non-text title or image. */
  function Validate(b: AddBody): (r: Option<seq<Problem>>)
    ensures r.None? <==> ValidationThrows(b)
    ensures r.Some? ==> InCheckOrder(r.value) && forall q :: q in r.value <==> Fails(b, q)
  {
    ChecksInOrder();
    Validated(Checks, ValidationThrows(b), p => Fails(b, p), Rank)
  }

  // ---------------------------------------------------------------- normalisation

  /** `if (!body.slug) body.slug = toSlug(body.title || '')`. None is the TypeError of
      trimming a truthy title that is not text. */
  function SlugOrDefault(slug: Option<Json>, title: Option<Json>): (r: Option<Json>)
    ensures Present(slug) ==> r == slug
    ensures !Present(slug) && title.Some? && title.value.JStr? ==> r == Some(JStr(ToSlug(title.value.s)))
    ensures !Present(slug) && !Present(title) ==> r == Some(JStr(""))
    ensures r.None? <==> !Present(slug) && Present(title) && !title.value.JStr?
  {
    if Present(slug) then slug
    else if !Present(title) then Some(JStr(ToSlug("")))
    else if title.value.JStr? then Some(JStr(ToSlug(title.value.s)))
    else None
  }

  /** `toId(v)`: null for null, undefined and '', the number when `Number(v)` is finite,
      else the text of `v`. */
  function ToId(v: Option<Json>): (r: Json)
    ensures r.JNull? <==> CategoryMissing(v)
    ensures r.JNum? <==> !CategoryMissing(v) && NumberOf(v).Fin?
    ensures r.JNum? ==> r.x == NumberOf(v).x
    ensures r.JStr? <==> !CategoryMissing(v) && NumberOf(v).NaN?
    ensures r.JStr? ==> r.s == JsString(v.value)
  {
    if CategoryMissing(v) then JNull
    else match NumberOf(v)
      case Fin(x) => JNum(x)
      case NaN => JStr(JsString(v.value))
  }

  /** `v?.trim() || null`. None is the TypeError of a value that is not text. */
  function OptionalText(v: Option<Json>): (r: Option<Option<string>>)
    ensures r.None? <==> TrimmedText(v).None?
    ensures r.Some? && r.value.Some? ==> r.value.value != "" && Trim(r.value.value) == r.value.value
    ensures r.Some? && r.value.Some? ==> v.Some? && v.value.JStr? && r.value.value == Trim(v.value.s)
    ensures r == Some(None) <==> Nullish(v) || (v.value.JStr? && AllSpace(v.value.s))
  {
    if Nullish(v) then Some(None)
    else if !v.value.JStr? then None
    else
      var t := Trim(v.value.s);
      TrimIdempotent(v.value.s);
      if t == "" then Some(None) else Some(Some(t))
  }

  function Floor(x: real): real {
    x.Floor as real
  }

  /** `discount == null ? 0 : Math.max(0, Math.min(90, Math.floor(Number(discount))))` */
  function DiscountPercent(v: Option<Json>): (d: JsNumber)
    ensures Nullish(v) ==> d == Fin(0.0)
    ensures d.NaN? <==> !Nullish(v) && NumberOf(v).NaN?
    ensures d.Fin? ==> 0.0 <= d.x <= MaxDiscount && IsWhole(d.x)
    ensures !Nullish(v) && NumberOf(v).Fin? && 0.0 <= NumberOf(v).x <= MaxDiscount ==>
              d == Fin(Floor(NumberOf(v).x))
  {
    if Nullish(v) then Fin(0.0)
    else match NumberOf(v)
      case NaN => NaN
      case Fin(x) =>
        var m := if Floor(x) < MaxDiscount then Floor(x) else MaxDiscount;
        Fin(if m < 0.0 then 0.0 else m)
  }

  /** `stock == null ? 0 : Math.max(0, Math.floor(Number(stock)))` */
  function Stock(v: Option<Json>): (s: JsNumber)
    ensures Nullish(v) ==> s == Fin(0.0)
    ensures s.NaN? <==> !Nullish(v) && NumberOf(v).NaN?
    ensures s.Fin? ==> 0.0 <= s.x && IsWhole(s.x)
    ensures !Nullish(v) && NumberOf(v).Fin? && 0.0 <= NumberOf(v).x ==> s == Fin(Floor(NumberOf(v).x))
  {
    if Nullish(v) then Fin(0.0)
    else match NumberOf(v)
      case NaN => NaN
      case Fin(x) => Fin(if Floor(x) < 0.0 then 0.0 else Floor(x))
  }

  /** The row handed to the insert. Numbers are what `Number(...)` gave; a NaN would be
      written as null. */
  datatype Payload = Payload(
    title: string,
    price: JsNumber,
    slug: string,
    imageUrl: string,
    rating: Option<JsNumber>,
    categoryId: Json,
    brandId: Json,
    description: Option<string>,
    isNew: bool,
    isTrending: bool,
    discountPercent: JsNumber,
    stock: JsNumber,
    deviceId: Option<string>,
    primaryColor: Option<string>,
    similarColor: Option<string>)

  /** The payload of a body, its slug already defaulted. None is the TypeError of trimming a
      value that is not text. */
  function BuildPayload(b: AddBody, slug: Json): (r: Option<Payload>)
    ensures r.Some? ==>
      && b.title.Some? && b.title.value.JStr?
      && r.value.title == Trim(b.title.value.s)
      && b.image.Some? && b.image.value.JStr?
      && r.value.imageUrl == Trim(b.image.value.s)
      && slug.JStr? && r.value.slug == Trim(slug.s)
      && r.value.price == NumberOf(b.price)
      && r.value.rating == (if Nullish(b.rating) then None else Some(NumberOf(b.rating)))
      && r.value.categoryId == ToId(b.category)
      && r.value.brandId == ToId(b.brand)
      && r.value.isNew == Present(b.isNew)
      && r.value.isTrending == Present(b.isTrending)
      && r.value.discountPercent == DiscountPercent(b.discount)
      && r.value.stock == Stock(b.stock)
      && Some(r.value.description) == OptionalText(b.description)
      && Some(r.value.deviceId) == OptionalText(b.deviceId)
      && Some(r.value.primaryColor) == OptionalText(b.primaryColor)
      && Some(r.value.similarColor) == OptionalText(b.similarColor)
    ensures r.None? <==>
      || !(b.title.Some? && b.title.value.JStr?)
      || !(b.image.Some? && b.image.value.JStr?)
      || !slug.JStr?
      || OptionalText(b.description).None?
      || OptionalText(b.deviceId).None?
      || OptionalText(b.primaryColor).None?
      || OptionalText(b.similarColor).None?
  {
    var title := b.title;
    var image := b.image;
    var rating := b.rating;
    var description := OptionalText(b.description);
    var deviceId := OptionalText(b.deviceId);
    var primary := OptionalText(b.primaryColor);
    var similar := OptionalText(b.similarColor);
    if !(title.Some? && title.value.JStr?) || !(image.Some? && image.value.JStr?) || !slug.JStr?
       || description.None? || deviceId.None? || primary.None? || similar.None?
    then None
    else Some(Payload(
      Trim(title.value.s),
      NumberOf(b.price),
      Trim(slug.s),
      Trim(image.value.s),
      if Nullish(rating) then None else Some(NumberOf(rating)),
      ToId(b.category),
      ToId(b.brand),
      description.value,
      Present(b.isNew),
      Present(b.isTrending),
      DiscountPercent(b.discount),
      Stock(b.stock),
      deviceId.value,
      primary.value,
      similar.value))
  }

  /** What the route answers before it reaches the database. */
  datatype Outcome =
    | Malformed                          // a TypeError: 400 "خطأ في صيغة الطلب"
    | Rejected(problems: seq<Problem>)   // 400 with the joined messages
    | Accepted(payload: Payload)         // goes on to the uniqueness checks and the insert

  /** A JSON body that is not an object or an array cannot take the defaulted slug: reading
      a property of null, or setting one on a primitive, throws. */
  predicate Settable(body: Json) {
    body.JObj? || body.JArr?
  }

  /** The part of `POST` between reading the body and the database (lines 119-163): default
      the slug, validate, normalise. */
  function Prepare(body: Json): (r: Outcome)
    ensures r.Rejected? ==> r.problems != [] && Validate(ReadBody(body)) == Some(r.problems)
    ensures r.Accepted? ==> Validate(ReadBody(body)) == Some([])
    ensures var b := ReadBody(body);
      Settable(body) && SlugOrDefault(b.slug, b.title).Some? ==>
        forall errs :: Validate(b) == Some(errs) && errs != [] ==> r == Rejected(errs)
    ensures !Settable(body) || ValidationThrows(ReadBody(body)) ==> r.Malformed?
  {
    var b := ReadBody(body);
    if !Settable(body) then Malformed
    else match SlugOrDefault(b.slug, b.title)
      case None => Malformed
      case Some(slug) =>
        match Validate(b)
        case None => Malformed
        case Some(errs) =>
          if errs != [] then Rejected(errs)
          else match BuildPayload(b, slug)
            case None => Malformed
            case Some(p) => Accepted(p)
  }

  /** What an inserted row is known to satisfy: its texts ... */
  predicate SoundTexts(p: Payload) {
    && p.title != "" && Trim(p.title) == p.title
    && IsHttpUrl(p.imageUrl)
    && Trim(p.slug) == p.slug
    && (p.description.Some? ==> p.description.value != "")
    && (p.deviceId.Some? ==> p.deviceId.value != "" && |p.deviceId.value| <= MaxDeviceIdLength)
  }

  /** ... and its numbers. */
  predicate SoundNumbers(p: Payload) {
    && p.price.Fin? && p.price.x >= 0.0
    && (p.rating.Some? ==> p.rating.value.Fin? && 0.0 <= p.rating.value.x <= 5.0)
    && !p.categoryId.JNull?
    && p.discountPercent.Fin? && 0.0 <= p.discountPercent.x <= MaxDiscount
    && p.stock.Fin? && 0.0 <= p.stock.x
  }

  // ---------------------------------------------------------------- properties

  /** A title and an image that passed their checks stay non-blank and http(s) once trimmed. */
  lemma {:induction false} PassedTitle(b: AddBody, slug: Json, p: Payload)
    requires b.title.Some? && b.title.value.JStr? && p.title == Trim(b.title.value.s)
    requires b.image.Some? && b.image.value.JStr? && p.imageUrl == Trim(b.image.value.s)
    requires slug.JStr? && p.slug == Trim(slug.s)
    requires !Fails(b, TitleRequired) && !Fails(b, BadImage)
    ensures p.title != "" && Trim(p.title) == p.title
    ensures IsHttpUrl(p.imageUrl)
    ensures Trim(p.slug) == p.slug
  {
    TrimIdempotent(b.title.value.s);
    TrimKeepsHttp(b.image.value.s);
    TrimIdempotent(slug.s);
  }

  lemma {:induction false} PassedOptional(b: AddBody, p: Payload)
    requires Some(p.description) == OptionalText(b.description)
    requires Some(p.deviceId) == OptionalText(b.deviceId)
    requires !Fails(b, DeviceIdTooLong)
    ensures p.description.Some? ==> p.description.value != ""
    ensures p.deviceId.Some? ==> p.deviceId.value != "" && |p.deviceId.value| <= MaxDeviceIdLength
  {
    if p.deviceId.Some? {
      assert |JsString(b.deviceId.value)| == |b.deviceId.value.s|;
    }
  }

  /** The payload of a body that passed validation keeps what the checks found. */
  lemma PassedTexts(b: AddBody, slug: Json, p: Payload)
    requires BuildPayload(b, slug) == Some(p)
    requires !Fails(b, TitleRequired) && !Fails(b, BadImage) && !Fails(b, DeviceIdTooLong)
    ensures SoundTexts(p)
  {
    PassedTitle(b, slug, p);
    PassedOptional(b, p);
  }

  /** What the numeric checks leave for the normalised numbers. */
  lemma PassedNumberValues(price: Option<Json>, rating: Option<Json>, category: Option<Json>,
                           discount: Option<Json>, stock: Option<Json>)
    requires !PriceInvalid(price) && !OutOfRange(rating, 0.0, 5.0) && !CategoryMissing(category)
    requires !OutOfRange(discount, 0.0, MaxDiscount) && !NegativeOrNaN(stock)
    ensures NumberOf(price).Fin? && NumberOf(price).x >= 0.0
    ensures !Nullish(rating) ==> NumberOf(rating).Fin? && 0.0 <= NumberOf(rating).x <= 5.0
    ensures !ToId(category).JNull?
    ensures DiscountPercent(discount).Fin? && 0.0 <= DiscountPercent(discount).x <= MaxDiscount
    ensures Stock(stock).Fin? && 0.0 <= Stock(stock).x
  {
  }

  /** The payload's numbers are the body's, normalised. */
  predicate NumbersFrom(b: AddBody, p: Payload) {
    && p.price == NumberOf(b.price)
    && p.rating == (if Nullish(b.rating) then None else Some(NumberOf(b.rating)))
    && p.categoryId == ToId(b.category)
    && p.discountPercent == DiscountPercent(b.discount)
    && p.stock == Stock(b.stock)
  }

  lemma PassedNumbers(b: AddBody, p: Payload)
    requires NumbersFrom(b, p)
    requires !Fails(b, BadPrice) && !Fails(b, BadRating) && !Fails(b, CategoryRequired)
    requires !Fails(b, BadDiscount) && !Fails(b, BadStock)
    ensures SoundNumbers(p)
  {
    PassedNumberValues(b.price, b.rating, b.category, b.discount, b.stock);
  }

  /** Every accepted payload is sound: the checks hold of the normalised values. */
  lemma AcceptedIsSound(body: Json)
    requires Prepare(body).Accepted?
    ensures SoundTexts(Prepare(body).payload) && SoundNumbers(Prepare(body).payload)
  {
    var b := ReadBody(body);
    var slug := SlugOrDefault(b.slug, b.title).value;
    var p := BuildPayload(b, slug).value;
    assert Prepare(body).payload == p;
    assert Validate(b) == Some([]);
    PassedTexts(b, slug, p);
    assert NumbersFrom(b, p);
    PassedNumbers(b, p);
  }

  /** A body without a slug gets the slug of its title, which is a well-formed slug. */
  lemma DefaultSlug(body: Json)
    requires Prepare(body).Accepted? && !Present(ReadBody(body).slug)
    ensures Prepare(body).payload.slug == ToSlug(ReadBody(body).title.value.s)
    ensures IsSlug(Prepare(body).payload.slug)
  {
    var b := ReadBody(body);
    var s := ToSlug(b.title.value.s);
    if s != "" {
      SlugCharNotSpace(s[0]);
      SlugCharNotSpace(s[|s| - 1]);
    }
    TrimFixed(s);
  }

  /** An id sent as the text of an integer is stored as that integer, like the integer
      itself. */
  lemma ToIdOfIntText(n: int)
    ensures ToId(Some(JStr(IntText(n)))) == ToId(Some(JNum(n as real))) == JNum(n as real)
  {
    IntTextNumber(n);
  }

  /** A blank category passes the `category_id === ''` test and `Number("  ")` is 0, so it
      is stored as category 0. */
  lemma BlankCategoryIsZero()
    ensures !CategoryMissing(Some(JStr("  ")))
    ensures ToId(Some(JStr("  "))) == JNum(0.0)
  {
    assert AllSpace("  ");
    assert Trim("  ") == "";
    assert NumberOf(Some(JStr("  "))) == Fin(0.0);
  }

  /** With every field absent, exactly the title, price, image and category checks fail. */
  lemma AbsentFails(b: AddBody, q: Problem)
    requires b.title.None? && b.price.None? && b.image.None? && b.category.None?
    requires b.rating.None? && b.discount.None? && b.stock.None? && b.deviceId.None?
    ensures Fails(b, q) <==> q in [TitleRequired, BadPrice, BadImage, CategoryRequired]
  {
  }

  /** The checks do not stop at the first failure: an empty object is missing its title,
      price, image and category, and exactly these four are reported, in check order. */
  lemma EmptyBodyReportsAll()
    ensures Prepare(JObj([])).Rejected?
    ensures forall q :: q in Prepare(JObj([])).problems <==>
              q in [TitleRequired, BadPrice, BadImage, CategoryRequired]
    ensures InCheckOrder(Prepare(JObj([])).problems)
  {
    var b := ReadBody(JObj([]));
    assert b.title.None? && b.price.None? && b.image.None? && b.category.None?;
    assert b.slug.None? && b.rating.None? && b.discount.None? && b.stock.None? && b.deviceId.None?;
    assert !ValidationThrows(b);
    var errs := Validate(b).value;
    AbsentFails(b, TitleRequired);
    assert TitleRequired in errs;
    assert Settable(JObj([])) && SlugOrDefault(b.slug, b.title).Some?;
    forall q ensures q in errs <==> q in [TitleRequired, BadPrice, BadImage, CategoryRequired] {
      AbsentFails(b, q);
    }
  }
}

=== FILE: product_card.dfy ===
/** The product card's normalisation of a raw catalog row into the product it shows and
    puts in the cart, its discount arithmetic and its price label
    (src/components/ProductCard.tsx:39-95, 147). */
module ProductCard {
  import opened Wrappers
  import opened Text
  import opened Js
  import opened Identity
  import Legacy

  const NoName := "بدون اسم"
  const FallbackImage := "/vercel.svg"
  const FreeLabel := "مجاني"
  const CurrencySuffix := " ر.س"

  /** `isHttp(u)`: truthy, and its text starts with `http://` or `https://` in any case. */
  predicate IsHttp(u: Option<Json>) {
    Present(u) && IsHttpUrl(JsString(u.value))
  }

  /** What `toCartProductCompat` returns. */
  datatype Compat = Compat(
    id: Id,
    slug: Option<Json>,
    name: string,
    price: real,
    rating: Option<JsNumber>,
    image: Json,
    description: Option<string>,
    categories: seq<Json>,
    tags: seq<Json>,
    isNew: bool,
    isTrending: bool,
    discount: JsNumber,
    stock: real)

  // ---------------------------------------------------------------- the fields

  /** The thumbnail if it is an http(s) URL, else the image if it is, else the fallback. */
  function CardImage(thumbnail: Option<Json>, image: Option<Json>): (r: Json)
    ensures IsHttp(thumbnail) ==> r == thumbnail.value
    ensures !IsHttp(thumbnail) && IsHttp(image) ==> r == image.value
    ensures !IsHttp(thumbnail) && !IsHttp(image) ==> r == JStr(FallbackImage)
    ensures IsHttpUrl(JsString(r)) || r == JStr(FallbackImage)
  {
    if IsHttp(thumbnail) then thumbnail.value
    else if IsHttp(image) then image.value
    else JStr(FallbackImage)
  }

  /** `name?.trim() || "بدون اسم"` */
  function CardName(t: Option<string>): (name: string)
    ensures name != "" && Trim(name) == name
    ensures t.Some? && !AllSpace(t.value) ==> name == Trim(t.value)
    ensures t.None? || AllSpace(t.value) ==> name == NoName
  {
    if t.Some? && Trim(t.value) != "" then
      TrimIdempotent(t.value);
      Trim(t.value)
    else
      assert Trim(NoName) == NoName by { TrimmedNoName(); }
      NoName
  }

  lemma TrimmedNoName()
    ensures Trim(NoName) == NoName
  {
    assert !IsSpace(NoName[0]) && !IsSpace(NoName[|NoName| - 1]);
    TrimFixed(NoName);
  }

  /** `description?.trim() || undefined` */
  function CardDescription(t: Option<string>): (d: Option<string>)
    ensures d.Some? ==> d.value != "" && t.Some? && d.value == Trim(t.value)
    ensures d.None? <==> t.None? || AllSpace(t.value)
  {
    if t.Some? && Trim(t.value) != "" then Some(Trim(t.value)) else None
  }

  /** `Math.min(5, Math.max(0, x))`; NaN stays NaN. */
  function ClampRating(n: JsNumber): (r: JsNumber)
    ensures r.NaN? <==> n.NaN?
    ensures r.Fin? ==> 0.0 <= r.x <= 5.0
    ensures n.Fin? && 0.0 <= n.x <= 5.0 ==> r == n
  {
    match n
    case NaN => NaN
    case Fin(x) => Fin(if x < 0.0 then 0.0 else if x > 5.0 then 5.0 else x)
  }

  /** `rating != null ? clamp(Number(rating)) : undefined` */
  function CardRating(v: Option<Json>): (r: Option<JsNumber>)
    ensures r.None? <==> Nullish(v)
    ensures r.Some? && r.value.Fin? ==> 0.0 <= r.value.x <= 5.0
    ensures v.Some? && v.value.JNum? && 0.0 <= v.value.x <= 5.0 ==> r == Some(Fin(v.value.x))
  {
    if Nullish(v) then None else Some(ClampRating(ToNumber(v.value)))
  }

  /** The price as written: `Number.isFinite(price ?? 0) ? price : 0`. A null or undefined
      price passes the test (as 0) but the price itself is returned: the result is the
      JavaScript value, None for undefined. */
  function CardPriceAsWritten(v: Option<Json>): (r: Option<Json>)
    ensures v.Some? && v.value.JNum? ==> r == v
    ensures !Nullish(v) && !v.value.JNum? ==> r == Some(JNum(0.0))
  {
    if Nullish(v) then v
    else if v.value.JNum? then v
    else Some(JNum(0.0))
  }

  /** The price as evidently intended: a finite number, 0 when missing. */
  function CardPrice(v: Option<Json>): (price: real)
    ensures v.Some? && v.value.JNum? ==> price == v.value.x
    ensures !(v.Some? && v.value.JNum?) ==> price == 0.0
  {
    Legacy.NumberOr0(v)
  }

  /** `Array.isArray(v) ? v : []` */
  function ArrayOrEmpty(v: Option<Json>): (r: seq<Json>)
    ensures v.Some? && v.value.JArr? ==> r == v.value.elems
    ensures !(v.Some? && v.value.JArr?) ==> r == []
  {
    if v.Some? && v.value.JArr? then v.value.elems else []
  }

  /** `Number(discount_percent || 0)` */
  function CardDiscount(v: Option<Json>): (d: JsNumber)
    ensures !Present(v) ==> d == Fin(0.0)
    ensures v.Some? && v.value.JNum? ==> d == Fin(v.value.x)
  {
    if Present(v) then ToNumber(v.value) else Fin(0.0)
  }

  /** `Number.isFinite(stock) ? Number(stock) : 0`: only a number is finite. This is the
      same coercion as the corrected price, so it shares `Legacy.NumberOr0`. */
  function CardStock(v: Option<Json>): (s: real)
    ensures v.Some? && v.value.JNum? ==> s == v.value.x
    ensures !(v.Some? && v.value.JNum?) ==> s == 0.0
  {
    Legacy.NumberOr0(v)
  }

  /** `toCartProductCompat(product)`, with the intended price. None is the TypeError thrown
      for a null product, or a name or description that is neither text nor null. */
  function ToCompat(raw: Json): (r: Option<Compat>)
    ensures r.None? <==> raw.JNull? || TrimmedText(Field(raw, "name")).None? ||
                         TrimmedText(Field(raw, "description")).None?
    ensures r.Some? ==> r.value.name != "" && Trim(r.value.name) == r.value.name
    ensures r.Some? ==> IsHttpUrl(JsString(r.value.image)) || r.value.image == JStr(FallbackImage)
    ensures r.Some? && r.value.rating.Some? && r.value.rating.value.Fin? ==>
            0.0 <= r.value.rating.value.x <= 5.0
    ensures r.Some? && r.value.slug.Some? ==> Truthy(r.value.slug.value)
    ensures r.Some? ==> r.value.isNew == Present(Field(raw, "is_new"))
    ensures r.Some? ==> r.value.id == IdOf(Field(raw, "id"))
    ensures r.Some? ==> r.value.price == CardPrice(Field(raw, "price"))
    ensures r.Some? ==> r.value.stock == CardStock(Field(raw, "stock"))
    ensures r.Some? ==> r.value.discount == CardDiscount(Field(raw, "discount_percent"))
    ensures r.Some? ==> r.value.categories == ArrayOrEmpty(Field(raw, "categories"))
    ensures r.Some? ==> r.value.tags == ArrayOrEmpty(Field(raw, "tags"))
    ensures r.Some? ==> r.value.isTrending == Present(Field(raw, "is_trending"))
    ensures r.Some? ==> r.value.rating == CardRating(Field(raw, "rating"))
    ensures r.Some? ==> r.value.description == CardDescription(TrimmedText(Field(raw, "description")).value)
    ensures r.Some? ==> r.value.name == CardName(TrimmedText(Field(raw, "name")).value)
    ensures r.Some? ==> r.value.image == CardImage(Field(raw, "thumbnail_url"), Field(raw, "image"))
    ensures r.Some? ==> r.value.slug == (if Present(Field(raw, "slug")) then Field(raw, "slug") else None)
  {
    if raw.JNull? then None
    else
      match (TrimmedText(Field(raw, "name")), TrimmedText(Field(raw, "description")))
      case (Some(name), Some(description)) =>
        var slug := Field(raw, "slug");
        Some(Compat(
          IdOf(Field(raw, "id")),
          if Present(slug) then slug else None,
          CardName(name),
          CardPrice(Field(raw, "price")),
          CardRating(Field(raw, "rating")),
          CardImage(Field(raw, "thumbnail_url"), Field(raw, "image")),
          CardDescription(description),
          ArrayOrEmpty(Field(raw, "categories")),
          ArrayOrEmpty(Field(raw, "tags")),
          Present(Field(raw, "is_new")),
          Present(Field(raw, "is_trending")),
          CardDiscount(Field(raw, "discount_percent")),
          CardStock(Field(raw, "stock"))))
      case _ => None
  }

  // ---------------------------------------------------------------- price

  /** `Math.round(x)` for a finite x: the nearest integer, halves rounded up. */
  function Round(x: real): (n: int)
    ensures x - 0.5 < n as real <= x + 0.5
  {
    (x + 0.5).Floor
  }

  /** The price after the discount, and whether a discount applies. */
  datatype FinalPrice = FinalPrice(final: real, hasDiscount: bool)

  /** `Number(discountPercent || 0)` for a number: NaN and 0 both become 0. */
  function EffectiveDiscount(d: JsNumber): real {
    match d
    case Fin(x) => x
    case NaN => 0.0
  }

  /** `computeFinalPrice(price, discountPercent)` */
  function ComputeFinalPrice(price: real, discount: JsNumber): (r: FinalPrice)
    ensures r.hasDiscount <==> price != 0.0 && EffectiveDiscount(discount) > 0.0
    ensures !r.hasDiscount ==> r.final == price
    ensures r.hasDiscount ==> r.final >= 0.0 && IsWhole(r.final)
    ensures r.hasDiscount ==>
            var exact := price * (100.0 - EffectiveDiscount(discount)) / 100.0;
            (exact >= -0.5 ==> exact - 0.5 < r.final <= exact + 0.5)
  {
    var d := EffectiveDiscount(discount);
    if price == 0.0 || d <= 0.0 then FinalPrice(price, false)
    else
      var n := Round(price * (100.0 - d) / 100.0);
      FinalPrice(if n < 0 then 0.0 else n as real, true)
  }

  /** The label `formatPrice` shows. */
  datatype PriceLabel = Free | Amount(text: string)

  /** `formatPrice(p)`: positive prices print with the currency, anything else is free. */
  function FormatPrice(p: real): (shown: PriceLabel)
    ensures shown.Free? <==> p <= 0.0
    ensures shown.Amount? ==> shown.text == NumberText(p) + CurrencySuffix
  {
    if p > 0.0 then Amount(NumberText(p) + CurrencySuffix) else Free
  }

  function LabelText(shown: PriceLabel): string {
    match shown
    case Free => FreeLabel
    case Amount(t) => t
  }

  /** `(stock ?? 0) <= 0`; the normalised stock is always a number. */
  predicate OutOfStock(c: Compat) {
    c.stock <= 0.0
  }

  // ---------------------------------------------------------------- properties

  /** `isHttp` is false for a falsy value and, on text, is exactly the http(s) prefix test. */
  lemma IsHttpText(u: Option<Json>, s: string)
    ensures !Present(u) ==> !IsHttp(u)
    ensures IsHttp(Some(JStr(s))) <==> IsHttpUrl(s)
  {
    if IsHttpUrl(s) {
      assert |s| >= 7;
    }
  }

  /** A card is out of stock exactly when the product's `stock` is not a positive number:
      a missing, null, text or non-positive stock all count as none left. */
  lemma OutOfStockIff(raw: Json)
    requires ToCompat(raw).Some?
    ensures OutOfStock(ToCompat(raw).value) <==>
            !(Field(raw, "stock").Some? && Field(raw, "stock").value.JNum? && Field(raw, "stock").value.x > 0.0)
  {
  }

  /** A discount never raises the price of a positive item: the discounted price is at most
      the price itself, rounded. */
  lemma DiscountNeverRaises(price: real, discount: JsNumber)
    requires price > 0.0
    ensures ComputeFinalPrice(price, discount).final <= price + 0.5
  {
    var d := EffectiveDiscount(discount);
    if d > 0.0 {
      assert price * (100.0 - d) / 100.0 < price;
    }
  }

  /** A discount of 100% or more makes the item free. */
  lemma FullDiscountIsFree(price: real, d: real)
    requires price > 0.0 && d >= 100.0
    ensures ComputeFinalPrice(price, Fin(d)) == FinalPrice(0.0, true)
  {
    assert price * (100.0 - d) / 100.0 <= 0.0;
  }

  /** 200 at 15% off is 170; 99 at 10% off is 89.1, shown as 89. */
  lemma DiscountExamples()
    ensures ComputeFinalPrice(200.0, Fin(15.0)) == FinalPrice(170.0, true)
    ensures ComputeFinalPrice(99.0, Fin(10.0)) == FinalPrice(89.0, true)
    ensures ComputeFinalPrice(99.0, NaN) == FinalPrice(99.0, false)
  {
    assert (170.0 + 0.5).Floor == 170;
    assert (89.1 + 0.5).Floor == 89;
  }

  /** The label agrees with the number: it reads free exactly for a price of zero or less. */
  lemma LabelForPrice(p: real)
    ensures LabelText(FormatPrice(p)) == FreeLabel <==> p <= 0.0
  {
    if p > 0.0 {
      var t := NumberText(p) + CurrencySuffix;
      assert |t| > |FreeLabel| || t != FreeLabel by {
        assert t[|t| - 1] == 'س';
        assert FreeLabel[|FreeLabel| - 1] == 'ي';
      }
    }
  }

  /** The price as written leaves a null or missing price as it is: not a number at all,
      where a number was intended. */
  lemma PriceNullPassesThrough()
    ensures CardPriceAsWritten(None) == None
    ensures CardPriceAsWritten(Some(JNull)) == Some(JNull)
    ensures CardPrice(None) == 0.0 && CardPrice(Some(JNull)) == 0.0
  {
  }

  /** Wherever the written price is a number, the intended one is that number. */
  lemma CardPriceAgrees(v: Option<Json>)
    ensures CardPriceAsWritten(v).Some? && CardPriceAsWritten(v).value.JNum? ==>
            CardPrice(v) == CardPriceAsWritten(v).value.x
    ensures CardPriceAsWritten(v).None? || CardPriceAsWritten(v).value.JNull? <==> Nullish(v)
  {
  }
}

=== FILE: product_edit.dfy ===
/** The request handling of the product-editing route that does not touch the database
    (src/app/api/products/edit/route.ts:33-70, 108-174): `clamp`, `isHex`, `normalizeHex`,
    `validateRequired`, the id check and the patch handed to the update. */
module ProductEdit {
  import opened Wrappers
  import opened Text
  import opened Js
  import opened Validation
  import ProductAdd

  // ---------------------------------------------------------------- helpers

  /** `Math.min(hi, Math.max(lo, n))` */
  function Clamp(n: real, lo: real, hi: real): (r: real)
    ensures lo <= hi ==> lo <= r <= hi
    ensures lo <= n <= hi ==> r == n
    ensures n < lo && lo <= hi ==> r == lo
    ensures hi < n ==> r == hi
    ensures hi < lo ==> r == hi
  {
    var m := if lo < n then n else lo;
    if m < hi then m else hi
  }

  predicate AllHex(s: string) {
    forall i :: 0 <= i < |s| ==> IsHexDigit(s[i])
  }

  /** `/^#?[0-9a-fA-F]{6}$/`: six hex digits, optionally after a '#'. */
  predicate HexPattern(s: string) {
    || (|s| == 6 && AllHex(s))
    || (|s| == 7 && s[0] == '#' && AllHex(s[1..]))
  }

  /** `isHex(s)`: false for a falsy value; otherwise the pattern is matched against `String(s)`. */
  predicate IsHex(v: Option<Json>) {
    Present(v) && HexPattern(JsString(v.value))
  }

  /** `isHex` is false for a falsy value and, on text, is exactly the pattern test. */
  lemma IsHexText(v: Option<Json>, s: string)
    ensures !Present(v) ==> !IsHex(v)
    ensures IsHex(Some(JStr(s))) <==> HexPattern(s)
  {
  }

  /** The form `normalizeHex` gives a hex colour: '#' and six lower-case hex digits. */
  predicate NormalHex(s: string) {
    |s| == 7 && s[0] == '#' && forall i :: 1 <= i < 7 ==> IsHexDigit(s[i]) && IsLowered(s[i])
  }

  /** The text `normalizeHex` makes of a string: a '#' in front unless there is one, then
      lower case. */
  function HexText(s: string): (t: string)
    ensures |s| > 0 && s[0] == '#' ==> t == Lower(s)
    ensures !(|s| > 0 && s[0] == '#') ==> t == Lower("#" + s)
  {
    Lower(if |s| > 0 && s[0] == '#' then s else "#" + s)
  }

  /** `normalizeHex(s)`: null for a falsy value; None is the TypeError of calling
      `startsWith` on a truthy value that is not text. */
  function NormalizeHex(v: Option<Json>): (r: Option<Json>)
    ensures !Present(v) ==> r == Some(JNull)
    ensures Present(v) && !v.value.JStr? ==> r.None?
    ensures Present(v) && v.value.JStr? ==> r == Some(JStr(HexText(v.value.s)))
  {
    if !Present(v) then Some(JNull)
    else if !v.value.JStr? then None
    else Some(JStr(HexText(v.value.s)))
  }

  /** `v?.toString().trim() || null` for a defined value. */
  function TextOrNull(v: Json): (r: Json)
    ensures r == JNull || (r.JStr? && r.s != "" && Trimmed(r.s))
    ensures v.JNull? ==> r == JNull
    ensures !v.JNull? ==> (r == JNull <==> Trim(JsString(v)) == "")
    ensures !v.JNull? && r.JStr? ==> r.s == Trim(JsString(v))
    ensures v.JStr? ==> (r == JNull <==> Trim(v.s) == "")
    ensures v.JStr? && r.JStr? ==> r.s == Trim(v.s)
  {
    if v.JNull? then JNull
    else
      var t := Trim(JsString(v));
      TrimTrimmed(JsString(v));
      if t == "" then JNull else JStr(t)
  }

  /** `Number.isFinite(Number(v)) ? Number(v) : v` */
  function NumberOrRaw(v: Json): (r: Json)
    ensures ToNumber(v).Fin? ==> r == JNum(ToNumber(v).x)
    ensures ToNumber(v).NaN? ==> r == v
  {
    match ToNumber(v)
    case Fin(x) => JNum(x)
    case NaN => v
  }

  /** A colour name that is text, non-empty and trimmed. */
  predicate CleanName(v: Json) {
    v.JStr? && v.s != "" && Trimmed(v.s)
  }

  /** A list of colour names that are already trimmed and non-empty. */
  predicate CleanColors(es: seq<Json>) {
    forall i :: 0 <= i < |es| ==> CleanName(es[i])
  }

  /** `String(v).trim()` */
  function ColorName(v: Json): (t: string)
    ensures Trimmed(t)
  {
    TrimTrimmed(JsString(v));
    Trim(JsString(v))
  }

  lemma ConsClean(x: Json, rest: seq<Json>)
    requires CleanName(x) && CleanColors(rest)
    ensures CleanColors([x] + rest)
  {
    forall i | 0 <= i < |[x] + rest| ensures CleanName(([x] + rest)[i]) {
      if i > 0 {
        assert ([x] + rest)[i] == rest[i - 1];
      }
    }
  }

  /** `array.map(v => String(v).trim()).filter(Boolean)` */
  function KeptColors(es: seq<Json>): (r: seq<Json>)
    ensures |r| <= |es|
    ensures CleanColors(r)
  {
    if |es| == 0 then []
    else
      var t := ColorName(es[0]);
      var rest := KeptColors(es[1..]);
      if t == "" then rest
      else
        ConsClean(JStr(t), rest);
        [JStr(t)] + rest
  }

  /** `map` then `filter` work element by element: on a concatenation they clean each run,
      and a single element becomes its trimmed text, or nothing when that is empty. So the
      kept names are those of the input, in input order, each as often as it occurs. */
  lemma KeptColorsElementwise(a: seq<Json>, b: seq<Json>, x: Json)
    ensures KeptColors(a + b) == KeptColors(a) + KeptColors(b)
    ensures KeptColors([x]) == if ColorName(x) == "" then [] else [JStr(ColorName(x))]
  {
    KeptColorsConcat(a, b);
    assert [x][1..] == [];
  }

  /** The kept names are exactly the non-empty trimmed texts of the elements. */
  lemma {:induction false} KeptColorsMembers(es: seq<Json>, x: Json)
    ensures x in KeptColors(es) <==> exists j :: 0 <= j < |es| && ColorName(es[j]) != "" && x == JStr(ColorName(es[j]))
  {
    if |es| > 0 {
      KeptColorsMembers(es[1..], x);
      if x in KeptColors(es[1..]) {
        var j :| 0 <= j < |es[1..]| && ColorName(es[1..][j]) != "" && x == JStr(ColorName(es[1..][j]));
        assert es[1..][j] == es[j + 1];
      }
      if exists j :: 0 <= j < |es| && ColorName(es[j]) != "" && x == JStr(ColorName(es[j])) {
        var j :| 0 <= j < |es| && ColorName(es[j]) != "" && x == JStr(ColorName(es[j]));
        if j > 0 {
          assert es[1..][j - 1] == es[j];
        }
      }
    }
  }

  /** Cleaning a concatenation cleans each run. */
  lemma {:induction false} KeptColorsConcat(a: seq<Json>, b: seq<Json>)
    ensures KeptColors(a + b) == KeptColors(a) + KeptColors(b)
  {
    if |a| == 0 {
      assert a + b == b;
    } else {
      assert (a + b)[1..] == a[1..] + b;
      assert (a + b)[0] == a[0];
      KeptColorsConcat(a[1..], b);
    }
  }

  /** The cleaned `similar_colors`: null unless an array with a non-blank entry. */
  function SimilarColors(v: Json): (r: Json)
    ensures r == JNull || (r.JArr? && r.elems != [] && CleanColors(r.elems))
    ensures !v.JArr? ==> r == JNull
    ensures v.JArr? ==> (r == JNull <==> KeptColors(v.elems) == [])
    ensures r.JArr? ==> r.elems == KeptColors(v.elems)
  {
    if v.JArr? then
      var kept := KeptColors(v.elems);
      if |kept| == 0 then JNull else JArr(kept)
    else JNull
  }

  // ---------------------------------------------------------------- validateRequired

  /** The problems `validateRequired` reports, in the order it checks for them. */
  datatype Problem =
    | IdRequired | TitleRequired | BadPrice | BadImage | BadRating | CategoryRequired
    | BadColorHex

  function Rank(p: Problem): nat {
    match p
    case IdRequired => 0
    case TitleRequired => 1
    case BadPrice => 2
    case BadImage => 3
    case BadRating => 4
    case CategoryRequired => 5
    case BadColorHex => 6
  }

  function Message(p: Problem): string {
    match p
    case IdRequired => "المعرّف (id) مطلوب"
    case TitleRequired => "العنوان مطلوب"
    case BadPrice => "السعر غير صالح"
    case BadImage => "رابط الصورة يجب أن يبدأ بـ http/https"
    case BadRating => "التقييم يجب أن يكون بين 0 و 5"
    case CategoryRequired => "category_id مطلوب"
    case BadColorHex => "صيغة اللون الأساسية (HEX) غير صحيحة (مثال: #112233)"
  }

  /** The 400 response's message: `errors.join(' | ')`. */
  function ErrorMessage(errs: seq<Problem>): string {
    Join(" | ", seq(|errs|, i requires 0 <= i < |errs| => Message(errs[i])))
  }

  const BadIdMessage := "id يجب أن يكون رقمًا صالحًا"

  predicate InCheckOrder(errs: seq<Problem>) {
    Ranked(errs, Rank)
  }

  /** The properties of the request body the route reads (`Partial<Body>`). */
  datatype EditBody = EditBody(
    id: Option<Json>,
    title: Option<Json>,
    price: Option<Json>,
    slug: Option<Json>,
    imageUrl: Option<Json>,
    coverUrl: Option<Json>,
    rating: Option<Json>,
    category: Option<Json>,
    brand: Option<Json>,
    description: Option<Json>,
    isNew: Option<Json>,
    isTrending: Option<Json>,
    discount: Option<Json>,
    stock: Option<Json>,
    isAccessory: Option<Json>,
    colorName: Option<Json>,
    colorHex: Option<Json>,
    similarColors: Option<Json>)

  function ReadBody(body: Json): EditBody {
    EditBody(
      Field(body, "id"), Field(body, "title"), Field(body, "price"), Field(body, "slug"),
      Field(body, "image_url"), Field(body, "cover_url"), Field(body, "rating"),
      Field(body, "category_id"), Field(body, "brand_id"), Field(body, "description"),
      Field(body, "is_new"), Field(body, "is_trending"), Field(body, "discount_percent"),
      Field(body, "stock"), Field(body, "is_accessory"), Field(body, "primary_color_name"),
      Field(body, "primary_color_hex"), Field(body, "similar_colors"))
  }

  /** `b.image_url ?? b.cover_url` */
  function Image(b: EditBody): (img: Option<Json>)
    ensures !Nullish(b.imageUrl) ==> img == b.imageUrl
    ensures Nullish(b.imageUrl) ==> img == b.coverUrl
  {
    if Nullish(b.imageUrl) then b.coverUrl else b.imageUrl
  }

  /** `b.rating != null && (Number(b.rating) < 0 || Number(b.rating) > 5)`, as written: both
      comparisons are false for NaN, so a rating that is not a number passes. */
  predicate RatingRejectedAsWritten(v: Option<Json>) {
    !Nullish(v) && NumberOf(v).Fin? && (NumberOf(v).x < 0.0 || NumberOf(v).x > 5.0)
  }

  /** The rating check as the product-creation route makes it: NaN is rejected too. */
  predicate RatingRejected(v: Option<Json>) {
    ProductAdd.OutOfRange(v, 0.0, 5.0)
  }

  /** `b.title?.trim()` and `image?.trim()` throw for a value that is neither nullish nor
      text. */
  predicate ValidationThrows(b: EditBody) {
    TrimmedText(b.title).None? || TrimmedText(Image(b)).None?
  }

  const Checks: seq<Problem> :=
    [IdRequired, TitleRequired, BadPrice, BadImage, BadRating, CategoryRequired, BadColorHex]

  /** The condition under which a check pushes its problem, with the rating check corrected. */
  predicate Fails(b: EditBody, p: Problem) {
    match p
    case IdRequired => Nullish(b.id)
    case TitleRequired => BlankText(b.title)
    case BadPrice => ProductAdd.PriceInvalid(b.price)
    case BadImage => ProductAdd.ImageInvalid(Image(b))
    case BadRating => RatingRejected(b.rating)
    case CategoryRequired => Nullish(b.category)
    case BadColorHex => Present(b.colorHex) && !IsHex(b.colorHex)
  }

  /** The checks as written: only the rating check differs. */
  predicate FailsAsWritten(b: EditBody, p: Problem) {
    if p == BadRating then RatingRejectedAsWritten(b.rating) else Fails(b, p)
  }

  lemma ChecksInOrder()
    ensures forall q :: q in Checks
    ensures Ranked(Checks, Rank)
  {
    forall q ensures q in Checks {
      assert Checks[Rank(q)] == q;
    }
  }

  /** `validateRequired(body)` with the corrected rating check. None is the TypeError of a
      non-text title or image. */
  function Validate(b: EditBody): (r: Option<seq<Problem>>)
    ensures r.None? <==> ValidationThrows(b)
    ensures r.Some? ==> InCheckOrder(r.value) && forall q :: q in r.value <==> Fails(b, q)
  {
    ChecksInOrder();
    Validated(Checks, ValidationThrows(b), p => Fails(b, p), Rank)
  }

  /** `validateRequired(body)` as written. */
  function ValidateAsWritten(b: EditBody): (r: Option<seq<Problem>>)
    ensures r.None? <==> ValidationThrows(b)
    ensures r.Some? ==> InCheckOrder(r.value) && forall q :: q in r.value <==> FailsAsWritten(b, q)
  {
    ChecksInOrder();
    Validated(Checks, ValidationThrows(b), p => FailsAsWritten(b, p), Rank)
  }

  // ---------------------------------------------------------------- the patch

  /** The columns the patch can write, one per key of the body the route copies. */
  datatype Column =
    | Title | Price | SlugColumn | ImageUrl | Rating | CategoryId | BrandId | Description
    | IsNew | IsTrending | DiscountPercent | StockColumn | IsAccessory | PrimaryColorName
    | PrimaryColorHex | SimilarColorsColumn

  /** The column's name, which is also the body key it is copied from (`image_url` falls
      back to `cover_url`). */
  function Name(c: Column): string {
    match c
    case Title => "title"
    case Price => "price"
    case SlugColumn => "slug"
    case ImageUrl => "image_url"
    case Rating => "rating"
    case CategoryId => "category_id"
    case BrandId => "brand_id"
    case Description => "description"
    case IsNew => "is_new"
    case IsTrending => "is_trending"
    case DiscountPercent => "discount_percent"
    case StockColumn => "stock"
    case IsAccessory => "is_accessory"
    case PrimaryColorName => "primary_color_name"
    case PrimaryColorHex => "primary_color_hex"
    case SimilarColorsColumn => "similar_colors"
  }

  /** The columns in the order lines 135-174 consider them. */
  const ColumnOrder: seq<Column> := [
    Title, Price, SlugColumn, ImageUrl, Rating, CategoryId, BrandId, Description, IsNew,
    IsTrending, DiscountPercent, StockColumn, IsAccessory, PrimaryColorName, PrimaryColorHex,
    SimilarColorsColumn]

  function Position(c: Column): nat {
    match c
    case Title => 0
    case Price => 1
    case SlugColumn => 2
    case ImageUrl => 3
    case Rating => 4
    case CategoryId => 5
    case BrandId => 6
    case Description => 7
    case IsNew => 8
    case IsTrending => 9
    case DiscountPercent => 10
    case StockColumn => 11
    case IsAccessory => 12
    case PrimaryColorName => 13
    case PrimaryColorHex => 14
    case SimilarColorsColumn => 15
  }

  lemma EveryColumnConsidered(c: Column)
    ensures c in ColumnOrder
  {
    assert ColumnOrder[Position(c)] == c;
  }

  /** `patch.discount_percent = clamp(Number(v) || 0, 0, 90)` */
  function Discount(v: Json): (r: real)
    ensures 0.0 <= r <= ProductAdd.MaxDiscount
    ensures ToNumber(v).Fin? && 0.0 <= ToNumber(v).x <= ProductAdd.MaxDiscount ==> r == ToNumber(v).x
  {
    Clamp(NumberOrZero(v), 0.0, ProductAdd.MaxDiscount)
  }

  /** `patch.stock = Math.max(0, Number(v) || 0)` */
  function Stock(v: Json): (r: real)
    ensures r >= 0.0
    ensures ToNumber(v).Fin? && ToNumber(v).x >= 0.0 ==> r == ToNumber(v).x
  {
    var n := NumberOrZero(v);
    if n < 0.0 then 0.0 else n
  }

  /** What the patch holds for column `c`; None when the key is not set because the body
      leaves the field undefined. */
  function Value(b: EditBody, c: Column): Option<Json> {
    match c
    case Title => if b.title.None? then None else Some(JStr(Trim(JsString(b.title.value))))
    case Price => if b.price.None? then None else Some(NumberJson(ToNumber(b.price.value)))
    case SlugColumn => if b.slug.None? then None else Some(TextOrNull(b.slug.value))
    case ImageUrl =>
      var img := Image(b);
      if img.None? then None else Some(JStr(Trim(JsString(img.value))))
    case Rating =>
      if b.rating.None? then None
      else if b.rating.value.JNull? then Some(JNull)
      else Some(NumberJson(ToNumber(b.rating.value)))
    case CategoryId => if b.category.None? then None else Some(NumberOrRaw(b.category.value))
    case BrandId =>
      if b.brand.None? then None
      else if b.brand.value.JNull? then Some(JNull)
      else Some(NumberOrRaw(b.brand.value))
    case Description =>
      if b.description.None? then None else Some(TextOrNull(b.description.value))
    case IsNew => if b.isNew.None? then None else Some(JBool(Truthy(b.isNew.value)))
    case IsTrending =>
      if b.isTrending.None? then None else Some(JBool(Truthy(b.isTrending.value)))
    case DiscountPercent =>
      if b.discount.None? then None else Some(JNum(Discount(b.discount.value)))
    case StockColumn => if b.stock.None? then None else Some(JNum(Stock(b.stock.value)))
    case IsAccessory =>
      if b.isAccessory.None? then None
      else if b.isAccessory.value.JNull? then Some(JNull)
      else Some(JBool(Truthy(b.isAccessory.value)))
    case PrimaryColorName =>
      if b.colorName.None? then None else Some(TextOrNull(b.colorName.value))
    case PrimaryColorHex => if b.colorHex.None? then None else NormalizeHex(b.colorHex)
    case SimilarColorsColumn =>
      if b.similarColors.None? then None else Some(SimilarColors(b.similarColors.value))
  }

  /** `normalizeHex` of a truthy colour that is not text throws while the patch is built. */
  predicate PatchThrows(b: EditBody) {
    b.colorHex.Some? && NormalizeHex(b.colorHex).None?
  }

  /** The value each column would be given, as one function of the column. */
  function ValuesOf(b: EditBody): Column -> Option<Json> {
    c => Value(b, c)
  }

  /** `if (body.k !== undefined) patch.k = ...` for the columns `cs`, one after the other:
      `vals(c)` is None when the statement for `c` sets nothing. */
  function Collect(vals: Column -> Option<Json>, cs: seq<Column>): map<Column, Json> {
    if |cs| == 0 then map[]
    else
      var m := Collect(vals, cs[..|cs| - 1]);
      var c := cs[|cs| - 1];
      match vals(c)
      case None => m
      case Some(v) => m[c := v]
  }

  /** A column is set by the statements for `cs` exactly when it is among them and has a
      value, and then to that value. */
  lemma {:induction false} CollectAt(vals: Column -> Option<Json>, cs: seq<Column>, c: Column)
    ensures c in Collect(vals, cs) <==> c in cs && vals(c).Some?
    ensures c in Collect(vals, cs) ==> Collect(vals, cs)[c] == vals(c).value
  {
    if |cs| > 0 {
      var init := cs[..|cs| - 1];
      CollectAt(vals, init, c);
      assert cs == init + [cs[|cs| - 1]];
    }
  }

  /** Lines 133-174 of `PUT`: the patch, key by key. None is the TypeError of
      `normalizeHex`. */
  function BuildPatch(b: EditBody): (r: Option<map<Column, Json>>)
    ensures r.None? <==> Present(b.colorHex) && !b.colorHex.value.JStr?
  {
    if PatchThrows(b) then None else Some(Collect(ValuesOf(b), ColumnOrder))
  }

  /** What the built patch holds for one column. */
  lemma PatchAt(b: EditBody, c: Column)
    requires BuildPatch(b).Some?
    ensures c in BuildPatch(b).value <==> Value(b, c).Some?
    ensures c in BuildPatch(b).value ==> BuildPatch(b).value[c] == Value(b, c).value
  {
    EveryColumnConsidered(c);
    CollectAt(ValuesOf(b), ColumnOrder, c);
    assert ValuesOf(b)(c) == Value(b, c);
  }

  /** The update: the patched columns take their new values, every other column keeps its
      own. */
  function Apply(row: map<Column, Json>, patch: map<Column, Json>): (r: map<Column, Json>)
    ensures r.Keys == row.Keys + patch.Keys
    ensures forall k :: k in patch ==> r[k] == patch[k]
    ensures forall k :: k in row && k !in patch ==> r[k] == row[k]
  {
    row + patch
  }

  // ---------------------------------------------------------------- the route

  datatype Outcome =
    | Threw                                             // 500 "حدث خطأ غير متوقع: ..."
    | Rejected(problems: seq<Problem>)                  // 400 with the joined messages
    | BadId                                             // 400 BadIdMessage
    | NotFound                                          // 404: no product with that id
    | Accepted(id: real, patch: map<Column, Json>)      // the update is sent

  /** Everything after `validateRequired`: the id check, the lookup (`found` is whether a
      product with that id exists) and the patch. */
  function Conclude(b: EditBody, found: bool, checked: Option<seq<Problem>>): (r: Outcome)
    ensures checked.None? ==> r.Threw?
    ensures checked.Some? && checked.value != [] ==> r == Rejected(checked.value)
    ensures r.Rejected? ==> checked.Some? && checked.value != []
    ensures r.NotFound? ==> checked == Some([]) && !found
    ensures r.Accepted? ==> checked == Some([]) && found && NumberOf(b.id) == Fin(r.id)
    ensures r.Accepted? ==> BuildPatch(b) == Some(r.patch)
    ensures r.BadId? <==> checked == Some([]) && NumberOf(b.id).NaN?
  {
    match checked
    case None => Threw
    case Some(errs) =>
      if errs != [] then Rejected(errs)
      else match NumberOf(b.id)
        case NaN => BadId
        case Fin(id) =>
          if !found then NotFound
          else match BuildPatch(b)
            case None => Threw
            case Some(patch) => Accepted(id, patch)
  }

  /** What the outcome says, for a validator whose problems are those `fails` picks out. */
  lemma ConcludeMeaning(b: EditBody, found: bool, checked: Option<seq<Problem>>, fails: Problem -> bool)
    requires checked.None? <==> ValidationThrows(b)
    requires checked.Some? ==> forall q :: q in checked.value <==> fails(q)
    ensures ValidationThrows(b) ==> Conclude(b, found, checked).Threw?
    ensures Conclude(b, found, checked).Rejected? <==> !ValidationThrows(b) && exists q :: fails(q)
    ensures Conclude(b, found, checked).Rejected? ==> forall q :: q in Conclude(b, found, checked).problems <==> fails(q)
    ensures Conclude(b, found, checked).Accepted? ==>
            (forall q :: !fails(q)) && found && NumberOf(b.id) == Fin(Conclude(b, found, checked).id)
    ensures Conclude(b, found, checked).NotFound? ==> !found
  {
    if checked.Some? && checked.value != [] {
      assert fails(checked.value[0]);
    }
  }

  /** Lines 109-174 of `PUT`, with the rating check corrected. */
  function Decide(b: EditBody, found: bool): (r: Outcome)
    ensures ValidationThrows(b) ==> r.Threw?
    ensures r.Rejected? <==> !ValidationThrows(b) && exists q :: Fails(b, q)
    ensures r.Rejected? ==> forall q :: q in r.problems <==> Fails(b, q)
    ensures r.Accepted? ==> (forall q :: !Fails(b, q)) && found && NumberOf(b.id) == Fin(r.id)
    ensures r.NotFound? ==> !found
  {
    ConcludeMeaning(b, found, Validate(b), q => Fails(b, q));
    Conclude(b, found, Validate(b))
  }

  /** Lines 109-174 of `PUT` as written. */
  function DecideAsWritten(b: EditBody, found: bool): (r: Outcome)
    ensures ValidationThrows(b) ==> r.Threw?
    ensures r.Rejected? <==> !ValidationThrows(b) && exists q :: FailsAsWritten(b, q)
    ensures r.Rejected? ==> forall q :: q in r.problems <==> FailsAsWritten(b, q)
    ensures r.Accepted? ==> (forall q :: !FailsAsWritten(b, q)) && found && NumberOf(b.id) == Fin(r.id)
    ensures r.NotFound? ==> !found
  {
    ConcludeMeaning(b, found, ValidateAsWritten(b), q => FailsAsWritten(b, q));
    Conclude(b, found, ValidateAsWritten(b))
  }

  /** A null body throws at `b.id`; any other body reads its properties (none, unless it is
      an object). */
  function Prepare(body: Json, found: bool): (r: Outcome)
    ensures body.JNull? ==> r.Threw?
    ensures !body.JNull? ==> r == Decide(ReadBody(body), found)
  {
    if body.JNull? then Threw else Decide(ReadBody(body), found)
  }

  // ---------------------------------------------------------------- properties

  /** Clamping twice is clamping once. */
  lemma ClampIdempotent(n: real, lo: real, hi: real)
    requires lo <= hi
    ensures Clamp(Clamp(n, lo, hi), lo, hi) == Clamp(n, lo, hi)
  {
  }

  /** A hex colour in normal form matches the pattern `isHex` tests. */
  lemma NormalHexIsHex(s: string)
    requires NormalHex(s)
    ensures HexPattern(s)
  {
  }

  /** `normalizeHex` turns every hex colour into its normal form, keeping its six digits
      (lower-cased) and adding the '#' only when it is missing. */
  lemma HexTextNormal(s: string)
    requires HexPattern(s)
    ensures NormalHex(HexText(s))
    ensures |s| == 6 ==> HexText(s)[1..] == Lower(s)
    ensures |s| == 7 ==> HexText(s)[1..] == Lower(s[1..])
  {
    var t := HexText(s);
    if |s| == 6 {
      assert !(|s| > 0 && s[0] == '#') by { assert IsHexDigit(s[0]); }
      assert forall i :: 1 <= i < 7 ==> t[i] == AsciiLower(s[i - 1]);
    } else {
      assert forall i :: 1 <= i < 7 ==> t[i] == AsciiLower(s[1..][i - 1]);
    }
  }

  /** Normalising a normalised colour changes nothing. */
  lemma NormalizeHexIdempotent(s: string)
    requires NormalHex(s)
    ensures NormalizeHex(Some(JStr(s))) == Some(JStr(s))
  {
    var t := HexText(s);
    assert t == Lower(s);
    forall i | 0 <= i < 7 ensures t[i] == s[i] {
      assert i == 0 || IsLowered(s[i]);
    }
    assert t == s;
  }

  /** Cleaning an already clean colour list keeps it as it is. */
  lemma {:induction false} KeptColorsClean(es: seq<Json>)
    requires CleanColors(es)
    ensures KeptColors(es) == es
  {
    if |es| > 0 {
      assert CleanColors(es[1..]);
      KeptColorsClean(es[1..]);
      TrimFixed(es[0].s);
      assert ColorName(es[0]) == es[0].s;
      assert es == [es[0]] + es[1..];
    }
  }

  /** Cleaning the similar colours twice is cleaning them once. */
  lemma SimilarColorsIdempotent(v: Json)
    ensures SimilarColors(SimilarColors(v)) == SimilarColors(v)
  {
    var r := SimilarColors(v);
    if r.JArr? {
      KeptColorsClean(r.elems);
    }
  }

  /** The patch carries exactly the columns the body defines: `image_url` when
      `image_url ?? cover_url` is defined, every other column when the body has its key. */
  lemma PatchFollowsBody(body: Json, c: Column)
    requires BuildPatch(ReadBody(body)).Some?
    ensures var patch := BuildPatch(ReadBody(body)).value;
      c == ImageUrl ==>
        (c in patch <==> !Nullish(Field(body, "image_url")) || Field(body, "cover_url").Some?)
    ensures var patch := BuildPatch(ReadBody(body)).value;
      c != ImageUrl ==> (c in patch <==> Field(body, Name(c)).Some?)
  {
    var b := ReadBody(body);
    PatchAt(b, c);
  }

  /** Columns whose key the body does not define keep their value through the update. */
  lemma UntouchedColumnsKept(body: Json, found: bool, row: map<Column, Json>, c: Column)
    requires Prepare(body, found).Accepted?
    requires c != ImageUrl && Field(body, Name(c)).None? && c in row
    ensures Apply(row, Prepare(body, found).patch)[c] == row[c]
  {
    PatchFollowsBody(body, c);
  }

  /** An accepted edit passed every check and sends the patch built from its body. */
  lemma AcceptedPassed(b: EditBody, found: bool)
    requires Decide(b, found).Accepted?
    ensures !ValidationThrows(b) && forall q :: !Fails(b, q)
    ensures BuildPatch(b) == Some(Decide(b, found).patch)
  {
    assert Validate(b) == Some([]);
  }

  /** A body that passes the title check writes a non-blank trimmed title. */
  lemma PatchTitle(b: EditBody)
    requires !ValidationThrows(b) && !Fails(b, TitleRequired)
    requires BuildPatch(b).Some?
    ensures var p := BuildPatch(b).value;
      Title in p && p[Title].JStr? && p[Title].s != "" && Trimmed(p[Title].s)
  {
    assert b.title.Some? && b.title.value.JStr?;
    PatchAt(b, Title);
    TrimTrimmed(b.title.value.s);
  }

  /** A body that passes the price check writes a non-negative price. */
  lemma PatchPrice(b: EditBody)
    requires !Fails(b, BadPrice)
    requires BuildPatch(b).Some?
    ensures var p := BuildPatch(b).value; Price in p && p[Price].JNum? && p[Price].x >= 0.0
  {
    PatchAt(b, Price);
  }

  lemma ImageValue(b: EditBody, s: string)
    requires Image(b) == Some(JStr(s))
    ensures Value(b, ImageUrl) == Some(JStr(Trim(s)))
  {
  }

  /** A body that passes the image check writes a trimmed http(s) image. */
  lemma PatchImage(b: EditBody)
    requires !ValidationThrows(b) && !Fails(b, BadImage)
    requires BuildPatch(b).Some?
    ensures var p := BuildPatch(b).value;
      && ImageUrl in p && p[ImageUrl].JStr? && IsHttpUrl(p[ImageUrl].s)
      && Trimmed(p[ImageUrl].s)
  {
    var img := Image(b);
    assert img.Some? && img.value.JStr?;
    var s := img.value.s;
    assert IsHttpUrl(s);
    TrimTrimmed(s);
    TrimKeepsHttp(s);
    ImageValue(b, s);
    PatchAt(b, ImageUrl);
  }

  /** A body that passes the category check always writes the category. */
  lemma PatchCategory(b: EditBody)
    requires !Fails(b, CategoryRequired)
    requires BuildPatch(b).Some?
    ensures CategoryId in BuildPatch(b).value
  {
    PatchAt(b, CategoryId);
  }

  /** With the corrected check, a written rating is null only when the body sent null, and
      otherwise lies in [0, 5]. */
  lemma PatchRating(b: EditBody)
    requires !Fails(b, BadRating)
    requires BuildPatch(b).Some?
    ensures var p := BuildPatch(b).value;
      Rating in p ==>
        || (p[Rating] == JNull && b.rating == Some(JNull))
        || (p[Rating].JNum? && 0.0 <= p[Rating].x <= 5.0)
  {
    PatchAt(b, Rating);
  }

  /** The patch keeps the discount in [0, 90] and the stock non-negative, whatever the body
      sent. */
  lemma PatchNumbers(b: EditBody)
    requires BuildPatch(b).Some?
    ensures var p := BuildPatch(b).value;
      && (DiscountPercent in p ==>
            p[DiscountPercent].JNum? && 0.0 <= p[DiscountPercent].x <= ProductAdd.MaxDiscount)
      && (StockColumn in p ==> p[StockColumn].JNum? && p[StockColumn].x >= 0.0)
  {
    PatchAt(b, DiscountPercent);
    PatchAt(b, StockColumn);
  }

  /** A colour that passed the hex check is written as null or in normal form. */
  lemma PatchColor(b: EditBody)
    requires !Fails(b, BadColorHex)
    requires BuildPatch(b).Some?
    ensures var p := BuildPatch(b).value;
      PrimaryColorHex in p ==>
        p[PrimaryColorHex] == JNull
        || (p[PrimaryColorHex].JStr? && NormalHex(p[PrimaryColorHex].s))
  {
    PatchAt(b, PrimaryColorHex);
    if Present(b.colorHex) {
      assert b.colorHex.value.JStr?;
      HexTextNormal(b.colorHex.value.s);
    }
  }

  /** Similar colours are written as null or a non-empty list of trimmed, non-empty names. */
  lemma PatchSimilarColors(b: EditBody)
    requires BuildPatch(b).Some?
    ensures var p := BuildPatch(b).value;
      SimilarColorsColumn in p ==>
        p[SimilarColorsColumn] == JNull
        || (p[SimilarColorsColumn].JArr? && p[SimilarColorsColumn].elems != []
            && CleanColors(p[SimilarColorsColumn].elems))
  {
    PatchAt(b, SimilarColorsColumn);
  }

  /** The only difference between the two checks: a rating `Number` cannot read. */
  lemma RatingChecksDiffer(v: Option<Json>)
    ensures RatingRejected(v) <==> RatingRejectedAsWritten(v) || (!Nullish(v) && NumberOf(v).NaN?)
  {
  }

  /** The text "abc" is a rating `Number` reads as NaN. */
  lemma TextRatingIsNaN()
    ensures NumberOf(Some(JStr("abc"))).NaN?
  {
    TrimFixed("abc");
  }

  /** A check-ordered list holding exactly one kind of problem holds it once. */
  lemma OnlyProblem(errs: seq<Problem>, p: Problem, b: EditBody)
    requires InCheckOrder(errs)
    requires forall q :: q in errs <==> Fails(b, q)
    requires forall q :: Fails(b, q) <==> q == p
    ensures errs == [p]
  {
    assert |errs| > 1 ==> Rank(errs[0]) < Rank(errs[1]);
    assert p in errs;
    forall i | 0 <= i < |errs| ensures errs[i] == p {
      assert errs[i] in errs;
    }
  }

  /** A defined rating that `Number` reads as NaN is written as null. */
  lemma NaNRatingValue(b: EditBody)
    requires b.rating.Some? && NumberOf(b.rating).NaN?
    ensures Value(b, Rating) == Some(JNull)
  {
  }

  /** As written, the rating check lets a NaN rating through. */
  lemma NaNRatingPassesAsWritten(b: EditBody)
    requires b.rating.Some? && NumberOf(b.rating).NaN?
    requires !ValidationThrows(b) && forall q :: q != BadRating ==> !Fails(b, q)
    ensures ValidateAsWritten(b) == Some([])
  {
    assert !FailsAsWritten(b, BadRating);
    var written := ValidateAsWritten(b).value;
    forall q ensures q !in written {
      assert !FailsAsWritten(b, q);
    }
  }

  /** As written, a body that is valid but for a rating `Number` reads as NaN (the text "abc",
      say) passes validation, and the NaN reaches the database as null. */
  lemma NaNRatingStoredAsNull(b: EditBody)
    requires b.rating.Some? && NumberOf(b.rating).NaN?
    requires !ValidationThrows(b) && forall q :: q != BadRating ==> !Fails(b, q)
    requires NumberOf(b.id).Fin? && !PatchThrows(b)
    ensures DecideAsWritten(b, true).Accepted?
    ensures Rating in DecideAsWritten(b, true).patch
    ensures DecideAsWritten(b, true).patch[Rating] == JNull
  {
    NaNRatingPassesAsWritten(b);
    NaNRatingValue(b);
    PatchAt(b, Rating);
  }

  /** The corrected check rejects the same body with the rating message alone. */
  lemma NaNRatingRejected(b: EditBody, found: bool)
    requires b.rating.Some? && NumberOf(b.rating).NaN?
    requires !ValidationThrows(b) && forall q :: q != BadRating ==> !Fails(b, q)
    ensures Decide(b, found) == Rejected([BadRating])
  {
    assert Fails(b, BadRating);
    OnlyProblem(Validate(b).value, BadRating, b);
  }
}

=== FILE: slug.dfy ===
/** `toSlug` of the product routes (src/app/api/products/add/route.ts:38-45): trim, lower
    case, whitespace runs to one dash, drop everything but letters, numbers and dashes,
    squash dash runs, drop a dash at either end. */
module Slug {
  import opened Text

  /** `\p{L}` over the scripts this storefront writes: ASCII and Latin-1 letters and the
      Arabic letters (hamza to yeh). */
  predicate IsLetter(c: char) {
    var n := c as int;
    ('a' <= c <= 'z') || ('A' <= c <= 'Z')
    || n == 0xAA || n == 0xB5 || n == 0xBA
    || (0xC0 <= n <= 0xFF && n != 0xD7 && n != 0xF7)
    || (0x0621 <= n <= 0x064A)
  }

  /** `\p{N}` over the same scripts: ASCII digits, the Latin-1 superscripts and fractions,
      and the Arabic-Indic and extended Arabic-Indic digits. */
  predicate IsNumber(c: char) {
    var n := c as int;
    IsDigit(c)
    || n == 0xB2 || n == 0xB3 || n == 0xB9 || (0xBC <= n <= 0xBE)
    || (0x0660 <= n <= 0x0669) || (0x06F0 <= n <= 0x06F9)
  }

  predicate IsAlnum(c: char) {
    IsLetter(c) || IsNumber(c)
  }

  /** What `[^\p{L}\p{N}-]` does not match. */
  predicate IsSlugChar(c: char) {
    IsAlnum(c) || c == '-'
  }

  lemma SlugCharNotSpace(c: char)
    requires IsSlugChar(c)
    ensures !IsSpace(c)
  {
  }

  /** The letters and numbers of `s`, in order: what a slug keeps of its source. */
  function Alnum(s: string): (r: string)
    ensures |r| <= |s|
    ensures forall i :: 0 <= i < |r| ==> IsAlnum(r[i])
  {
    if |s| == 0 then ""
    else (if IsAlnum(s[0]) then [s[0]] else "") + Alnum(s[1..])
  }

  /** No two dashes in a row. */
  predicate NoDoubleDash(s: string) {
    forall i :: 0 <= i < |s| - 1 ==> !(s[i] == '-' && s[i + 1] == '-')
  }

  /** Neither end is a dash. */
  predicate CleanEdges(s: string) {
    s == [] || (s[0] != '-' && s[|s| - 1] != '-')
  }

  /** What `toSlug` promises of its result. */
  predicate IsSlug(s: string) {
    && (forall i :: 0 <= i < |s| ==> IsSlugChar(s[i]) && IsLowered(s[i]))
    && NoDoubleDash(s)
    && CleanEdges(s)
  }

  // ---------------------------------------------------------------- the stages

  /** `.replace(/\s+/g, '-')`: a whitespace character followed by another is dropped, the
      last of each run becomes a dash. */
  function DashSpaces(s: string): (r: string)
    ensures forall i :: 0 <= i < |r| ==> !IsSpace(r[i])
    ensures forall c :: c in r ==> c == '-' || c in s
    ensures Alnum(r) == Alnum(s)
  {
    if |s| == 0 then ""
    else if |s| > 1 && IsSpace(s[0]) && IsSpace(s[1]) then
      assert Alnum(s) == Alnum(s[1..]);
      DashSpaces(s[1..])
    else
      var head := if IsSpace(s[0]) then '-' else s[0];
      var r := [head] + DashSpaces(s[1..]);
      assert r[1..] == DashSpaces(s[1..]);
      r
  }

  /** `.replace(/[^\p{L}\p{N}-]+/gu, '')` */
  function KeepSlugChars(s: string): (r: string)
    ensures forall i :: 0 <= i < |r| ==> IsSlugChar(r[i])
    ensures forall c :: c in r ==> c in s
    ensures Alnum(r) == Alnum(s)
  {
    if |s| == 0 then ""
    else if IsSlugChar(s[0]) then
      var r := [s[0]] + KeepSlugChars(s[1..]);
      assert r[1..] == KeepSlugChars(s[1..]);
      r
    else KeepSlugChars(s[1..])
  }

  /** `.replace(/-+/g, '-')`: a dash followed by another is dropped. */
  function Squash(s: string): (r: string)
    ensures NoDoubleDash(r)
    ensures forall c :: c in r ==> c in s
    ensures Alnum(r) == Alnum(s)
    ensures |r| > 0 ==> |s| > 0 && r[0] == s[0]
  {
    if |s| == 0 then ""
    else if |s| > 1 && s[0] == '-' && s[1] == '-' then Squash(s[1..])
    else
      var r := [s[0]] + Squash(s[1..]);
      assert r[1..] == Squash(s[1..]);
      r
  }

  /** 1 when `s` starts with a dash: what `^-` removes. */
  function LeadDash(s: string): (a: nat)
    ensures a <= |s|
  {
    if |s| > 0 && s[0] == '-' then 1 else 0
  }

  /** `.replace(/^-|-$/g, '')`: one dash off each end, the same dash at most once. */
  function StripEdgeDash(s: string): (r: string)
    ensures LeadDash(s) + |r| <= |s| && r == s[LeadDash(s)..LeadDash(s) + |r|]
    ensures forall i :: LeadDash(s) + |r| <= i < |s| ==> s[i] == '-'
    ensures NoDoubleDash(s) ==> NoDoubleDash(r) && CleanEdges(r)
  {
    var a := LeadDash(s);
    var b := if a < |s| && s[|s| - 1] == '-' then |s| - 1 else |s|;
    s[a..b]
  }

  /** Everything after trimming and lower-casing. */
  function Shape(t: string): string {
    StripEdgeDash(Squash(KeepSlugChars(DashSpaces(t))))
  }

  /** The chars of a shaped string are dashes or come from its source. */
  lemma ShapeChars(t: string)
    ensures forall c :: c in Shape(t) ==> c == '-' || c in t
  {
    var q := Squash(KeepSlugChars(DashSpaces(t)));
    var r := StripEdgeDash(q);
    forall c | c in r ensures c == '-' || c in t {
      var k :| 0 <= k < |r| && r[k] == c;
      assert q[LeadDash(q) + k] == c;
    }
  }

  lemma ShapeIsSlug(t: string)
    requires forall i :: 0 <= i < |t| ==> IsLowered(t[i])
    ensures IsSlug(Shape(t))
  {
    var r := Shape(t);
    var q := Squash(KeepSlugChars(DashSpaces(t)));
    var kept := KeepSlugChars(DashSpaces(t));
    forall i | 0 <= i < |r| ensures IsSlugChar(r[i]) && IsLowered(r[i]) {
      assert r[i] == q[LeadDash(q) + i];
      assert r[i] in kept;
      var j :| 0 <= j < |kept| && kept[j] == r[i];
      ShapeChars(t);
      assert r[i] in r;
      if r[i] != '-' {
        var k :| 0 <= k < |t| && t[k] == r[i];
      }
    }
  }

  function ToSlug(input: string): (slug: string)
    ensures IsSlug(slug)
    ensures forall i :: 0 <= i < |slug| ==> !IsSpace(slug[i])
  {
    var lowered := Lower(Trim(input));
    LowerIsLowered(Trim(input));
    ShapeIsSlug(lowered);
    var r := Shape(lowered);
    forall i | 0 <= i < |r| ensures !IsSpace(r[i]) {
      SlugCharNotSpace(r[i]);
    }
    r
  }

  // ---------------------------------------------------------------- properties

  lemma {:induction false} AlnumConcat(a: string, b: string)
    ensures Alnum(a + b) == Alnum(a) + Alnum(b)
  {
    if |a| > 0 {
      var head := if IsAlnum(a[0]) then [a[0]] else "";
      assert (a + b)[0] == a[0];
      assert (a + b)[1..] == a[1..] + b;
      AlnumConcat(a[1..], b);
      assert Alnum(a + b) == head + Alnum(a[1..] + b);
      assert Alnum(a) == head + Alnum(a[1..]);
    } else {
      assert a + b == b;
    }
  }

  lemma {:induction false} AlnumOfNone(s: string)
    requires forall i :: 0 <= i < |s| ==> !IsAlnum(s[i])
    ensures Alnum(s) == ""
  {
    if |s| > 0 {
      AlnumOfNone(s[1..]);
    }
  }

  lemma SpaceNotAlnum(c: char)
    requires IsSpace(c)
    ensures !IsAlnum(c)
  {
  }

  lemma TrimStartKeepsAlnum(s: string)
    ensures Alnum(TrimStart(s)) == Alnum(s)
  {
    var a := TrimStart(s);
    TrimStartShape(s);
    var k := |s| - |a|;
    assert s == s[..k] + a;
    forall i | 0 <= i < k ensures !IsAlnum(s[..k][i]) {
      SpaceNotAlnum(s[i]);
    }
    AlnumOfNone(s[..k]);
    AlnumConcat(s[..k], a);
  }

  lemma TrimEndKeepsAlnum(s: string)
    ensures Alnum(TrimEnd(s)) == Alnum(s)
  {
    var t := TrimEnd(s);
    TrimEndShape(s);
    assert s == t + s[|t|..];
    forall i | 0 <= i < |s| - |t| ensures !IsAlnum(s[|t|..][i]) {
      SpaceNotAlnum(s[|t| + i]);
    }
    AlnumOfNone(s[|t|..]);
    AlnumConcat(t, s[|t|..]);
  }

  /** Trimming drops only whitespace, so no letter or number. */
  lemma TrimKeepsAlnum(s: string)
    ensures Alnum(Trim(s)) == Alnum(s)
  {
    TrimStartKeepsAlnum(s);
    TrimEndKeepsAlnum(TrimStart(s));
  }

  /** The dashes dropped at the ends are no letters. */
  lemma StripKeepsAlnum(s: string)
    ensures Alnum(StripEdgeDash(s)) == Alnum(s)
  {
    var r := StripEdgeDash(s);
    var a := LeadDash(s);
    var b := a + |r|;
    var head, tail := s[..a], s[b..];
    assert s == head + (r + tail) by {
      assert r == s[a..b];
    }
    forall i | 0 <= i < |head| ensures !IsAlnum(head[i]) {
      assert head[i] == s[i] == '-';
    }
    forall i | 0 <= i < |tail| ensures !IsAlnum(tail[i]) {
      assert tail[i] == s[b + i] == '-';
    }
    AlnumOfNone(head);
    AlnumOfNone(tail);
    AlnumConcat(r, tail);
    AlnumConcat(head, r + tail);
  }

  /** Lower-casing maps letters to letters and leaves every other character alone. */
  lemma {:induction false} LowerKeepsAlnum(s: string)
    ensures Alnum(Lower(s)) == Lower(Alnum(s))
  {
    if |s| > 0 {
      assert Lower(s)[1..] == Lower(s[1..]);
      LowerKeepsAlnum(s[1..]);
      var head := if IsAlnum(s[0]) then [s[0]] else "";
      assert Lower(head + Alnum(s[1..])) == Lower(head) + Lower(Alnum(s[1..]));
    }
  }

  /** A slug keeps exactly the letters and numbers of its input, lower-cased and in order. */
  lemma ToSlugKeepsAlnum(input: string)
    ensures Alnum(ToSlug(input)) == Lower(Alnum(input))
  {
    TrimKeepsAlnum(input);
    LowerKeepsAlnum(Trim(input));
    StripKeepsAlnum(Squash(KeepSlugChars(DashSpaces(Lower(Trim(input))))));
    assert ToSlug(input) == Shape(Lower(Trim(input)));
  }

  /** An input with no letter and no number has the empty slug, and only such an input. */
  lemma ToSlugEmptyIff(input: string)
    ensures ToSlug(input) == "" <==> Alnum(input) == ""
  {
    ToSlugKeepsAlnum(input);
    var r := ToSlug(input);
    if r != "" {
      assert r[0] != '-' && IsSlugChar(r[0]);
      assert Alnum(r) != "";
    }
  }

  // ---------------------------------------------------------------- idempotence

  lemma {:induction false} DashSpacesFixed(s: string)
    requires forall i :: 0 <= i < |s| ==> !IsSpace(s[i])
    ensures DashSpaces(s) == s
  {
    if |s| > 0 {
      DashSpacesFixed(s[1..]);
    }
  }

  lemma {:induction false} KeepSlugCharsFixed(s: string)
    requires forall i :: 0 <= i < |s| ==> IsSlugChar(s[i])
    ensures KeepSlugChars(s) == s
  {
    if |s| > 0 {
      KeepSlugCharsFixed(s[1..]);
    }
  }

  lemma {:induction false} SquashFixed(s: string)
    requires NoDoubleDash(s)
    ensures Squash(s) == s
  {
    if |s| > 0 {
      SquashFixed(s[1..]);
    }
  }

  lemma StripFixed(s: string)
    requires CleanEdges(s)
    ensures StripEdgeDash(s) == s
  {
    assert LeadDash(s) == 0;
    assert s[0..|s|] == s;
  }

  lemma SlugHasNoSpace(s: string)
    requires IsSlug(s)
    ensures forall i :: 0 <= i < |s| ==> !IsSpace(s[i])
  {
    forall i | 0 <= i < |s| ensures !IsSpace(s[i]) {
      SlugCharNotSpace(s[i]);
    }
  }

  lemma SlugTrimLower(s: string)
    requires IsSlug(s)
    ensures Trim(s) == s && Lower(s) == s
  {
    SlugHasNoSpace(s);
    TrimFixed(s);
  }

  lemma SlugShaped(s: string)
    requires IsSlug(s)
    ensures Shape(s) == s
  {
    SlugHasNoSpace(s);
    DashSpacesFixed(s);
    KeepSlugCharsFixed(s);
    SquashFixed(s);
    StripFixed(s);
  }

  /** A slug goes through every stage unchanged. */
  lemma SlugFixed(s: string)
    requires IsSlug(s)
    ensures Shape(Lower(Trim(s))) == s
  {
    SlugTrimLower(s);
    SlugShaped(s);
  }

  /** A slug is its own slug: slugging twice is slugging once. */
  lemma ToSlugIdempotent(input: string)
    ensures ToSlug(ToSlug(input)) == ToSlug(input)
  {
    SlugFixed(ToSlug(input));
  }

}

=== FILE: text.dfy ===
/** Strings as JavaScript sees them: the whitespace set of `trim()` and `\s`,
    trimming, ASCII case mapping, decimal digits and the text of integers. */
module Text {

  /** The code points of ECMAScript's WhiteSpace and LineTerminator productions:
      exactly what `String.prototype.trim` strips and what `\s` matches. */
  predicate IsSpace(c: char) {
    var n := c as int;
    n == 0x09 || n == 0x0A || n == 0x0B || n == 0x0C || n == 0x0D || n == 0x20
    || n == 0xA0 || n == 0x1680 || (0x2000 <= n <= 0x200A)
    || n == 0x2028 || n == 0x2029 || n == 0x202F || n == 0x205F || n == 0x3000 || n == 0xFEFF
  }

  predicate AllSpace(s: string) {
    forall i :: 0 <= i < |s| ==> IsSpace(s[i])
  }

  /** Drops leading whitespace. */
  function TrimStart(s: string): (r: string)
    ensures |r| <= |s|
  {
    if |s| > 0 && IsSpace(s[0]) then TrimStart(s[1..]) else s
  }

  /** `TrimStart` cuts a run of whitespace from the front and nothing else. */
  lemma {:induction false} TrimStartShape(s: string)
    ensures var r := TrimStart(s);
      && r == s[|s| - |r|..]
      && (forall i :: 0 <= i < |s| - |r| ==> IsSpace(s[i]))
      && (r == [] || !IsSpace(r[0]))
  {
    if |s| > 0 && IsSpace(s[0]) {
      TrimStartShape(s[1..]);
      var r := TrimStart(s);
      assert s[1..][|s| - 1 - |r|..] == s[|s| - |r|..];
      forall i | 0 <= i < |s| - |r| ensures IsSpace(s[i]) {
        if i > 0 {
          assert s[i] == s[1..][i - 1];
        }
      }
    }
  }

  /** Drops trailing whitespace. */
  function TrimEnd(s: string): (r: string)
    ensures |r| <= |s|
  {
    if |s| > 0 && IsSpace(s[|s| - 1]) then TrimEnd(s[..|s| - 1]) else s
  }

  /** `TrimEnd` cuts a run of whitespace from the back and nothing else. */
  lemma {:induction false} TrimEndShape(s: string)
    ensures var r := TrimEnd(s);
      && r == s[..|r|]
      && (forall i :: |r| <= i < |s| ==> IsSpace(s[i]))
      && (r == [] || !IsSpace(r[|r| - 1]))
  {
    if |s| > 0 && IsSpace(s[|s| - 1]) {
      var init := s[..|s| - 1];
      TrimEndShape(init);
      var r := TrimEnd(s);
      assert init[..|r|] == s[..|r|];
      forall i | |r| <= i < |s| ensures IsSpace(s[i]) {
        if i < |s| - 1 {
          assert s[i] == init[i];
        }
      }
    }
  }

  /** Neither starts nor ends with whitespace. */
  predicate Trimmed(s: string) {
    s == [] || (!IsSpace(s[0]) && !IsSpace(s[|s| - 1]))
  }

  /** `s.trim()`: the longest slice of `s` that neither starts nor ends with whitespace. */
  function Trim(s: string): (r: string)
    ensures |r| <= |s|
    ensures r == [] <==> AllSpace(s)
  {
    var a := TrimStart(s);
    TrimStartShape(s);
    TrimEndShape(a);
    var r := TrimEnd(a);
    assert r == [] ==> a == [];
    assert a == [] ==> AllSpace(s);
    assert AllSpace(s) ==> a == [];
    r
  }

  /** Trimming only removes characters. */
  lemma TrimChars(s: string)
    ensures forall c :: c in Trim(s) ==> c in s
  {
    var a := TrimStart(s);
    TrimStartShape(s);
    TrimEndShape(a);
    var r := Trim(s);
    forall c | c in r ensures c in s {
      var k :| 0 <= k < |r| && r[k] == c;
      assert a[k] == c;
      assert s[|s| - |a| + k] == c;
    }
  }

  /** What trimming leaves neither starts nor ends with whitespace. */
  lemma TrimTrimmed(s: string)
    ensures Trimmed(Trim(s))
  {
    var a := TrimStart(s);
    TrimStartShape(s);
    TrimEndShape(a);
    assert Trim(s) == TrimEnd(a);
  }

  /** Trimming keeps a non-blank prefix: whitespace is only cut from the two ends. */
  lemma {:induction false} TrimKeepsPrefix(s: string, k: nat)
    requires k <= |s|
    requires forall i :: 0 <= i < k ==> !IsSpace(s[i])
    ensures k <= |Trim(s)| && Trim(s)[..k] == s[..k]
  {
    if k > 0 {
      assert TrimStart(s) == s;
      TrimEndShape(s);
      var r := TrimEnd(s);
      assert !IsSpace(s[k - 1]);
      assert k <= |r|;
    }
  }

  /** A string that neither starts nor ends with whitespace is its own trim. */
  lemma TrimFixed(s: string)
    requires Trimmed(s)
    ensures Trim(s) == s
  {
    if s != [] {
      assert TrimStart(s) == s;
      assert TrimEnd(s) == s;
    }
  }

  /** Trimming twice is trimming once. */
  lemma TrimIdempotent(s: string)
    ensures Trim(Trim(s)) == Trim(s)
  {
    TrimTrimmed(s);
    TrimFixed(Trim(s));
  }

  // ---------------------------------------------------------------- case

  /** `toLowerCase` restricted to ASCII letters. */
  function AsciiLower(c: char): (r: char)
    ensures 'A' <= c <= 'Z' ==> 'a' <= r <= 'z'
    ensures !('A' <= c <= 'Z') ==> r == c
  {
    if 'A' <= c <= 'Z' then (c as int + 32) as char else c
  }

  function Lower(s: string): (r: string)
    ensures |r| == |s|
    ensures forall i :: 0 <= i < |s| ==> r[i] == AsciiLower(s[i])
  {
    seq(|s|, i requires 0 <= i < |s| => AsciiLower(s[i]))
  }

  /** A character that `toLowerCase` leaves alone. */
  predicate IsLowered(c: char) {
    AsciiLower(c) == c
  }

  lemma LowerIsLowered(s: string)
    ensures forall i :: 0 <= i < |s| ==> IsLowered(Lower(s)[i])
  {
  }

  // ---------------------------------------------------------------- digits

  predicate IsDigit(c: char) {
    '0' <= c <= '9'
  }

  predicate AllDigits(s: string) {
    forall i :: 0 <= i < |s| ==> IsDigit(s[i])
  }

  predicate IsHexDigit(c: char) {
    IsDigit(c) || 'a' <= c <= 'f' || 'A' <= c <= 'F'
  }

  function DigitChar(d: int): (c: char)
    requires 0 <= d <= 9
    ensures IsDigit(c) && c as int - '0' as int == d
  {
    ('0' as int + d) as char
  }

  function DigitValue(c: char): (d: nat)
    requires IsDigit(c)
    ensures d <= 9 && DigitChar(d) == c
  {
    c as int - '0' as int
  }

  /** The value of a string of decimal digits, most significant first. */
  function DigitsValue(s: string): nat
    requires AllDigits(s)
  {
    if |s| == 0 then 0 else DigitsValue(s[..|s| - 1]) * 10 + DigitValue(s[|s| - 1])
  }

  /** The decimal text of a natural number, without leading zeros. */
  function NatText(n: nat): (r: string)
    ensures |r| > 0 && AllDigits(r)
    ensures |r| > 1 ==> r[0] != '0'
  {
    if n < 10 then [DigitChar(n)] else NatText(n / 10) + [DigitChar(n % 10)]
  }

  /** `String(n)` for an integer `n` (exponent notation for huge magnitudes is not modelled). */
  function IntText(n: int): (r: string)
    ensures |r| > 0
    ensures n < 0 <==> r[0] == '-'
  {
    if n < 0 then "-" + NatText(-n) else NatText(n)
  }

  /** Reading back the digits of a natural number gives the number. */
  lemma {:induction false} NatTextRoundTrip(n: nat)
    ensures DigitsValue(NatText(n)) == n
  {
    var r := NatText(n);
    if n >= 10 {
      var p := NatText(n / 10);
      NatTextRoundTrip(n / 10);
      assert r[..|r| - 1] == p;
    }
  }

  /** Distinct integers have distinct texts. */
  lemma IntTextInjective(a: int, b: int)
    requires IntText(a) == IntText(b)
    ensures a == b
  {
    if a < 0 {
      assert b < 0;
      assert NatText(-a) == IntText(a)[1..] == IntText(b)[1..] == NatText(-b);
      NatTextRoundTrip(-a);
      NatTextRoundTrip(-b);
    } else {
      assert b >= 0;
      NatTextRoundTrip(a);
      NatTextRoundTrip(b);
    }
  }

  // ---------------------------------------------------------------- prefixes

  /** The first `|p|` characters of `s` equal `p` up to ASCII case (a regex `^p` with the `i` flag). */
  predicate StartsWithIgnoringCase(s: string, p: string) {
    |p| <= |s| && forall i :: 0 <= i < |p| ==> AsciiLower(s[i]) == AsciiLower(p[i])
  }

  /** `/^https?:\/\//i.test(s)` */
  predicate IsHttpUrl(s: string) {
    StartsWithIgnoringCase(s, "http://") || StartsWithIgnoringCase(s, "https://")
  }

  /** Trimming an http(s) URL leaves an http(s) URL: its scheme contains no whitespace. */
  lemma TrimKeepsHttp(s: string)
    requires IsHttpUrl(s)
    ensures IsHttpUrl(Trim(s))
  {
    var k := if StartsWithIgnoringCase(s, "http://") then 7 else 8;
    assert forall i :: 0 <= i < k ==> !IsSpace(s[i]) by {
      forall i | 0 <= i < k ensures !IsSpace(s[i]) {
        if k == 7 {
          assert AsciiLower(s[i]) == AsciiLower("http://"[i]);
        } else {
          assert AsciiLower(s[i]) == AsciiLower("https://"[i]);
        }
      }
    }
    TrimKeepsPrefix(s, k);
    var t := Trim(s);
    assert forall i :: 0 <= i < k ==> t[i] == s[i] by {
      forall i | 0 <= i < k ensures t[i] == s[i] {
        assert t[..k][i] == s[..k][i];
      }
    }
  }
}

=== FILE: validation.dfy ===
/** The validators of the admin routes push one message per failed check onto a list and
    run every check whatever the earlier ones found (src/app/api/products/add/route.ts:48-86,
    src/app/api/products/edit/route.ts:48-70, src/app/api/brands/add/route.ts:10-22). */
module Validation {
  import opened Wrappers

  /** The checks of `ps` that fail, in the order they are made. */
  function Failed<P(==,!new)>(ps: seq<P>, fails: P -> bool): (errs: seq<P>)
    ensures forall q :: q in errs <==> q in ps && fails(q)
    ensures |errs| <= |ps|
  {
    if |ps| == 0 then []
    else (if fails(ps[0]) then [ps[0]] else []) + Failed(ps[1..], fails)
  }

  /** Strictly increasing by `rank`: each check at most once, in order. */
  predicate Ranked<P>(ps: seq<P>, rank: P -> nat) {
    forall i, j :: 0 <= i < j < |ps| ==> rank(ps[i]) < rank(ps[j])
  }

  /** Dropping the checks that pass keeps the others in their order. */
  lemma {:induction false} FailedRanked<P(!new)>(ps: seq<P>, fails: P -> bool, rank: P -> nat)
    requires Ranked(ps, rank)
    ensures Ranked(Failed(ps, fails), rank)
  {
    if |ps| > 0 {
      var rest := Failed(ps[1..], fails);
      FailedRanked(ps[1..], fails, rank);
      if fails(ps[0]) {
        var errs := [ps[0]] + rest;
        forall j | 0 < j < |errs| ensures rank(errs[0]) < rank(errs[j]) {
          assert errs[j] in rest;
          var k :| 0 <= k < |ps[1..]| && ps[1..][k] == errs[j];
          assert ps[k + 1] == errs[j];
        }
        forall i, j | 0 <= i < j < |errs| ensures rank(errs[i]) < rank(errs[j]) {
          if i > 0 {
            assert errs[i] == rest[i - 1] && errs[j] == rest[j - 1];
          }
        }
      }
    }
  }

  /** A validator making every check there is: None when reading the body throws, else
      the failing checks, each once and in check order. */
  function Validated<P(==,!new)>(ps: seq<P>, throws: bool, fails: P -> bool, rank: P -> nat)
    : (r: Option<seq<P>>)
    requires Ranked(ps, rank) && forall q :: q in ps
    ensures r.None? <==> throws
    ensures r.Some? ==> Ranked(r.value, rank) && forall q :: q in r.value <==> fails(q)
  {
    if throws then None
    else
      FailedRanked(ps, fails, rank);
      Some(Failed(ps, fails))
  }
}

=== FILE: wrappers.dfy ===
/** Optional values: `None` stands for JavaScript's `undefined` / `null` wherever
    the storefront's code treats the two alike. */
module Wrappers {

  datatype Option<+T> = None | Some(value: T) {

    /** Returns the value in Some, or a default when None */
    function GetOr(default: T): T {
      match this
      case Some(v) => v
      case None => default
    }
  }
}
